=== FILE: README.md ===
# BIOBAB in Dafny

This project models the core of BIOBAB. BIOBAB is a bi-objective branch-and-bound
solver for mixed integer programs whose two objectives, `z1` and `z2`, are both
minimised. The model covers these parts:

- The **upper bound set**: the non-dominated integer solutions found so far,
  kept sorted by `z1`.
- The **lower bound set**: a chain of segments in objective space, built by the
  node bound. The model covers its filtering by the upper bound set, its
  "discontinuous regions", and its split for objective-space branching.
- The **node lower bound**: a dichotomic search over weighted sums, with
  optional lifting of segments onto the grid.
- The **tree search**: a flexible FIFO/LIFO/best-first queue, variable scores,
  branchers, branching decisions and their cancellation, and the search loop.
- The **weighted sum and lexicographic solvers**, the **balanced box method**,
  and the **epsilon-constraint frameworks** (the one-direction framework and the
  bi-directional one).
- The small numeric helpers (`util.py`, `basicdata.py`) and the size parser of
  the command line (`humanToBytes`).

Objective values are `real`. The MIP/LP solver is always a function-typed
parameter (an *oracle*): `lexmin(k, right, top)` returns the lexicographic
minimum for objective `k` first within the box, or `None`. Python exceptions
and `sys.exit` are modelled as `Fallible` results (`Raises(IndexError)`,
`Raises(Exit(22))`, …). Loops that end only because the solver runs out of
answers take a `fuel` argument and return `None` when the fuel runs out.

Module layout (one Dafny module per source file):

- `Common`: options, Python errors, points, bounds-respecting oracles.
- `Params`: the switches and tolerances of `params.py`.
- `Util`, `BasicData`, `IntegerSolution`, `UpperBoundSet`, `Segments`,
  `LowerBoundSet`, `FlexibleQueue`, `BiobabNode`, `TreeSearch`,
  `WeightedSumSolver`, `BalancedBoxMethod`, `EpsilonConstraint`, `CliParser`.

## Model

| member | source | states |
|---|---|---|
| Util.Frac | biobab/util.py:29-30 | the fractional part used by the fractionality test lies in `[0, 1)` |
| Util.CeilFloor | biobab/util.py:29-30 | floor and ceiling enclose `x` within one unit; they equal `x` for an integer and differ by one otherwise |
| Util.IsFractional | biobab/util.py:29-30 | a value is fractional iff its fractional part lies strictly between `epsilon` and `1 - epsilon` |
| Util.IntegersAreNotFractional | biobab/util.py:29-30 | no integer is fractional |
| Util.SeqMin | biobab/util.py:32-33 | the minimum is a member of the list and is at most every member |
| Util.SeqMax | biobab/util.py:32-33 | the maximum is a member of the list and is at least every member |
| Util.SumBounds | biobab/util.py:32-33 | the sum of a list lies between length × lower bound and length × upper bound |
| Util.ListAvg | biobab/util.py:32-33 | the average of a non-empty list lies between its minimum and its maximum |
| Util.PyMod | biobab/util.py:23-24 | Python's `%` on integers takes the sign of the divisor: in `[0, b)` for `b > 0` and in `(b, 0]` for `b < 0` |
| Util.PyDivMod | biobab/util.py:23-24 | floor division and `%` satisfy `a == b * (a // b) + a % b` |
| Util.GcdDivides | biobab/util.py:23-24 | Euclid's gcd divides both arguments |
| Util.FoldGcdDivides | biobab/util.py:23-24 | the folded gcd divides the accumulator and every remaining element |
| Util.ListGcdDividesAll | biobab/util.py:23-24 | `listGCD(l)` divides every element of the list |
| Util.SimilarValuesReflexive | biobab/util.py:46-50 | every value is similar to itself under any non-negative tolerance for which the comparison is defined |
| Util.SimilarValuesAbsolute | biobab/util.py:46-50 | when `opt` is below the tolerance, similarity means `ub` lies within the tolerance of `opt` |
| Util.SimilarValuesRelative | biobab/util.py:46-50 | when `opt` is at least the positive tolerance, similarity means `ub` lies within `tolerance * opt` of `opt` |
| Util.CloseEnoughReflexive | biobab/util.py:54-56 | every point is close enough to itself |
| BasicData.MultipleOnGrid | biobab/basicdata.py:14-28 | every integer multiple of the grid step lies on the grid |
| BasicData.GridGap | biobab/basicdata.py:14-16 | two on-grid values `v < w` are at least one grid step apart |
| BasicData.ImproveWithIntegrality | biobab/basicdata.py:14-16 | the improved point lies strictly within one grid step below the point in each coordinate |
| BasicData.CeilTo | biobab/basicdata.py:18-20 | the rounded-up value lies on the grid, is at least `v`, and is less than one step above it |
| BasicData.FloorTo | biobab/basicdata.py:22-24 | the rounded-down value lies on the grid, is at most `v`, and is less than one step below it |
| BasicData.RoundTo | biobab/basicdata.py:26-28 | the rounded value lies on the grid within half a step of `v` |
| BasicData.CeilCoords | biobab/basicdata.py:18-20 | both coordinates are rounded up onto their grids |
| BasicData.FloorCoords | biobab/basicdata.py:22-24 | both coordinates are rounded down onto their grids |
| BasicData.RoundCoords | biobab/basicdata.py:26-28 | both coordinates are rounded to the nearest grid values |
| BasicData.CeilToUnique | biobab/basicdata.py:18-20 | an on-grid value in `[v, v + e)` is the rounded-up value; this is an independent characterisation |
| BasicData.FloorToUnique | biobab/basicdata.py:22-24 | an on-grid value in `(v - e, v]` is the rounded-down value |
| BasicData.FloorToGreatest | biobab/basicdata.py:22-24 | every on-grid value at most `v` is at most the rounded-down value |
| BasicData.CeilToLeast | biobab/basicdata.py:18-20 | every on-grid value at least `v` is at least the rounded-up value |
| BasicData.FloorCeilOrder | biobab/basicdata.py:18-24 | floor ≤ ceiling, with equality exactly when `v` is on the grid, and otherwise they are one step apart |
| BasicData.FloorCeilCoordsOrder | biobab/basicdata.py:18-24 | the floored point lies weakly below and left of the ceiled point, and they coincide iff the point is on the grid |
| IntegerSolution.MakeSolution | biobab/integersolution.py:11-29 | a solution keeps its objective values; its improved values equal them without integer dominance, and lie strictly within one grid step below them with it |
| IntegerSolution.DominatesIsPareto | biobab/integersolution.py:31-36 | for on-grid solutions, `dominates` is exactly weak Pareto dominance on the objective values |
| IntegerSolution.DominanceIsPreorder | biobab/integersolution.py:31-36 | without integer dominance, dominance between solutions is reflexive and transitive |
| IntegerSolution.DominatesNearbyPoints | biobab/integersolution.py:31-36 | with integer dominance, `a` dominates exactly the solutions whose values are at least `a`'s values minus 0.9 grid steps |
| IntegerSolution.WellFormedDominanceIsPreorder | biobab/integersolution.py:31-36 | on well-formed solutions, dominance is reflexive and transitive in both modes |
| UpperBoundSet.PyIndex | biobab/upperboundset.py:28-44 | a Python index in `[-n, n)` reads a member; a non-negative one reads that position |
| UpperBoundSet.Search | biobab/upperboundset.py:28-44 | the bisection ends with adjacent indices inside `[left, right]` that still bracket `z1` when the list is strictly increasing in `z1` |
| UpperBoundSet.Position | biobab/upperboundset.py:28-44 | the lower index is `-1` iff `z1` is at most the first member's; on a list increasing in `z1` the lower neighbour is left of `z1` and the upper one at or right of it |
| UpperBoundSet.PositionSplits | biobab/upperboundset.py:28-44 | on a list sorted by `z1`, every solution before the position has a smaller `z1` and every one after it has a larger or equal `z1` |
| UpperBoundSet.CountDominated | biobab/upperboundset.py:51-56 | the count stops at the first member after position `k` that the new solution does not dominate, and every member it counts is dominated |
| UpperBoundSet.Update | biobab/upperboundset.py:11-56 | the set is unchanged or contains the new solution; nothing else is added, and it grows by at most one |
| UpperBoundSet.FrontierIsStaircase | biobab/upperboundset.py:11-56 | a well-formed set is mutually non-dominated and sorted iff `z1` strictly increases and `z2` strictly decreases |
| UpperBoundSet.SurvivorsMembers | biobab/upperboundset.py:51-56 | the survivors are exactly the members the new solution does not dominate |
| UpperBoundSet.InsertByZ1Members | biobab/upperboundset.py:11-56 | insertion adds exactly the new solution |
| UpperBoundSet.UpdateCorrect | biobab/upperboundset.py:11-56 | on a frontier, the binary-search update equals the reference update: unchanged if dominated, otherwise dominated members are removed and the solution is inserted by `z1`; the frontier is kept |
| UpperBoundSet.UpdateIdempotent | biobab/upperboundset.py:11-56 | inserting the same solution twice changes nothing the second time |
| UpperBoundSet.UpdateMembers | biobab/upperboundset.py:11-56 | the members after the update are the old members when the solution is dominated, and otherwise the undominated old members plus the solution |
| UpperBoundSet.UpdateKeepsCoverage | biobab/upperboundset.py:11-56 | every solution dominated by the set before the update is still dominated after it |
| UpperBoundSet.UpdateCovers | biobab/upperboundset.py:11-56 | after the update the new solution is dominated by some member |
| UpperBoundSet.LeftOfFirstReadsLast | biobab/upperboundset.py:28-44 | a solution at or left of the first member is compared with the last member through index `-1`, so it is not inserted when that member dominates it |
| UpperBoundSet.UpdateAll | biobab/upperboundset.py:11-56 | repeated updates keep only members of the old set or of the inserted solutions |
| UpperBoundSet.UpdateAllCovers | biobab/upperboundset.py:11-56 | repeated updates keep the frontier and leave every inserted solution and every old member dominated by the final set |
| UpperBoundSet.FilterWith | biobab/upperboundset.py:76-87 | the loop computes the reference filter: the members not dominated by any member of the other set |
| UpperBoundSet.KeepUndominatedMembers | biobab/upperboundset.py:76-87 | a member is kept iff no member of the other set dominates it |
| UpperBoundSet.KeepUndominatedIdempotent | biobab/upperboundset.py:76-87 | filtering twice by the same set equals filtering once |
| UpperBoundSet.KeepUndominatedFrontier | biobab/upperboundset.py:76-87 | filtering a frontier leaves a frontier |
| Segments.LineThrough | biobab/segment.py:10-19 | the line through two points with distinct `z1` passes through both |
| Segments.MakeSegment | biobab/segment.py:10-19 | building raises `ZeroDivisionError` iff the ends are distinct, not close enough, and share `z1`; a built segment keeps ends, bounds and metadata, and its line passes through both ends |
| Segments.ConsideredMeaning | biobab/segment.py:64-72 | for a well-built segment on a non-increasing line, it is kept iff segment tightening is off or some on-grid point lies inside its box on or above its line, and dropped iff tightening is on and no such point exists |
| Segments.Corner | biobab/segment.py:23-28 | for a solution built by the search, a point is dominated by it iff the point lies weakly above and right of the corner the filter cuts at |
| Segments.Filter | biobab/segment.py:23-61 | filtering yields at most two pieces, each carrying the segment's metadata |
| Segments.FilterPiecesOnLine | biobab/segment.py:23-61 | every piece of a filtered segment is itself a constructor-built segment on the original line |
| Segments.FilterRaisesIff | biobab/segment.py:23-61 | filtering raises `TypeError` exactly when the corner cuts into a segment that has no slope (equal or close-enough ends), and raises nothing else |
| Segments.FilterRemovesDominatedPoint | biobab/segment.py:23-61 | a single-point segment strictly dominated by the corner is removed entirely |
| Segments.NoTighteningConsidersAll | biobab/segment.py:64-65 | without segment tightening every segment is considered |
| Segments.KeptSegmentUndominated | biobab/segment.py:23-61 | when the endpoints are kept, no interior point of a decreasing segment lies strictly inside the corner's dominated region |
| Segments.CutPiecesCover | biobab/segment.py:23-61 | without tightening, the two pieces of a cut segment cover an interior abscissa iff that point of the line is not strictly dominated by the corner |
| Segments.FilterRemovesDominatedPart | biobab/segment.py:23-61 | without tightening, filtering a decreasing segment never raises, and the pieces cover exactly the interior points the corner does not strictly dominate |
| Segments.ContainsIntegerPointFinds | biobab/segment.py:68-72 | when the test succeeds, the grid point below `(right, top)` lies on the grid, inside the segment's box, and on or above its line |
| Segments.GridPointWitness | biobab/segment.py:68-72 | any on-grid point inside the box and on or above a non-increasing line makes the test succeed |
| LowerBoundSet.FilterPoint | biobab/lowerboundset.py:28-33 | filtering by one solution at most doubles the number of segments |
| LowerBoundSet.FilterPointAppend | biobab/lowerboundset.py:28-33 | filtering distributes over concatenation of segment lists |
| LowerBoundSet.FilterPointProvenance | biobab/lowerboundset.py:28-33 | every output segment is constructor-built and carries the metadata and line of some input segment |
| LowerBoundSet.FilterAllAppend | biobab/lowerboundset.py:23-25 | filtering by two upper bound lists in turn equals filtering by their concatenation |
| LowerBoundSet.Breaks | biobab/lowerboundset.py:59-77 | break indices are increasing and below the limit |
| LowerBoundSet.DiscontinuousRegions | biobab/lowerboundset.py:59-77 | the loop yields exactly the reference regions: none for an empty set, otherwise one region closed at each break plus a final one, where a break is a gap of at least `lbMaxGap` between segments whose tops differ |
| LowerBoundSet.BreaksAreExactlyTheBreaks | biobab/lowerboundset.py:59-77 | an index is a break iff it lies below the limit, the gap after it is at least `lbMaxGap` in either objective, and the two segments' tops differ |
| LowerBoundSet.RegionsShape | biobab/lowerboundset.py:59-77 | there is one more region than breaks; the first region starts at the first top and the last ends at the last right |
| LowerBoundSet.NoBreakSingleRegion | biobab/lowerboundset.py:59-77 | without breaks the whole set is one region |
| LowerBoundSet.BoundsOfRegions | biobab/lowerboundset.py:8-12 | `right()` and `top()` raise exactly on an empty set; otherwise `right()` is where the last region ends and `top()` is where the first region starts |
| LowerBoundSet.SplitBounds | biobab/lowerboundset.py:8-12 | every set produced by splitting reports the right bound and top of the region it came from |
| LowerBoundSet.FilterKeepsLeaf | biobab/lowerboundset.py:28-33 | filtering a leaf by one solution never raises and leaves a leaf; a single-point leaf either vanishes or keeps its point |
| LowerBoundSet.FilterAllKeepsLeaf | biobab/lowerboundset.py:23-25 | filtering a leaf by a whole upper bound list never raises and leaves a leaf |
| LowerBoundSet.InsertPoint | biobab/lowerboundset.py:110-139 | sorted insertion adds exactly the given point |
| LowerBoundSet.SortedSetUnique | biobab/lowerboundset.py:110-139 | two strictly sorted lists with the same members are equal |
| LowerBoundSet.RegionPoints | biobab/lowerboundset.py:110-139 | the points of a region are exactly the segment endpoints inside it, strictly sorted |
| LowerBoundSet.MetaMap | biobab/lowerboundset.py:15-20 | the metadata map has exactly the segment endpoints as keys |
| LowerBoundSet.MetaMapLastWriteWins | biobab/lowerboundset.py:15-20 | a key's metadata is that of its last occurrence among the endpoints |
| LowerBoundSet.Chain | biobab/lowerboundset.py:110-139 | chaining raises only `ZeroDivisionError`; otherwise it links consecutive points in order, each segment bounded by the next point's `z1` and the given top, with the points' metadata |
| LowerBoundSet.SplitAll | biobab/lowerboundset.py:110-139 | a successful split gives, in order, one sub-set per region |
| LowerBoundSet.Split | biobab/lowerboundset.py:110-139 | a set with a single region is returned unchanged; otherwise there is one sub-set per region |
| LowerBoundSet.SplitRegionSegments | biobab/lowerboundset.py:110-139 | each sub-set segment joins two endpoints of the set inside the region, in lexicographic order, with their last-written metadata |
| LowerBoundSet.SplitRegionCovers | biobab/lowerboundset.py:110-139 | every endpoint of the set inside the region is an end of some segment of the sub-set |
| LowerBoundSet.SplitRegionShape | biobab/lowerboundset.py:110-139 | a region with fewer than two endpoints raises `IndexError`; otherwise the sub-set chains the region's points under the region's bounds |
| LowerBoundSet.SplitShape | biobab/lowerboundset.py:110-139 | with several regions, sub-set `i` chains the points of region `i` under its bounds |
| FlexibleQueue.NewQueue | biobab/flexiblequeue.py:6-11 | a new queue is empty and has the requested discipline |
| FlexibleQueue.IsEmpty | biobab/flexiblequeue.py:29-33 | `empty()` holds iff `len` is zero |
| FlexibleQueue.Push | biobab/flexiblequeue.py:13-17 | a push adds exactly one entry and keeps the discipline |
| FlexibleQueue.MinIndex | biobab/flexiblequeue.py:19-27 | the index of the first entry with the least score |
| FlexibleQueue.RemoveAt | biobab/flexiblequeue.py:19-27 | removal drops exactly one entry, as a multiset |
| FlexibleQueue.Pop | biobab/flexiblequeue.py:19-27 | an unknown discipline returns nothing; an empty queue raises `IndexError`; otherwise one stored item is removed |
| FlexibleQueue.FifoPopsOldest | biobab/flexiblequeue.py:19-27 | FIFO pops the oldest entry |
| FlexibleQueue.LifoPopsNewest | biobab/flexiblequeue.py:19-27 | LIFO pops the newest entry |
| FlexibleQueue.BestPopsMinimum | biobab/flexiblequeue.py:19-27 | best-first pops an entry with the least score |
| FlexibleQueue.LifoPushPop | biobab/flexiblequeue.py:13-27 | in LIFO, a pop undoes the push just made |
| FlexibleQueue.Items | biobab/flexiblequeue.py:13-27 | the items of the entries, in order |
| FlexibleQueue.FifoDrainsInOrder | biobab/flexiblequeue.py:13-27 | draining a FIFO queue yields its items in insertion order |
| FlexibleQueue.LifoDrainsReversed | biobab/flexiblequeue.py:13-27 | draining a LIFO queue yields its items in reverse order |
| FlexibleQueue.DrainScoresFromEntries | biobab/flexiblequeue.py:19-27 | best-first draining visits each stored score once |
| FlexibleQueue.BestDrainsSorted | biobab/flexiblequeue.py:19-27 | best-first draining yields scores in non-decreasing order |
| BiobabNode.WeightsLevelLine | biobab/biobabnode.py:107-112 | the weights `(c1.y - c2.y, c2.x - c1.x)` give both corner points the same scalar value |
| BiobabNode.BelowLineIffSmaller | biobab/biobabnode.py:107-112 | a point has a smaller weighted value than the corners iff it lies below their line |
| BiobabNode.DefinesValidLB | biobab/biobabnode.py:15-19 | the test raises `ZeroDivisionError` iff the two points share `z1` |
| BiobabNode.DefinesValidLBMeaning | biobab/biobabnode.py:15-19 | for a pair running down to the right, the test holds iff every grid point beyond the corner `(p1.x, p2.y)` lies strictly above the pair's line |
| BiobabNode.NodeSimilarValuesBounds | biobab/biobabnode.py:23-27 | the node's similarity test is reflexive, absolute near zero, and bounded by the relative tolerance elsewhere |
| BiobabNode.Root | biobab/biobabnode.py:30-38 | the root node has no decisions, depth 0 and the largest score |
| BiobabNode.ScoreMonotone | biobab/biobabnode.py:30-38 | a node within smaller non-negative bounds scores no higher |
| BiobabNode.ApplyAllAppend | biobab/biobabnode.py:142-144 | applying `ds + [d]` applies `d` after `ds` |
| BiobabNode.ApplyAllPrepend | biobab/biobabnode.py:142-144 | applying `[d] + ds` applies `d` first |
| BiobabNode.CancelAllIsReversed | biobab/biobabnode.py:146-149 | cancelling is applying the cancel steps in reverse order |
| BiobabNode.CancelAllUndoesApplyAll | biobab/biobabnode.py:142-149 | when each cancel undoes its apply, cancelling all decisions undoes applying them |
| BiobabNode.Lookup | biobab/biobabnode.py:58-59 | reading the metadata of an unknown point raises `KeyError`; otherwise it returns the stored entry |
| BiobabNode.AddIfMustSub | biobab/biobabnode.py:50-61 | the hull gains at most one segment from `c1` to `c2`, with the node's top and right bound `c2.x` while pairs remain; with known points only `ZeroDivisionError` can be raised |
| BiobabNode.Collapse | biobab/biobabnode.py:89-91 | a popped pair keeps its left point, and its right point collapses onto the left one when they are close enough |
| BiobabNode.Accepts | biobab/biobabnode.py:101-105 | equal points are always accepted; without lifting only equal points are accepted |
| BiobabNode.Step | biobab/biobabnode.py:87-139 | a step exits with code 8 iff the popped pair is inconsistent (left point right of the right one) |
| BiobabNode.Probe | biobab/biobabnode.py:107-139 | no new point drops the pair; a point on the level line accepts it; any other point pushes the two sub-pairs through it and records its metadata |
| BiobabNode.LowerBound | biobab/biobabnode.py:65-79 | as written: an infeasible extreme gives an empty set and leaves the cutoff switch off |
| BiobabNode.LowerBoundLosesCutoff | biobab/biobabnode.py:65-79 | as written, an infeasible node returns before the solver's cutoff is restored |
| BiobabNode.LowerBoundRestoring | biobab/biobabnode.py:65-79 | corrected: the cutoff is restored on every path and the bound set is unchanged |
| BiobabNode.StartInvariant | biobab/biobabnode.py:85-86 | the loop invariant holds for the initial stack |
| BiobabNode.StepStack | biobab/biobabnode.py:87-139 | a step replaces the top pair by zero or two pairs |
| BiobabNode.StepKeepsChain | biobab/biobabnode.py:87-139 | the stack stays a chain of adjacent pairs ending at the second extreme |
| BiobabNode.StepKeepsMeta | biobab/biobabnode.py:87-139 | every point on the stack keeps a metadata entry |
| BiobabNode.StepNoKeyError | biobab/biobabnode.py:50-61 | with known corners, a step never raises `KeyError` |
| BiobabNode.StepKeepsHull | biobab/biobabnode.py:87-139 | every hull segment runs left to right with the node's top and a right bound that is its right end or the node's |
| BiobabNode.StepKeepsInvariant | biobab/biobabnode.py:87-139 | a step preserves the whole loop invariant |
| BiobabNode.RefineResult | biobab/biobabnode.py:87-140 | the dichotomic loop never raises `KeyError`, and every hull segment has the node's top |
| BiobabNode.LowerBoundShape | biobab/biobabnode.py:44-140 | the node bound never raises `KeyError`, and every segment it returns has the node's top |
| BiobabNode.StepKeepsOrder | biobab/biobabnode.py:87-139 | unless the popped pair collapses leftwards, a step keeps consecutive accepted segments non-overlapping and all of them left of the next pair |
| BiobabNode.RefineOrdered | biobab/biobabnode.py:87-140 | a finished loop without leftward collapses returns consecutive segments in left-to-right order |
| BiobabNode.LowerBoundSorted | biobab/biobabnode.py:131-136 | on a run without leftward collapses, every segment of the node bound lies left of every later one |
| TreeSearch.ClosestToOneScore | biobab/treesearch.py:86-92 | the score is the largest recorded value below `1 - zero`, or 0 when there is none |
| TreeSearch.FurthestToOneScore | biobab/treesearch.py:95-101 | as written: the score is zero or `1 - v` for some recorded `v` below one |
| TreeSearch.FurthestToOneIntended | biobab/treesearch.py:95-101 | corrected: the score is the largest distance to one among recorded values below one |
| TreeSearch.FurthestToOneMissesFurthest | biobab/treesearch.py:95-101 | on `[0.3, 0.6]` the written score is 0.4, not the furthest distance 0.7 |
| TreeSearch.CountFractional | biobab/treesearch.py:104-109 | the count is zero iff no value is fractional, and the length iff all are |
| TreeSearch.ReciprocalScoreShape | biobab/treesearch.py:112-123 | the reciprocal score lies in `(0, 10^6]`, equals `10^6` exactly for distances up to `zero`, and strictly decreases beyond |
| TreeSearch.Select | biobab/treesearch.py:59-80 | the selected index is among those seen, and exists whenever the best score is positive |
| TreeSearch.ConsiderCorrect | biobab/treesearch.py:59-80 | one more loop iteration keeps the selection the first highest-scoring eligible candidate of highest priority |
| TreeSearch.SelectCorrect | biobab/treesearch.py:59-80 | after `n` candidates the selection is the first highest-scoring eligible candidate of highest priority, or none iff none is eligible |
| TreeSearch.BestCandidateChoice | biobab/treesearch.py:59-80 | no variable is chosen iff none is eligible; otherwise the chosen one is eligible and no eligible one has higher priority, or equal priority and a higher score, or is earlier with an equal score |
| TreeSearch.GenBranches | biobab/treesearch.py:49-57 | no branches iff no candidate is eligible; otherwise two bound decisions, `<= 0` then `>= 1`, on the best variable |
| TreeSearch.ObjectiveSpaceBranches | biobab/treesearch.py:129-139 | `None` iff objective-space branching is off; no branches for a single region; otherwise one decision per region |
| TreeSearch.SetBound | biobab/treesearch.py:225-240 | setting one bound changes only that bound of that variable |
| TreeSearch.ObjectiveSpaceApply | biobab/treesearch.py:204-210 | an objective-space decision caps the box by the region's bounds, leaves variable bounds alone, is idempotent, and its cancel changes nothing |
| TreeSearch.BinaryBoundRoundTrip | biobab/treesearch.py:225-240 | applying a bound decision sets that bound; cancelling it resets the bound to its default and leaves the box and all other bounds |
| TreeSearch.TouchedSnoc | biobab/treesearch.py:225-240 | a bound is touched by `ds + [d]` iff `ds` touched it or `d` sets it |
| TreeSearch.ApplyAllUntouched | biobab/treesearch.py:225-240 | applying decisions leaves untouched bounds as they were |
| TreeSearch.CancelAllResets | biobab/treesearch.py:238-240 | cancelling resets every touched bound to its default and leaves the rest |
| TreeSearch.ApplyCancelRestoresLp | biobab/biobabnode.py:142-149 | applying then cancelling a node's decisions on a default model restores every bound to its default |
| TreeSearch.ApplyAllBounds | biobab/treesearch.py:204-206 | applying decisions only shrinks the box, below every applied region, and each bound is the original or some region's |
| TreeSearch.ApplyAllKeepsSmallerBounds | biobab/treesearch.py:204-206 | regions no tighter than the box leave it unchanged |
| TreeSearch.ApplyAllIdempotentOnBounds | biobab/treesearch.py:198-240 | applying the same decisions twice gives the same box as applying them once |
| TreeSearch.Child | biobab/treesearch.py:325-332 | a child exists iff the sub-set is non-empty (else `IndexError`); it is one level deeper, has one more decision, and has bounds capped by the sub-set |
| TreeSearch.ChildScoreBelowParent | biobab/treesearch.py:325-332 | a child never scores higher than its parent |
| TreeSearch.FirstBranches | biobab/treesearch.py:321-333 | the only error the branchers can cause is the `TypeError` of taking the length of a switched-off objective-space brancher's `None` |
| TreeSearch.FirstNonEmptyWitness | biobab/treesearch.py:321-333 | non-empty branches come from one brancher, and every brancher before it answered with no branches |
| TreeSearch.FirstNonEmptyNone | biobab/treesearch.py:321-333 | the result is empty exactly when every brancher answers with no branches |
| TreeSearch.FirstBranchesIsFirst | biobab/treesearch.py:321-333 | the result is the branches of the first brancher yielding any, all earlier ones yielding none; no branches iff none yields any |
| TreeSearch.ChildrenFor | biobab/treesearch.py:325-332 | one child per branch, in order, each built by `Child` |
| TreeSearch.Children | biobab/treesearch.py:314-333 | every child is one level deeper, extends the parent's decisions by one, and has no larger bounds |
| TreeSearch.Expand | biobab/treesearch.py:314-333 | a leaf has no children; without objective-space branching the whole set is branched on |
| TreeSearch.QueueMode | biobab/treesearch.py:252-263 | breadth, depth and best give FIFO, LIFO and best-first; any other strategy exits with code 8 |
| TreeSearch.PushAll | biobab/treesearch.py:325-332 | pushing children adds one entry each and keeps the discipline |
| TreeSearch.SearchStep | biobab/treesearch.py:286-333 | one iteration shrinks the queue by at most the popped node and keeps the discipline |
| TreeSearch.Narrowed | biobab/treesearch.py:204-210 | applying a node's decisions caps its box by every objective-space region it carries; each bound stays the node's own or becomes one region's, and cancelling leaves the box capped |
| TreeSearch.ExpandAsWritten | biobab/lowerboundset.py:118-139 | as written: outside objective-space splitting, and when the split yields one set, the expansion agrees with `Expand` |
| TreeSearch.AsWrittenFollowsLastRegion | biobab/lowerboundset.py:118-139 | as written: a node split into several regions is fathomed whole when the last region offers no branching candidate, whatever the other regions record |
| TreeSearch.SharedValuesDropsRegion | biobab/lowerboundset.py:118-139 | with two regions of which only the first records a fractional value, the written code builds no child, while branching each region on its own values builds that region's two children |
| TreeSearch.NoCandidatesNoChildren | biobab/treesearch.py:319-333 | when no set's values offer a candidate to any priority brancher, no child is built |
| TreeSearch.ChildrenBranchEveryRegion | biobab/treesearch.py:319-333 | corrected: every branch the first yielding brancher finds for a sub-set on its own values becomes a child in the result |
| TreeSearch.ExpandChildren | biobab/treesearch.py:314-333 | every child built for a node is one level deeper, extends its decisions by one, and lies in its box |
| TreeSearch.SearchStepChildren | biobab/treesearch.py:286-333 | one iteration replaces the popped node by its children, each one level deeper, extending its decisions, inside its box and inside every region its objective-space decisions name |
| TreeSearch.LeafIsFathomed | biobab/treesearch.py:314 | a node whose bound set is a leaf is fathomed: the queue shrinks by one |
| TreeSearch.Search | biobab/treesearch.py:285-333 | the search ends at once on an empty queue |
| WeightedSumSolver.WsValueMonotone | biobab/weightedsumsolver.py:24-25 | with non-negative weights the weighted value is monotone in both objectives, strictly with positive weights |
| WeightedSumSolver.Snap | biobab/weightedsumsolver.py:40-47 | a value is kept or replaced by a smaller bound, and ends at or below the bound iff it was there or exceeded it by less than the tolerance |
| WeightedSumSolver.SnapIdempotent | biobab/weightedsumsolver.py:40-47 | snapping twice equals snapping once, and values within the bound are kept |
| WeightedSumSolver.WsLowerBound | biobab/weightedsumsolver.py:27-55 | infeasible gives an empty set; a value undercut by the upper bound set gives an empty set; otherwise one degenerate segment at the snapped point |
| WeightedSumSolver.WsLowerBoundWellBuilt | biobab/weightedsumsolver.py:27-55 | every segment of the weighted sum bound is well built |
| WeightedSumSolver.WsBound | biobab/weightedsumsolver.py:62-73 | the bounder keeps the set or empties it, and empties it iff some upper bound strictly improves on its weighted value |
| WeightedSumSolver.BoundKeepsNodeResult | biobab/weightedsumsolver.py:27-73 | with non-negative weights, the bounder never discards what the node bound kept |
| WeightedSumSolver.BestIndex | biobab/weightedsumsolver.py:76-117 | the index of the first solution within the bounds whose weighted value is least, or `None` iff none is within the bounds |
| WeightedSumSolver.Solve | biobab/weightedsumsolver.py:76-117 | the found solutions are merged into the upper bound set; the returned point is the best within the bounds |
| WeightedSumSolver.SolveMergesFound | biobab/weightedsumsolver.py:76-117 | merging keeps the upper bound set a frontier and covers every found solution |
| WeightedSumSolver.Lexmin | biobab/weightedsumsolver.py:123-131 | as written: `lex` and `ws` dispatch to their solvers; any other method raises `AttributeError` |
| WeightedSumSolver.LexminUnknownMethodRaises | biobab/weightedsumsolver.py:128-131 | an unknown method raises `AttributeError` from the message, before `sys.exit(22)` is reached |
| WeightedSumSolver.LexminIntended | biobab/weightedsumsolver.py:123-131 | corrected: an unknown method exits with code 22 |
| WeightedSumSolver.SolveLexIsLexmin | biobab/weightedsumsolver.py:133-141 | with an exact weighted-sum solver, the two-stage solve finds the lexicographic minimum in the box, or `None` iff the box holds no point |
| WeightedSumSolver.SolveWSIsEfficient | biobab/weightedsumsolver.py:143-145 | with an exact weighted-sum solver and positive `wsEpsilon`, the answer is a point of the box that no other point of the box weakly dominates, and `None` iff the box is empty |
| BalancedBoxMethod.ScoreIsNegatedArea | biobab/balancedboxmethod.py:13-27 | a rectangle's score is minus its area; it contains its corners iff its width and height are non-negative |
| BalancedBoxMethod.PushIfMust | biobab/balancedboxmethod.py:59-64 | exactly one entry, the rectangle with its score, is added iff it is worth exploring; otherwise the queue is unchanged |
| BalancedBoxMethod.PushIfMustWellQueued | biobab/balancedboxmethod.py:59-64 | the queue only ever holds rectangles worth exploring, each with its score |
| BalancedBoxMethod.PopsLargestRectangle | biobab/balancedboxmethod.py:30-33 | the best-first queue pops a rectangle of largest area |
| BalancedBoxMethod.Dispatch | biobab/balancedboxmethod.py:98-116 | skip iff not worth exploring; harvest iff worth exploring and the area exceeds `beta` times the initial area; otherwise the basic split |
| BalancedBoxMethod.QueuedNeverSkipped | biobab/balancedboxmethod.py:59-116 | a rectangle taken from a well-kept queue is never skipped |
| BalancedBoxMethod.BasicSplit | biobab/balancedboxmethod.py:118-150 | the split raises `TypeError` iff the lower half has no point; the lower child spans from the point to the rectangle's bottom corner and the upper one from its top corner, both at least a grid step wide |
| BalancedBoxMethod.BasicSplitHalves | biobab/balancedboxmethod.py:118-150 | the lower child's height is at most half the rectangle; the upper child ends a grid step left of the found point; the children are disjoint |
| BalancedBoxMethod.ExploreBasically | biobab/balancedboxmethod.py:118-150 | the basic exploration fails iff the split fails, and otherwise adds at most two rectangles |
| BalancedBoxMethod.ExploreBasicallyWellQueued | biobab/balancedboxmethod.py:118-150 | the basic exploration keeps the queue well kept |
| BalancedBoxMethod.Inside | biobab/balancedboxmethod.py:203-213 | keeps exactly the solutions inside the rectangle |
| BalancedBoxMethod.FromRect | biobab/balancedboxmethod.py:203-213 | the harvested solutions come from the set and lie in the shrunk rectangle |
| BalancedBoxMethod.FromRectCovers | biobab/balancedboxmethod.py:203-213 | the harvest is a frontier that covers every solution of the set inside the shrunk rectangle |
| BalancedBoxMethod.MergeHarvested | biobab/balancedboxmethod.py:46-54 | merged solutions come from the set or the harvest |
| BalancedBoxMethod.MergeHarvestedCovers | biobab/balancedboxmethod.py:46-54 | merging keeps a frontier that covers every harvested solution |
| BalancedBoxMethod.StartHarvest | biobab/balancedboxmethod.py:153-166 | the harvest is merged into the set; the basic split is used iff every solution of the rectangle is covered, and otherwise the uncovered ones remain to harvest |
| BalancedBoxMethod.RelaxedHarvestFallsBack | biobab/balancedboxmethod.py:153-166 | when the rectangle's solutions are the harvest itself, they are all covered after merging, so the basic split is always used |
| BalancedBoxMethod.Explore | biobab/balancedboxmethod.py:98-116 | a skipped rectangle leaves queue and set unchanged; a basic one is explored basically; a harvested one merges into the set |
| BalancedBoxMethod.Start | biobab/balancedboxmethod.py:66-85 | the method raises `TypeError` iff either extreme point is missing; otherwise it starts a well-kept best-first queue of at most one rectangle and records the area spanned by the extremes |
| EpsilonConstraint.Run | biobab/epsilonconstraintframework.py:27-47 | the first point is the oracle's answer at the starting bounds; an empty run means the first answer was infeasible |
| EpsilonConstraint.Solve | biobab/epsilonconstraintframework.py:19-25 | an objective other than 1 or 2 exits with code 22; otherwise the loop runs |
| EpsilonConstraint.RunDescends | biobab/epsilonconstraintframework.py:27-47 | with a bounds-respecting oracle every point lies in the starting box and successive points improve by a grid step |
| EpsilonConstraint.RunTerminates | biobab/epsilonconstraintframework.py:27-47 | when answers lie above a floor, enough fuel to cover the distance to the floor makes the run finish |
| EpsilonConstraint.BDRun | biobab/epsilonconstraintframework.py:54-90 | the bi-directional loop can only fail with `TypeError` |
| EpsilonConstraint.BDFeasibleNeverRaises | biobab/epsilonconstraintframework.py:70-73 | an always-feasible oracle never makes the bi-directional loop raise |
| EpsilonConstraint.BDFirstPoint | biobab/epsilonconstraintframework.py:66-70 | with an oracle that respects its bounds, the first point found respects the local bound of the objective being optimised |
| EpsilonConstraint.BDSecondPoint | biobab/epsilonconstraintframework.py:66-87 | the second point respects the local bound of the other objective, which the first point left unchanged |
| EpsilonConstraint.BDAlternates | biobab/epsilonconstraintframework.py:66-88 | every point found for an objective improves by at least a grid step on the previous point found for that objective |
| CliParser.StripLeft | cliparser.py:143-146 | the result is a suffix of the input that does not start with white space |
| CliParser.StripRight | cliparser.py:143-146 | the result is a prefix of the input that does not end with white space |
| CliParser.PyInt | cliparser.py:143-146 | `int(s)` succeeds iff the stripped text is ASCII digits, or a sign followed by optional white space and ASCII digits; otherwise it raises `ValueError` |
| CliParser.PyIntIgnoresSpace | cliparser.py:143-146 | leading white space does not change `int` |
| CliParser.StripLeftSnoc | cliparser.py:143-146 | trailing white space does not change the stripped text |
| CliParser.Decimal | cliparser.py:143-146 | the decimal rendering of a natural number is a non-empty digit string |
| CliParser.NumeralOfDecimal | cliparser.py:143-146 | reading the decimal rendering gives back the number |
| CliParser.PyIntOfDecimal | cliparser.py:143-146 | `int` of the decimal rendering of `n` or `-n` gives back that number |
| CliParser.StripLeftSpacedDigits | cliparser.py:143-146 | removing leading white space leaves a non-empty digit string iff the text is white space followed by digits |
| CliParser.PyIntSpaceAfterSign | cliparser.py:143-146 | white space between the sign and the digits is skipped, as in Python 2's `int` |
| CliParser.Upper | cliparser.py:146 | upper-casing maps lower-case letters to upper-case and leaves other characters alone |
| CliParser.UnitFactor | cliparser.py:138-142 | the unit table has exactly `K`, `M`, `G` and `T` |
| CliParser.UnitFactorsArePowers | cliparser.py:138-142 | the units are 1024 to the powers 1 to 4 |
| CliParser.HumanToBytes | cliparser.py:137-146 | empty input raises `IndexError`; a final digit reads the whole text; otherwise a bad prefix raises `ValueError` and an unknown unit raises `KeyError` |
| CliParser.HumanToBytesPlain | cliparser.py:143-144 | a plain decimal size reads as itself |
| CliParser.HumanToBytesWithUnit | cliparser.py:145-146 | a decimal followed by a unit reads as the number times the unit's factor |
| CliParser.HumanToBytesCaseInsensitive | cliparser.py:146 | units are case-insensitive |
| CliParser.HumanToBytesSpacedSign | cliparser.py:145-146 | a signed size with white space after the sign and a unit reads as the signed number times the unit's factor |

## Left out

- Printing, logging, timing, time limits (`TimeLimitReachedException`), visualisation output and debug files are left out. They do not change the computed values.
- Floating point is modelled as exact `real` arithmetic. Python's `round`, `math.floor` and `math.ceil` are modelled exactly on reals.
- `util.infinity` is `sys.maxsize`, modelled as the real `9223372036854775807.0`.
- The MIP/LP solver (`basiclp.py`, Gurobi) is not part of this model. Every solver call is an oracle parameter: `lexmin`, weighted-sum solves, the node's extreme points, the bound of a node (`bound`) and a set's recorded variable values (`varValues`). The search branches each set on the values read off its own endpoints; the written `split` hands every sub-set the last region's values instead, which `ExpandAsWritten` models (see Findings).
- The lp's own updates of the upper bound set during its solves, and the `upperBound` argument passed to the solver, live inside the oracle.
- `computeMetaData`/`getVarValues` read solver variables in dictionary order. The model uses a map with last-write-wins keys and a `varValues` parameter.
- `LPBranching`, `LocalBranching`, `LocalBrancher`, `SimpleLocalBrancher` and the `SABinaryPriorityBrancher` score build solver constraints or use randomness (`roulette`). They are not modelled.
- BalancedBoxMethod.Explore: the harvesting loop of `exploreRectangleWithHarvesting` (lines 169-201) is not modelled beyond its start and fall-back.
- BalancedBoxMethod.Start: the main `search` loop (lines 86-97) is not modelled beyond its start, the dispatch of one rectangle and the queue.
- The choice between the relaxed and the exact lexicographic solver in `solveLexmin` is taken as the oracle parameter.
- BiobabNode.LowerBound: the dichotomic loop takes `fuel` and returns `None` when it runs out. The source loop ends because the solver has finitely many answers.
- TreeSearch.Search: the loop takes `fuel` and returns `None` when it runs out.
- EpsilonConstraint.Run: the loop takes `fuel` and returns `None` when it runs out.
- EpsilonConstraint.BDRun: the loop takes `fuel` and returns `None` when it runs out.
- TreeSearch.Score: candidates carry non-empty value lists (the `Recorded` type), so the `listAvg` of `bestCandidate` and of the average-based scores never divides by zero. `getVarValues` (biobab/lowerboundset.py:90-95) creates each list with its first value, so an empty list cannot reach them.
- Python's truthiness of a Gurobi variable (`if var`) is taken as always true.
- `cliparser.parse`/`setParams`, `main.py`, the problem loaders, `exec` of parameter files, and the facility-location instances (`ssuflp*`, `uboflp*`) are not modelled.
- Ties in the best-first heap pop the first entry with the least score. Python's `heapq` tie order between equal scores is not modelled.
- CliParser.PyInt: the model follows Python 2's `int` on a `str` (ASCII white space around the text and after the sign, ASCII digits). When the numeral overflows a machine integer, Python 2 hands the text to `long` parsing, which also accepts a trailing `L`; that fallback is not modelled.
- BiobabNode.LowerBoundShape: the left-to-right order of the returned segments is proved only for runs in which no popped pair is a leftward collapse (`LeftCollapse`: its ends are close enough under the relative tolerance and the right end lies slightly left of the left end). `closeEnough` then replaces the right end by the left one, so the next accepted segment may start a tolerance-sized distance left of where this one ends.

## Findings

| source | as written | input that shows it | evidently intended | confidence | as-written member | corrected member |
|---|---|---|---|---|---|---|
| biobab/biobabnode.py:65-79 | the early returns at lines 72 and 77 skip restoring the solver's cutoff | a node whose first extreme point is infeasible, with the cutoff switched on | the cutoff is restored before every return | not executed | BiobabNode.LowerBoundLosesCutoff | BiobabNode.LowerBoundRestoring |
| biobab/treesearch.py:95-101 | the best distance is updated when the value is less than the best distance, comparing a value with a distance | recorded values `[0.3, 0.6]` give 0.4 | the largest distance to one, 0.7 | not executed | TreeSearch.FurthestToOneMissesFurthest | TreeSearch.FurthestToOneIntended |
| biobab/weightedsumsolver.py:128-131 | the error message reads `params.lexMinMethod`, which does not exist | `lexminMethod` set to anything but `lex` or `ws` | exit with code 22 | not executed | WeightedSumSolver.LexminUnknownMethodRaises | WeightedSumSolver.LexminIntended |
| biobab/lowerboundset.py:118-139 | each sub-set's `metaData` is `lambda: metaDataForPoint.itervalues()`, a closure over the loop variable, so Python's late binding makes every sub-set report the last region's values to `getVarValues`, and every sub-set is branched on them | objective-space branching on, two regions; the first region's endpoints record `x = 0.5`, the last region's record only 0 or 1: no brancher finds a candidate and the node is fathomed although the first region is fractional | each sub-set is branched on the values recorded at its own endpoints, the dict built for it in the same pass | not executed | TreeSearch.SharedValuesDropsRegion | TreeSearch.ChildrenBranchEveryRegion |

=== FILE: balancedboxmethod.dfy ===
/** The balanced box method of `biobab/balancedboxmethod.py`: rectangles of
    the objective space, the queue of rectangles still to explore, the
    choice between skipping, harvesting and the basic split, and the
    solution harvesting helpers.  The lexicographic-minimum oracle is a
    parameter. */
module BalancedBoxMethod {
  import opened Common
  import opened BasicData
  import opened Params
  import opened IntegerSolution
  import opened UpperBoundSet
  import opened FlexibleQueue

  /** A rectangle with top-left corner `z1` and bottom-right corner `z2`. */
  datatype Rectangle = Rectangle(z1: Point, z2: Point) {
    /** `score`: the area, negated so that a min-queue pops the largest
        rectangle first. */
    function Score(): real {
      (z1.x - z2.x) * (z1.y - z2.y)
    }

    function Width(): real {
      z2.x - z1.x
    }

    function Height(): real {
      z1.y - z2.y
    }

    function Area(): real {
      Width() * Height()
    }

    /** `__contains__`: the closed rectangle. */
    predicate Contains(p: Point) {
      z1.x <= p.x <= z2.x && z2.y <= p.y <= z1.y
    }
  }

  /** The score is the negated area, and a rectangle contains both its
      corners exactly when it is oriented top-left to bottom-right. */
  lemma ScoreIsNegatedArea(r: Rectangle)
    ensures r.Score() == -r.Area()
    ensures r.Contains(r.z1) && r.Contains(r.z2) <==> r.Width() >= 0.0 && r.Height() >= 0.0
    ensures r.Width() >= 0.0 && r.Height() >= 0.0 ==> r.Score() <= 0.0
  {
    if r.Width() >= 0.0 && r.Height() >= 0.0 {
      assert r.Width() * r.Height() >= 0.0;
    }
  }

  /** A rectangle wide and high enough to hold a further non-dominated
      point: more than one grid step in each direction. */
  predicate Must(cfg: Config, r: Rectangle) {
    r.Width() > cfg.grid.z1Epsilon && r.Height() > cfg.grid.z2Epsilon
  }

  /** `pushIfMust`: the rectangle is queued, with its score, only when it
      may still hold a non-dominated point. */
  function PushIfMust(cfg: Config, q: Queue<Rectangle>, r: Rectangle): (res: Queue<Rectangle>)
    ensures res.mode == q.mode
    ensures Len(res) == if Must(cfg, r) then Len(q) + 1 else Len(q)
    ensures multiset(res.entries) == if Must(cfg, r) then multiset(q.entries) + multiset{Entry(r.Score(), r)} else multiset(q.entries)
  {
    if Must(cfg, r) then Push(q, r.Score(), r) else q
  }

  /** Every queued rectangle carries its own score and may hold a point. */
  predicate WellQueued(cfg: Config, q: Queue<Rectangle>) {
    forall e :: e in q.entries ==> e.score == e.item.Score() && Must(cfg, e.item)
  }

  lemma PushIfMustWellQueued(cfg: Config, q: Queue<Rectangle>, r: Rectangle)
    requires WellQueued(cfg, q)
    ensures WellQueued(cfg, PushIfMust(cfg, q, r))
  {
    var res := PushIfMust(cfg, q, r);
    forall e | e in res.entries ensures e.score == e.item.Score() && Must(cfg, e.item) {
      assert e in multiset(res.entries);
    }
  }

  /** The rectangles are explored largest first: in best mode a well-queued
      queue pops a rectangle of maximum area. */
  lemma PopsLargestRectangle(cfg: Config, q: Queue<Rectangle>)
    requires q.mode == Best && Len(q) > 0 && WellQueued(cfg, q)
    ensures Pop(q).Popped?
    ensures forall e :: e in q.entries ==> e.item.Area() <= Pop(q).item.Area()
  {
    BestPopsMinimum(q);
    var m := Pop(q).item;
    var i :| 0 <= i < |q.entries| && q.entries[i].item == m &&
      forall j :: 0 <= j < |q.entries| ==> q.entries[i].score <= q.entries[j].score;
    assert q.entries[i] in q.entries;
    ScoreIsNegatedArea(m);
    forall e | e in q.entries ensures e.item.Area() <= m.Area() {
      var j :| 0 <= j < |q.entries| && q.entries[j] == e;
      ScoreIsNegatedArea(e.item);
    }
  }

  /** How `exploreRectangle` treats a rectangle. */
  datatype Path = Skip | Harvest | Basic

  /** `exploreRectangle`'s choice: too narrow or too low rectangles are
      skipped; a rectangle larger than the fraction `balancedBoxBeta` of the
      initial `area` is harvested; the rest are split. */
  function Dispatch(cfg: Config, area: real, r: Rectangle): (p: Path)
    ensures p == Skip <==> !Must(cfg, r)
    ensures p == Harvest <==> Must(cfg, r) && area * cfg.balancedBoxBeta < r.Area()
  {
    ScoreIsNegatedArea(r);
    if r.Width() <= cfg.grid.z1Epsilon || r.Height() <= cfg.grid.z2Epsilon then Skip
    else if area * cfg.balancedBoxBeta < -r.Score() then Harvest
    else Basic
  }

  /** Nothing the queue holds is ever skipped: the test of `pushIfMust` and
      the skip test of `exploreRectangle` are complementary. */
  lemma QueuedNeverSkipped(cfg: Config, q: Queue<Rectangle>, area: real)
    requires WellQueued(cfg, q)
    ensures forall e :: e in q.entries ==> Dispatch(cfg, area, e.item) != Skip
  {
  }

  /** The `newY` of the basic split. */
  function MidY(r: Rectangle): real {
    (r.z1.y + r.z2.y) / 2.0
  }

  /** The rectangles the basic split offers to `pushIfMust`: the bottom one
      below the lexicographic minimum `z1Bar` found under `newY`, and the top
      one left of `z1Bar`. */
  datatype Split = Split(bottom: Option<Rectangle>, top: Option<Rectangle>)

  /** `z1Bar` of the basic split: the rectangle's own bottom corner when the
      lower half is too low to search. */
  function BottomPoint(cfg: Config, right: real, lexmin: LexminOracle, r: Rectangle): Option<Point> {
    if MidY(r) - r.z2.y >= cfg.grid.z2Epsilon then lexmin(1, right, MidY(r)) else Some(r.z2)
  }

  /** `exploreRectangleBasically` up to the pushes.  An infeasible first
      lexmin leaves `z1Bar` as `None`, and the following `z1Bar[0]` raises
      `TypeError`. */
  function BasicSplit(cfg: Config, right: real, top: real, lexmin: LexminOracle, r: Rectangle): (res: Fallible<Split>)
    ensures res.Raises? <==> BottomPoint(cfg, right, lexmin, r).None?
    ensures res.Raises? ==> res.error == TypeError && MidY(r) - r.z2.y >= cfg.grid.z2Epsilon
    ensures res.Ok? && res.value.bottom.Some? ==>
      res.value.bottom.value.z2 == r.z2 && res.value.bottom.value.Width() >= cfg.grid.z1Epsilon &&
      res.value.bottom.value.z1 == BottomPoint(cfg, right, lexmin, r).value
    ensures res.Ok? && res.value.top.Some? ==>
      res.value.top.value.z1 == r.z1 && res.value.top.value.Width() >= cfg.grid.z1Epsilon
  {
    match BottomPoint(cfg, right, lexmin, r)
    case None => Raises(TypeError)
    case Some(z1Bar) =>
      var bottom := if z1Bar.x <= r.z2.x - cfg.grid.z1Epsilon then Some(Rectangle(z1Bar, r.z2)) else None;
      var newX := z1Bar.x - cfg.grid.z1Epsilon;
      var z2Bar := if newX - r.z1.x >= cfg.grid.z1Epsilon then lexmin(2, newX, top) else Some(r.z1);
      var upper := if z2Bar.Some? && z2Bar.value.x >= r.z1.x + cfg.grid.z1Epsilon then Some(Rectangle(r.z1, z2Bar.value)) else None;
      Ok(Split(bottom, upper))
  }

  /** With an oracle that respects its bounds, the bottom rectangle is at
      most half as high as the explored one, and the top rectangle lies
      more than a grid step left of the bottom one: no point is in both. */
  lemma BasicSplitHalves(cfg: Config, right: real, top: real, lexmin: LexminOracle, r: Rectangle)
    requires RespectsBounds(lexmin) && cfg.grid.Valid()
    ensures var res := BasicSplit(cfg, right, top, lexmin, r);
      res.Ok? && res.value.bottom.Some? ==> res.value.bottom.value.Height() <= r.Height() / 2.0
    ensures var res := BasicSplit(cfg, right, top, lexmin, r);
      res.Ok? && res.value.top.Some? ==>
        res.value.top.value.z2.x <= BottomPoint(cfg, right, lexmin, r).value.x - cfg.grid.z1Epsilon
    ensures var res := BasicSplit(cfg, right, top, lexmin, r);
      res.Ok? && res.value.bottom.Some? && res.value.top.Some? ==>
        forall p :: !(res.value.bottom.value.Contains(p) && res.value.top.value.Contains(p))
  {
    var res := BasicSplit(cfg, right, top, lexmin, r);
    if res.Ok? {
      var z1Bar := BottomPoint(cfg, right, lexmin, r).value;
      if res.value.bottom.Some? && MidY(r) - r.z2.y >= cfg.grid.z2Epsilon {
        assert Within(lexmin(1, right, MidY(r)).value, right, MidY(r));
      }
      var newX := z1Bar.x - cfg.grid.z1Epsilon;
      if res.value.top.Some? && newX - r.z1.x >= cfg.grid.z1Epsilon {
        assert Within(lexmin(2, newX, top).value, newX, top);
      }
    }
  }

  /** `exploreRectangleBasically`: both rectangles of the split go through
      `pushIfMust`, bottom first. */
  function ExploreBasically(cfg: Config, right: real, top: real, lexmin: LexminOracle, q: Queue<Rectangle>, r: Rectangle)
    : (res: Fallible<Queue<Rectangle>>)
    ensures res.Raises? <==> BasicSplit(cfg, right, top, lexmin, r).Raises?
    ensures res.Ok? ==> res.value.mode == q.mode && Len(q) <= Len(res.value) <= Len(q) + 2
  {
    match BasicSplit(cfg, right, top, lexmin, r)
    case Raises(e) => Raises(e)
    case Ok(split) =>
      var q1 := if split.bottom.Some? then PushIfMust(cfg, q, split.bottom.value) else q;
      Ok(if split.top.Some? then PushIfMust(cfg, q1, split.top.value) else q1)
  }

  /** The basic split queues only rectangles that may hold a point, each
      with its own score. */
  lemma ExploreBasicallyWellQueued(cfg: Config, right: real, top: real, lexmin: LexminOracle, q: Queue<Rectangle>, r: Rectangle)
    requires WellQueued(cfg, q)
    ensures var res := ExploreBasically(cfg, right, top, lexmin, q, r); res.Ok? ==> WellQueued(cfg, res.value)
  {
    var split := BasicSplit(cfg, right, top, lexmin, r);
    if split.Ok? {
      var q1 := if split.value.bottom.Some? then PushIfMust(cfg, q, split.value.bottom.value) else q;
      if split.value.bottom.Some? {
        PushIfMustWellQueued(cfg, q, split.value.bottom.value);
      }
      if split.value.top.Some? {
        PushIfMustWellQueued(cfg, q1, split.value.top.value);
      }
    }
  }

  // ---------------------------------------------------------------------
  // Harvesting

  /** The rectangle shrunk by one grid step on every side. */
  function Shrunk(cfg: Config, r: Rectangle): Rectangle {
    Rectangle(Point(r.z1.x + cfg.grid.z1Epsilon, r.z1.y - cfg.grid.z2Epsilon),
              Point(r.z2.x - cfg.grid.z1Epsilon, r.z2.y + cfg.grid.z2Epsilon))
  }

  /** The solutions, in order, whose points the rectangle contains. */
  function Inside(r: Rectangle, sols: seq<Solution>): (res: seq<Solution>)
    ensures |res| <= |sols|
    ensures forall x :: x in res <==> x in sols && r.Contains(x.Point())
  {
    if |sols| == 0 then []
    else (if r.Contains(sols[0].Point()) then [sols[0]] else []) + Inside(r, sols[1..])
  }

  /** `getIntegerSolutionsFromRect`: the solutions strictly inside the
      rectangle (by a grid step), offered in order to a fresh upper bound
      set. */
  function FromRect(cfg: Config, r: Rectangle, sols: seq<Solution>): (res: seq<Solution>)
    ensures forall x :: x in res ==> x in sols && Shrunk(cfg, r).Contains(x.Point())
  {
    UpdateAll([], Inside(Shrunk(cfg, r), sols))
  }

  /** The harvested set is an upper bound set, and it covers every given
      solution strictly inside the rectangle. */
  lemma FromRectCovers(cfg: Config, r: Rectangle, sols: seq<Solution>)
    requires AllWellFormed(cfg, sols)
    ensures Frontier(cfg, FromRect(cfg, r, sols))
    ensures forall x :: x in sols && Shrunk(cfg, r).Contains(x.Point()) ==> DominatedBySome(FromRect(cfg, r, sols), x)
  {
    var ins := Inside(Shrunk(cfg, r), sols);
    assert AllWellFormed(cfg, ins) by {
      forall i | 0 <= i < |ins| ensures WellFormed(cfg, ins[i]) {
        assert ins[i] in sols;
      }
    }
    UpdateAllCovers(cfg, [], ins);
    forall x | x in sols && Shrunk(cfg, r).Contains(x.Point()) ensures DominatedBySome(FromRect(cfg, r, sols), x) {
      var i :| 0 <= i < |ins| && ins[i] == x;
    }
  }

  /** `solveWS` of the balanced box method: the solutions the weighted sum
      solve harvested are all offered to the caller's upper bound set. */
  function MergeHarvested(ub: seq<Solution>, harvested: seq<Solution>): (res: seq<Solution>)
    ensures forall x :: x in res ==> x in ub || x in harvested
  {
    UpdateAll(ub, harvested)
  }

  lemma MergeHarvestedCovers(cfg: Config, ub: seq<Solution>, harvested: seq<Solution>)
    requires Frontier(cfg, ub) && AllWellFormed(cfg, harvested)
    ensures Frontier(cfg, MergeHarvested(ub, harvested))
    ensures AllCovered(MergeHarvested(ub, harvested), harvested)
    ensures AllCovered(MergeHarvested(ub, harvested), ub)
  {
    UpdateAllCovers(cfg, ub, harvested);
  }

  /** Where `exploreRectangle` leaves things: the queue after the rectangle
      was skipped or split (or the error that stopped the split), or the
      solutions `lHat` with which the harvesting loop begins. */
  datatype Exploration =
    | Explored(result: Fallible<Queue<Rectangle>>, ub: seq<Solution>)
    | Harvesting(lHat: seq<Solution>, ub: seq<Solution>)

  /** `exploreRectangleWithHarvesting` up to its main loop.  The weighted
      sum solve with equal weights harvested `harvested`, which is merged
      into `ub`; the candidates are the solutions of `pool` (the harvest
      itself in relaxed mode, the solver's pool otherwise) strictly inside
      the rectangle that the merged set does not dominate.  With no
      candidate the rectangle is split as in the basic path. */
  function StartHarvest(cfg: Config, right: real, top: real, lexmin: LexminOracle, q: Queue<Rectangle>,
                        r: Rectangle, harvested: seq<Solution>, pool: seq<Solution>, ub: seq<Solution>): (res: Exploration)
    ensures res.ub == MergeHarvested(ub, harvested)
    ensures res.Explored? <==> forall x :: x in FromRect(cfg, r, pool) ==> DominatedBySome(res.ub, x)
    ensures res.Explored? ==> res.result == ExploreBasically(cfg, right, top, lexmin, q, r)
    ensures res.Harvesting? ==> forall x :: x in res.lHat <==> x in FromRect(cfg, r, pool) && !DominatedBySome(res.ub, x)
  {
    var merged := MergeHarvested(ub, harvested);
    var lHat := KeepUndominated(FromRect(cfg, r, pool), merged);
    KeepUndominatedMembers(FromRect(cfg, r, pool), merged);
    if |lHat| == 0 then
      Explored(ExploreBasically(cfg, right, top, lexmin, q, r), merged)
    else
      assert lHat[0] in lHat;
      Harvesting(lHat, merged)
  }

  /** In relaxed mode the candidates come from the very solutions just
      merged into the upper bound set, so every one of them is dominated and
      harvesting always falls back to the basic split. */
  lemma RelaxedHarvestFallsBack(cfg: Config, right: real, top: real, lexmin: LexminOracle, q: Queue<Rectangle>,
                                r: Rectangle, harvested: seq<Solution>, ub: seq<Solution>)
    requires Frontier(cfg, ub) && AllWellFormed(cfg, harvested)
    ensures StartHarvest(cfg, right, top, lexmin, q, r, harvested, harvested, ub)
         == Explored(ExploreBasically(cfg, right, top, lexmin, q, r), MergeHarvested(ub, harvested))
  {
    var merged := MergeHarvested(ub, harvested);
    MergeHarvestedCovers(cfg, ub, harvested);
    forall x | x in FromRect(cfg, r, harvested) ensures DominatedBySome(merged, x) {
      var i :| 0 <= i < |harvested| && harvested[i] == x;
    }
  }

  /** `exploreRectangle`: skip, harvest or split according to `Dispatch`. */
  function Explore(cfg: Config, area: real, right: real, top: real, lexmin: LexminOracle, q: Queue<Rectangle>,
                   r: Rectangle, harvested: seq<Solution>, pool: seq<Solution>, ub: seq<Solution>): (res: Exploration)
    ensures Dispatch(cfg, area, r) == Skip ==> res == Explored(Ok(q), ub)
    ensures Dispatch(cfg, area, r) == Basic ==> res == Explored(ExploreBasically(cfg, right, top, lexmin, q, r), ub)
    ensures Dispatch(cfg, area, r) == Harvest ==> res.ub == MergeHarvested(ub, harvested)
  {
    match Dispatch(cfg, area, r)
    case Skip => Explored(Ok(q), ub)
    case Harvest => StartHarvest(cfg, right, top, lexmin, q, r, harvested, pool, ub)
    case Basic => Explored(ExploreBasically(cfg, right, top, lexmin, q, r), ub)
  }

  /** The start of `search`: the two lexicographic minima `zT` and `zB`, the
      area of the rectangle they span, and the queue holding that rectangle
      if it may hold a further point.  An infeasible problem leaves `zT` as
      `None`, and printing `zT[0]` raises `TypeError`. */
  function Start(cfg: Config, right: real, top: real, lexmin: LexminOracle): (res: Fallible<(real, Queue<Rectangle>)>)
    ensures res.Raises? <==> lexmin(1, right, top).None? || lexmin(2, right, top).None?
    ensures res.Ok? ==> Len(res.value.1) <= 1 && res.value.1.mode == Best && WellQueued(cfg, res.value.1)
    ensures res.Ok? ==> res.value.0 == Rectangle(lexmin(1, right, top).value, lexmin(2, right, top).value).Area()
  {
    match (lexmin(1, right, top), lexmin(2, right, top))
    case (None, _) => Raises(TypeError)
    case (_, None) => Raises(TypeError)
    case (Some(zT), Some(zB)) =>
      var initial := Rectangle(zT, zB);
      PushIfMustWellQueued(cfg, NewQueue(Best), initial);
      Ok(((zB.x - zT.x) * (zT.y - zB.y), PushIfMust(cfg, NewQueue(Best), initial)))
  }
}

=== FILE: basicdata.dfy ===
/** The integer-grid helpers of `biobab/basicdata.py`.  Feasible integer
    solutions have objective values on a grid whose spacing is the minimum
    objective increment (`z1Epsilon`, `z2Epsilon`); these functions move
    points onto, or just inside, that grid. */
module BasicData {
  import opened Common
  import Util

  /** `validEpsilon`: the share of an increment used by integer dominance. */
  const ValidEpsilon: real := 0.9

  /** The minimum objective increments of an instance. */
  datatype Grid = Grid(z1Epsilon: real, z2Epsilon: real) {
    /** The increments are positive (a zero increment makes the Python
        division by it raise). */
    predicate Valid() {
      z1Epsilon > 0.0 && z2Epsilon > 0.0
    }
  }

  /** The class defaults `z1Epsilon = 1`, `z2Epsilon = 1`. */
  const DefaultGrid: Grid := Grid(1.0, 1.0)

  /** `v` is an integer multiple of the increment `e`. */
  predicate OnGrid(v: real, e: real)
    requires e > 0.0
  {
    Util.Floor(v / e) as real == v / e
  }

  /** A point whose two coordinates are multiples of their increments. */
  predicate PointOnGrid(g: Grid, p: Point)
    requires g.Valid()
  {
    OnGrid(p.x, g.z1Epsilon) && OnGrid(p.y, g.z2Epsilon)
  }

  lemma MultipleOnGrid(k: int, e: real)
    requires e > 0.0
    ensures OnGrid(k as real * e, e)
  {
    assert k as real * e / e == k as real;
  }

  /** Two different multiples of `e` are at least `e` apart. */
  lemma GridGap(v: real, w: real, e: real)
    requires e > 0.0 && OnGrid(v, e) && OnGrid(w, e)
    requires v < w
    ensures v + e <= w
  {
    var k, m := (v / e).Floor, (w / e).Floor;
    DivMul(v, e);
    DivMul(w, e);
    assert v == k as real * e;
    assert w == m as real * e;
    assert k < m by {
      if k >= m {
        MulMono(m as real, k as real, e);
      }
    }
    StepApart(v, w, e, k as real, m as real);
  }

  lemma StepApart(v: real, w: real, e: real, a: real, b: real)
    requires e > 0.0 && v == a * e && w == b * e && a + 1.0 <= b
    ensures v + e <= w
  {
    var d := b - a - 1.0;
    assert d * e >= 0.0;
    assert b == a + 1.0 + d;
    assert b * e == a * e + e + d * e;
  }

  lemma CancelFactor(a: real, b: real, e: real)
    requires e != 0.0 && a * e == b * e
    ensures a == b
  {
    assert (a - b) * e == 0.0;
  }

  lemma DivCancel(n: real, a: real)
    requires a != 0.0
    ensures a * (n / a) == n
  {
  }

  lemma DivMul(v: real, e: real)
    requires e != 0.0
    ensures v / e * e == v
  {
  }

  /** Products of non-negative reals grow with both factors. */
  lemma ProductMono(a: real, b: real, c: real, d: real)
    requires 0.0 <= a <= b && 0.0 <= c <= d
    ensures a * c <= b * d
  {
    if c > 0.0 {
      MulMono(a, b, c);
    }
    if b > 0.0 {
      MulMono(c, d, b);
      assert c * b == b * c && d * b == b * d;
    }
  }

  lemma MulMono(a: real, b: real, e: real)
    requires a <= b && e > 0.0
    ensures a * e <= b * e
  {
    assert (b - a) * e >= 0.0;
  }

  /** `improveWithIntegrality(z1, z2)`: moves a point 0.9 increments left and
      down.  When the increments are positive, the result is strictly below
      the point and strictly above the next grid line below it. */
  function ImproveWithIntegrality(g: Grid, p: Point): (r: Point)
    ensures g.Valid() ==> p.x - g.z1Epsilon < r.x < p.x
    ensures g.Valid() ==> p.y - g.z2Epsilon < r.y < p.y
  {
    Point(p.x - ValidEpsilon * g.z1Epsilon, p.y - ValidEpsilon * g.z2Epsilon)
  }

  /** `e * math.ceil(v / e)`: the least multiple of `e` that is at least `v`. */
  function CeilTo(v: real, e: real): (r: real)
    requires e > 0.0
    ensures OnGrid(r, e)
    ensures v <= r < v + e
  {
    var c := Util.Ceil(v / e);
    MultipleOnGrid(c, e);
    CeilToBounds(v, e);
    c as real * e
  }

  lemma CeilToBounds(v: real, e: real)
    requires e > 0.0
    ensures v <= Util.Ceil(v / e) as real * e < v + e
  {
    var t := v / e;
    Util.CeilFloor(t);
    DivMul(v, e);
    ScaleBounds(v, e, t, Util.Ceil(t) as real);
  }

  /** `e * math.floor(v / e)`: the greatest multiple of `e` that is at most `v`. */
  function FloorTo(v: real, e: real): (r: real)
    requires e > 0.0
    ensures OnGrid(r, e)
    ensures v - e < r <= v
  {
    var f := Util.Floor(v / e);
    MultipleOnGrid(f, e);
    FloorToBounds(v, e);
    f as real * e
  }

  lemma FloorToBounds(v: real, e: real)
    requires e > 0.0
    ensures v - e < Util.Floor(v / e) as real * e <= v
  {
    var t := v / e;
    Util.CeilFloor(t);
    DivMul(v, e);
    ScaleBoundsBelow(v, e, t, Util.Floor(t) as real);
  }

  /** Less than one unit above `t` scales to less than one increment above
      `t * e`. */
  lemma ScaleBounds(v: real, e: real, t: real, c: real)
    requires e > 0.0 && t * e == v && t <= c < t + 1.0
    ensures v <= c * e < v + e
  {
    var d := c - t;
    assert 0.0 <= d < 1.0;
    assert d * e < e by {
      assert (1.0 - d) * e > 0.0;
    }
    assert d * e >= 0.0;
    assert c * e - v == d * e;
  }

  lemma ScaleBoundsBelow(v: real, e: real, t: real, f: real)
    requires e > 0.0 && t * e == v && t - 1.0 < f <= t
    ensures v - e < f * e <= v
  {
    var d := t - f;
    assert 0.0 <= d < 1.0;
    assert d * e < e by {
      assert (1.0 - d) * e > 0.0;
    }
    assert d * e >= 0.0;
    assert v - f * e == d * e;
  }

  /** Python 2 `round`: to the nearest integer, halves away from zero. */
  function Round(t: real): (k: int)
    ensures -0.5 <= k as real - t <= 0.5
  {
    if t >= 0.0 then (t + 0.5).Floor else -((-t + 0.5).Floor)
  }

  /** `e * round(v / e)`: a multiple of `e` within half an increment of `v`. */
  function RoundTo(v: real, e: real): (r: real)
    requires e > 0.0
    ensures OnGrid(r, e)
    ensures v - e / 2.0 <= r <= v + e / 2.0
  {
    var k := Round(v / e);
    MultipleOnGrid(k, e);
    RoundToBounds(v, e);
    k as real * e
  }

  lemma RoundToBounds(v: real, e: real)
    requires e > 0.0
    ensures v - e / 2.0 <= Round(v / e) as real * e <= v + e / 2.0
  {
    var t := v / e;
    DivMul(v, e);
    HalfStep(v, e, t, Round(t) as real);
  }

  /** Within half a unit of `t` scales to within half an increment of
      `t * e`. */
  lemma HalfStep(v: real, e: real, t: real, k: real)
    requires e > 0.0 && t * e == v && -0.5 <= k - t <= 0.5
    ensures v - e / 2.0 <= k * e <= v + e / 2.0
  {
    var h := e / 2.0;
    assert e == 2.0 * h;
    var d := k - t;
    assert (1.0 - 2.0 * d) * h >= 0.0;
    assert (2.0 * d + 1.0) * h >= 0.0;
    assert k * e == t * e + 2.0 * d * h;
  }

  /** `ceilCoords`, `floorCoords` and `roundCoords` apply the above to each
      coordinate with its own increment. */
  function CeilCoords(g: Grid, p: Point): (r: Point)
    requires g.Valid()
    ensures PointOnGrid(g, r)
    ensures p.x <= r.x < p.x + g.z1Epsilon && p.y <= r.y < p.y + g.z2Epsilon
  {
    Point(CeilTo(p.x, g.z1Epsilon), CeilTo(p.y, g.z2Epsilon))
  }

  function FloorCoords(g: Grid, p: Point): (r: Point)
    requires g.Valid()
    ensures PointOnGrid(g, r)
    ensures p.x - g.z1Epsilon < r.x <= p.x && p.y - g.z2Epsilon < r.y <= p.y
  {
    Point(FloorTo(p.x, g.z1Epsilon), FloorTo(p.y, g.z2Epsilon))
  }

  function RoundCoords(g: Grid, p: Point): (r: Point)
    requires g.Valid()
    ensures PointOnGrid(g, r)
    ensures p.x - g.z1Epsilon / 2.0 <= r.x <= p.x + g.z1Epsilon / 2.0
    ensures p.y - g.z2Epsilon / 2.0 <= r.y <= p.y + g.z2Epsilon / 2.0
  {
    Point(RoundTo(p.x, g.z1Epsilon), RoundTo(p.y, g.z2Epsilon))
  }

  /** A multiple of `e` in `[v, v + e)` is the ceiling: the contract of
      `CeilTo` determines its result. */
  lemma CeilToUnique(v: real, e: real, r: real)
    requires e > 0.0 && OnGrid(r, e) && v <= r < v + e
    ensures r == CeilTo(v, e)
  {
    var c := CeilTo(v, e);
    if r < c {
      GridGap(r, c, e);
    } else if c < r {
      GridGap(c, r, e);
    }
  }

  /** A multiple of `e` in `(v - e, v]` is the floor. */
  lemma FloorToUnique(v: real, e: real, r: real)
    requires e > 0.0 && OnGrid(r, e) && v - e < r <= v
    ensures r == FloorTo(v, e)
  {
    var f := FloorTo(v, e);
    if r < f {
      GridGap(r, f, e);
    } else if f < r {
      GridGap(f, r, e);
    }
  }

  /** No multiple of `e` lies strictly between the floor and `v`. */
  lemma FloorToGreatest(v: real, e: real, q: real)
    requires e > 0.0 && OnGrid(q, e) && q <= v
    ensures q <= FloorTo(v, e)
  {
    var f := FloorTo(v, e);
    if f < q {
      GridGap(f, q, e);
    }
  }

  /** No multiple of `e` lies strictly between `v` and the ceiling. */
  lemma CeilToLeast(v: real, e: real, q: real)
    requires e > 0.0 && OnGrid(q, e) && v <= q
    ensures CeilTo(v, e) <= q
  {
    var c := CeilTo(v, e);
    if q < c {
      GridGap(q, c, e);
    }
  }

  /** The grid value one increment above a grid value. */
  lemma NextOnGrid(f: real, e: real)
    requires e > 0.0 && OnGrid(f, e)
    ensures OnGrid(f + e, e)
  {
    var k := Util.Floor(f / e);
    assert f / e == k as real;
    assert (f / e + 1.0) * e == f + e;
    assert (f + e) / e * e == f + e;
    CancelFactor((f + e) / e, f / e + 1.0, e);
    assert Util.Floor((k + 1) as real) == k + 1;
  }

  /** Floor and ceiling agree exactly on grid values, and otherwise are the
      two neighbouring grid values. */
  lemma FloorCeilOrder(v: real, e: real)
    requires e > 0.0
    ensures FloorTo(v, e) <= CeilTo(v, e)
    ensures FloorTo(v, e) == CeilTo(v, e) <==> OnGrid(v, e)
    ensures !OnGrid(v, e) ==> CeilTo(v, e) == FloorTo(v, e) + e
  {
    var f, c := FloorTo(v, e), CeilTo(v, e);
    if OnGrid(v, e) {
      CeilToUnique(v, e, v);
      FloorToUnique(v, e, v);
    } else {
      assert f != v;
      NextOnGrid(f, e);
      CeilToUnique(v, e, f + e);
    }
  }

  lemma FloorCeilCoordsOrder(g: Grid, p: Point)
    requires g.Valid()
    ensures FloorCoords(g, p).x <= CeilCoords(g, p).x
    ensures FloorCoords(g, p).y <= CeilCoords(g, p).y
    ensures FloorCoords(g, p) == CeilCoords(g, p) <==> PointOnGrid(g, p)
  {
    FloorCeilOrder(p.x, g.z1Epsilon);
    FloorCeilOrder(p.y, g.z2Epsilon);
  }
}

=== FILE: biobabnode.dfy ===
/** A node of the bi-objective branch-and-bound tree (`biobab/biobabnode.py`):
    its bounds and score, the reversible branching decisions that define it,
    and the computation of its lower bound set by iterated weighted-sum
    solves.  The lp solver is an abstract oracle passed as a parameter. */
module BiobabNode {
  import opened Common
  import Util
  import opened BasicData
  import opened Params
  import opened Segments

  /** `scalar(p, beta, alpha)`: the weighted sum of a point. */
  function Scalar(p: Point, beta: real, alpha: real): real {
    p.x * beta + p.y * alpha
  }

  /** The weights `beta = c1.y - c2.y`, `alpha = c2.x - c1.x` make both ends
      of the pair equally good, so the pair lies on a level line. */
  lemma WeightsLevelLine(c1: Point, c2: Point)
    ensures Scalar(c1, c1.y - c2.y, c2.x - c1.x) == Scalar(c2, c1.y - c2.y, c2.x - c1.x)
  {
    assert c1.x * (c1.y - c2.y) + c1.y * (c2.x - c1.x) == c1.y * c2.x - c1.x * c2.y;
    assert c2.x * (c1.y - c2.y) + c2.y * (c2.x - c1.x) == c1.y * c2.x - c1.x * c2.y;
  }

  /** With those weights, a point lies strictly below the line through the
      pair exactly when its weighted sum is smaller: the oracle's optimum is
      a new hull point exactly when it beats the pair. */
  lemma BelowLineIffSmaller(c1: Point, c2: Point, p: Point)
    requires c1.x < c2.x
    ensures p.y < LineThrough(c1, c2).At(p.x) <==>
      Scalar(p, c1.y - c2.y, c2.x - c1.x) < Scalar(c1, c1.y - c2.y, c2.x - c1.x)
  {
    var beta, alpha := c1.y - c2.y, c2.x - c1.x;
    var l := LineThrough(c1, c2);
    var a := (c2.y - c1.y) / (c2.x - c1.x);
    assert l.a == a;
    assert a * alpha == -beta;
    assert l.At(p.x) == c1.y + a * (p.x - c1.x);
    assert Scalar(p, beta, alpha) - Scalar(c1, beta, alpha) == beta * (p.x - c1.x) + alpha * (p.y - c1.y);
    assert alpha * (l.At(p.x) - c1.y) == -beta * (p.x - c1.x) by {
      assert alpha * (a * (p.x - c1.x)) == (a * alpha) * (p.x - c1.x);
    }
    assert p.y < l.At(p.x) <==> alpha * (p.y - c1.y) < alpha * (l.At(p.x) - c1.y) by {
      if p.y < l.At(p.x) {
        assert alpha * (l.At(p.x) - p.y) > 0.0;
      }
      if alpha * (p.y - c1.y) < alpha * (l.At(p.x) - c1.y) {
        assert alpha * (l.At(p.x) - p.y) > 0.0;
      }
    }
  }

  /** `definesValidLB(p1, p2)`: the least grid point at or beyond the corner
      `(p1.x, p2.y)` lies strictly above the line through the pair.  The
      slope division raises for a vertical pair. */
  function DefinesValidLB(g: Grid, p1: Point, p2: Point): (r: Fallible<bool>)
    requires g.Valid()
    ensures r.Raises? <==> p1.x == p2.x
    ensures r.Raises? ==> r.error == ZeroDivisionError
  {
    if p2.x - p1.x == 0.0 then Raises(ZeroDivisionError)
    else
      var c := CeilCoords(g, Point(p1.x, p2.y));
      Ok(c.y > LineThrough(p1, p2).At(c.x))
  }

  /** For a pair running down and to the right, the test holds exactly when
      every grid point in the quadrant beyond the corner lies strictly above
      the line, so the segment already is a valid lower bound for integer
      solutions. */
  lemma DefinesValidLBMeaning(g: Grid, p1: Point, p2: Point)
    requires g.Valid() && p1.x < p2.x && p2.y <= p1.y
    ensures DefinesValidLB(g, p1, p2) == Ok(true) <==>
      forall q :: PointOnGrid(g, q) && p1.x <= q.x && p2.y <= q.y ==> q.y > LineThrough(p1, p2).At(q.x)
  {
    var c := CeilCoords(g, Point(p1.x, p2.y));
    var l := LineThrough(p1, p2);
    assert l.a <= 0.0 by {
      assert l.a == (p2.y - p1.y) / (p2.x - p1.x);
    }
    if DefinesValidLB(g, p1, p2) == Ok(true) {
      forall q | PointOnGrid(g, q) && p1.x <= q.x && p2.y <= q.y
        ensures q.y > l.At(q.x)
      {
        CeilToLeast(p1.x, g.z1Epsilon, q.x);
        CeilToLeast(p2.y, g.z2Epsilon, q.y);
        LineNonIncreasing(l, c.x, q.x);
      }
    } else {
      assert PointOnGrid(g, c) && p1.x <= c.x && p2.y <= c.y;
    }
  }

  /** `similarValues` of the node module: absolute comparison when `|opt|`
      is below the tolerance, relative comparison otherwise (unlike the
      helper of the same name in `util.py`, it takes `opt`'s magnitude). */
  predicate NodeSimilarValues(ub: real, opt: real, tolerance: real)
    requires tolerance > 0.0
  {
    if Abs(opt) < tolerance then Abs(ub - opt) <= tolerance
    else Abs((ub - opt) / opt) <= tolerance
  }

  /** Every value is similar to itself, and far values are not. */
  lemma NodeSimilarValuesBounds(ub: real, opt: real, tolerance: real)
    requires tolerance > 0.0
    ensures ub == opt ==> NodeSimilarValues(ub, opt, tolerance)
    ensures Abs(opt) < tolerance ==> (NodeSimilarValues(ub, opt, tolerance) <==> Abs(ub - opt) <= tolerance)
    ensures NodeSimilarValues(ub, opt, tolerance) ==> Abs(ub - opt) <= (if Abs(opt) < tolerance then tolerance else tolerance * Abs(opt))
  {
    if Abs(opt) >= tolerance && NodeSimilarValues(ub, opt, tolerance) {
      RelativeBound(ub - opt, opt, tolerance);
    }
  }

  lemma AbsMul(d: real, o: real)
    ensures Abs(d * o) == Abs(d) * Abs(o)
  {
    if d < 0.0 && o < 0.0 {
      assert Abs(d) * Abs(o) == d * o;
    } else if d < 0.0 {
      assert Abs(d) * Abs(o) == -(d * o);
    } else if o < 0.0 {
      assert Abs(d) * Abs(o) == -(d * o);
    }
  }

  /** A relative difference of at most `t` is an absolute one of at most
      `t * |o|`. */
  lemma RelativeBound(x: real, o: real, t: real)
    requires o != 0.0 && Abs(x / o) <= t
    ensures Abs(x) <= t * Abs(o)
  {
    var d := x / o;
    assert d * o == x;
    AbsMul(d, o);
    MulMono(Abs(d), t, Abs(o));
  }

  /** A node: the search region `right` x `top` and the branching decisions
      that lead to it.  `D` is the type of branching decisions. */
  datatype Node<D> = Node(right: real, top: real, decisions: seq<D>, depth: nat) {
    /** Used for best-first exploration. */
    function Score(): real {
      right * top
    }
  }

  /** The root node: bounds at `util.infinity`, no decisions, depth 0. */
  function Root<D>(): (n: Node<D>)
    ensures n.decisions == [] && n.depth == 0
    ensures n.Score() == Util.Infinity * Util.Infinity
  {
    Node(Util.Infinity, Util.Infinity, [], 0)
  }

  /** Shrinking the non-negative bounds of a node never raises its score, so
      best-first exploration never prefers a sub-region to its parent. */
  lemma ScoreMonotone<D>(n: Node<D>, m: Node<D>)
    requires 0.0 <= m.right <= n.right && 0.0 <= m.top <= n.top
    ensures m.Score() <= n.Score()
  {
    ProductMono(m.right, n.right, m.top, n.top);
  }

  /** `applyBranchingDecisions`: applies the decisions in list order. */
  function ApplyAll<S, D>(s: S, ds: seq<D>, apply: (S, D) -> S): S
    decreases |ds|
  {
    if |ds| == 0 then s else apply(ApplyAll(s, ds[..|ds| - 1], apply), ds[|ds| - 1])
  }

  /** `cancelBranchingDecisions`: cancels the decisions from the last to the
      first. */
  function CancelAll<S, D>(s: S, ds: seq<D>, cancel: (S, D) -> S): S
    decreases |ds|
  {
    if |ds| == 0 then s else CancelAll(cancel(s, ds[|ds| - 1]), ds[..|ds| - 1], cancel)
  }

  lemma {:induction false} ApplyAllAppend<S, D>(s: S, ds: seq<D>, d: D, apply: (S, D) -> S)
    ensures ApplyAll(s, ds + [d], apply) == apply(ApplyAll(s, ds, apply), d)
  {
    assert (ds + [d])[..|ds|] == ds;
  }

  lemma {:induction false} ApplyAllPrepend<S, D>(s: S, d: D, ds: seq<D>, apply: (S, D) -> S)
    ensures ApplyAll(s, [d] + ds, apply) == ApplyAll(apply(s, d), ds, apply)
    decreases |ds|
  {
    if |ds| == 0 {
      assert [d] + ds == [d];
      assert [d][..0] == [];
    } else {
      var n := |ds|;
      assert ([d] + ds)[..n] == [d] + ds[..n - 1];
      ApplyAllPrepend(s, d, ds[..n - 1], apply);
    }
  }

  /** Cancelling visits the decisions in exactly the reverse of the order in
      which they were applied. */
  lemma {:induction false} CancelAllIsReversed<S, D>(s: S, ds: seq<D>, cancel: (S, D) -> S)
    ensures CancelAll(s, ds, cancel) == ApplyAll(s, Reverse(ds), cancel)
    decreases |ds|
  {
    if |ds| > 0 {
      var n := |ds|;
      var front := ds[..n - 1];
      assert ds == front + [ds[n - 1]];
      ReverseSnoc(front, ds[n - 1]);
      CancelAllIsReversed(cancel(s, ds[n - 1]), front, cancel);
      ApplyAllPrepend(s, ds[n - 1], Reverse(front), cancel);
    }
  }

  /** When each cancel undoes its own apply, cancelling all decisions after
      applying them restores the starting state. */
  lemma {:induction false} CancelAllUndoesApplyAll<S, D>(s: S, ds: seq<D>, apply: (S, D) -> S, cancel: (S, D) -> S)
    requires forall t: S, d: D :: cancel(apply(t, d), d) == t
    ensures CancelAll(ApplyAll(s, ds, apply), ds, cancel) == s
    decreases |ds|
  {
    if |ds| > 0 {
      var n := |ds|;
      var t := ApplyAll(s, ds[..n - 1], apply);
      assert cancel(apply(t, ds[n - 1]), ds[n - 1]) == t;
      CancelAllUndoesApplyAll(s, ds[..n - 1], apply, cancel);
    }
  }

  // ---------------------------------------------------------------------
  // Lower bound computation

  /** A point the oracle returns, with the metadata of the lp solution. */
  datatype OraclePoint = OraclePoint(z: Point, meta: MetaData)

  /** The lp solver of the node: `lexmin(objective, right, top, cutoff)` and
      `weightedSum(beta, alpha, right, top, cutoff)`, each `None` when the
      bounded problem is infeasible.  `cutoff` is the global MIP cutoff
      switch in effect during the solve. */
  datatype Oracle = Oracle(
    lexmin: (nat, real, real, bool) -> Option<OraclePoint>,
    weightedSum: (real, real, real, real, bool) -> Option<OraclePoint>)

  /** A pair of points still to be processed. */
  datatype Pending = Pending(c1: Point, c2: Point)

  /** The state of the loop: the stack `C` (top last), the accepted
      segments `E`, and the metadata recorded per point. */
  datatype Refinement = Refinement(stack: seq<Pending>, hull: seq<Segment>, meta: map<Point, MetaData>)

  /** `metaData[p]`. */
  function Lookup(meta: map<Point, MetaData>, p: Point): (r: Fallible<MetaData>)
    ensures r.Ok? <==> p in meta
    ensures r.Raises? ==> r.error == KeyError
    ensures r.Ok? ==> r.value == meta[p]
  {
    if p in meta then Ok(meta[p]) else Raises(KeyError)
  }

  /** `addIfMustSub(c1, c2, E, metaData)` after the pair was popped from
      `rest`: the segment's right bound is `c2.x` while pairs remain to its
      right, and the node's right bound otherwise. */
  function AddIfMustSub<D>(cfg: Config, node: Node<D>, st: Refinement, c1: Point, c2: Point)
    : (r: Fallible<Refinement>)
    requires cfg.grid.Valid()
    ensures r.Ok? ==> r.value.stack == st.stack && r.value.meta == st.meta
    ensures r.Ok? ==> exists added :: (r.value.hull == st.hull + added && |added| <= 1 &&
      forall s :: s in added ==> (s.p1 == c1 && s.p2 == c2 && s.top == node.top &&
        s.right == (if |st.stack| > 0 then c2.x else node.right)))
    ensures (c1 in st.meta && c2 in st.meta) ==> r.Ok? || r.error == ZeroDivisionError
  {
    var right := if |st.stack| > 0 then c2.x else node.right;
    match Lookup(st.meta, c1)
    case Raises(e) => Raises(e)
    case Ok(m1) =>
      match Lookup(st.meta, c2)
      case Raises(e) => Raises(e)
      case Ok(m2) =>
        match MakeSegment(c1, c2, right, node.top, m1, m2)
        case Raises(e) => Raises(e)
        case Ok(s) =>
          var added := Considered(cfg, s);
          Ok(Refinement(st.stack, st.hull + added, st.meta))
  }

  /** The pair processed next, after the `closeEnough` collapse. */
  function Collapse(p: Pending): (r: Pending)
    ensures r.c1 == p.c1
    ensures r.c2 == p.c2 || r.c2 == p.c1
  {
    if Util.CloseEnough(p.c1, p.c2) then Pending(p.c1, p.c1) else p
  }

  /** The early acceptance test: equal points, or (with lifting) a pair
      that already defines a valid lower bound. */
  function Accepts(cfg: Config, p: Pending): (r: Fallible<bool>)
    requires cfg.grid.Valid()
    ensures p.c1 == p.c2 ==> r == Ok(true)
    ensures !cfg.lbLifting ==> r == Ok(p.c1 == p.c2)
  {
    if p.c1 == p.c2 then Ok(true)
    else if !cfg.lbLifting then Ok(false)
    else DefinesValidLB(cfg.grid, p.c1, p.c2)
  }

  /** One iteration of the main loop of `lowerBound`. */
  function Step<D>(cfg: Config, node: Node<D>, oracle: Oracle, cutoff: bool, st: Refinement)
    : (r: Fallible<Refinement>)
    requires cfg.Valid() && |st.stack| > 0
    ensures Collapse(st.stack[|st.stack| - 1]).c1.x > Collapse(st.stack[|st.stack| - 1]).c2.x
      <==> r == Raises(Exit(8))
  {
    var n := |st.stack|;
    var p := Collapse(st.stack[n - 1]);
    var popped := Refinement(st.stack[..n - 1], st.hull, st.meta);
    if p.c1.x > p.c2.x then Raises(Exit(8))
    else
      match Accepts(cfg, p)
      case Raises(e) => Raises(e)
      case Ok(true) => AddIfMustSub(cfg, node, popped, p.c1, p.c2)
      case Ok(false) =>
        var c3 := oracle.weightedSum(p.c1.y - p.c2.y, p.c2.x - p.c1.x, node.right, node.top, cutoff);
        Probe(cfg, node, popped, p, c3)
  }

  /** The rest of a step once the oracle answered for the weights of the
      pair: an infeasible answer drops the pair, a point on the pair's level
      line accepts it, and any other point splits it in two. */
  function Probe<D>(cfg: Config, node: Node<D>, popped: Refinement, p: Pending, c3: Option<OraclePoint>)
    : (r: Fallible<Refinement>)
    requires cfg.Valid()
    ensures c3.None? ==> r == Ok(popped)
    ensures c3.Some? && r.Ok? ==>
      || (r.value.stack == popped.stack && r.value.meta == popped.meta)
      || r.value == Refinement(popped.stack + [Pending(c3.value.z, p.c2), Pending(p.c1, c3.value.z)],
                               popped.hull, popped.meta[c3.value.z := c3.value.meta])
  {
    match c3
    case None => Ok(popped)
    case Some(c) =>
      var alpha := p.c2.x - p.c1.x;
      var beta := p.c1.y - p.c2.y;
      if NodeSimilarValues(Scalar(p.c1, beta, alpha), Scalar(c.z, beta, alpha), cfg.onSegmentTolerance)
      then AddIfMustSub(cfg, node, popped, p.c1, p.c2)
      else Ok(Refinement(popped.stack + [Pending(c.z, p.c2), Pending(p.c1, c.z)], popped.hull, popped.meta[c.z := c.meta]))
  }

  /** Runs the loop until the stack is empty; `None` when `fuel` iterations
      do not suffice. */
  function Refine<D>(cfg: Config, node: Node<D>, oracle: Oracle, cutoff: bool, st: Refinement, fuel: nat)
    : Option<Fallible<seq<Segment>>>
    requires cfg.Valid()
    decreases fuel
  {
    if |st.stack| == 0 then Some(Ok(st.hull))
    else if fuel == 0 then None
    else
      match Step(cfg, node, oracle, cutoff, st)
      case Raises(e) => Some(Raises(e))
      case Ok(next) => Refine(cfg, node, oracle, cutoff, next, fuel - 1)
  }

  /** The result of `lowerBound` and the value of the global MIP cutoff
      switch afterwards. */
  datatype LowerBoundOutcome = LowerBoundOutcome(result: Option<Fallible<seq<Segment>>>, cutoffAfter: bool)

  /** The two lexicographic extremes, or `None` when either is infeasible. */
  function Extremes<D>(node: Node<D>, oracle: Oracle): Option<(OraclePoint, OraclePoint)> {
    match oracle.lexmin(1, node.right, node.top, false)
    case None => None
    case Some(e1) =>
      match oracle.lexmin(2, node.right, node.top, false)
      case None => None
      case Some(e2) => Some((e1, e2))
  }

  /** The loop state after both extremes were found. */
  function Start(e1: OraclePoint, e2: OraclePoint): Refinement {
    Refinement([Pending(e1.z, e2.z)], [], map[e1.z := e1.meta][e2.z := e2.meta])
  }

  /** `Node.lowerBound` as written: the cutoff switch is turned off for the
      two lexicographic solves and restored only when both are feasible. */
  function LowerBound<D>(cfg: Config, node: Node<D>, oracle: Oracle, cutoff: bool, fuel: nat)
    : (r: LowerBoundOutcome)
    requires cfg.Valid()
    ensures Extremes(node, oracle).None? ==> r == LowerBoundOutcome(Some(Ok([])), false)
  {
    match Extremes(node, oracle)
    case None => LowerBoundOutcome(Some(Ok([])), false)
    case Some((e1, e2)) => LowerBoundOutcome(Refine(cfg, node, oracle, cutoff, Start(e1, e2), fuel), cutoff)
  }

  /** The early return leaves the switch off: with the cutoff enabled, one
      node whose extreme is infeasible disables it for the rest of the run. */
  lemma LowerBoundLosesCutoff<D>(cfg: Config, node: Node<D>, oracle: Oracle, fuel: nat)
    requires cfg.Valid() && oracle.lexmin(1, node.right, node.top, false).None?
    ensures LowerBound(cfg, node, oracle, true, fuel).cutoffAfter != true
  {
  }

  /** `lowerBound` with the switch restored on every path; the computed
      lower bound set is the same. */
  function LowerBoundRestoring<D>(cfg: Config, node: Node<D>, oracle: Oracle, cutoff: bool, fuel: nat)
    : (r: LowerBoundOutcome)
    requires cfg.Valid()
    ensures r.cutoffAfter == cutoff
    ensures r.result == LowerBound(cfg, node, oracle, cutoff, fuel).result
    ensures Extremes(node, oracle).None? ==> r.result == Some(Ok([]))
  {
    match Extremes(node, oracle)
    case None => LowerBoundOutcome(Some(Ok([])), cutoff)
    case Some((e1, e2)) => LowerBoundOutcome(Refine(cfg, node, oracle, cutoff, Start(e1, e2), fuel), cutoff)
  }

  // ---------------------------------------------------------------------
  // Invariants of the loop

  /** The stack read from the bottom is a chain of adjacent pairs ending at
      the second extreme: each pair starts where the pair above it ends. */
  predicate Chained(stack: seq<Pending>, last: Point) {
    && (|stack| > 0 ==> stack[0].c2 == last)
    && forall k :: 0 <= k < |stack| - 1 ==> stack[k].c1 == stack[k + 1].c2
  }

  /** Every point on the stack has recorded metadata. */
  predicate MetaKnown(st: Refinement) {
    forall k :: 0 <= k < |st.stack| ==> st.stack[k].c1 in st.meta && st.stack[k].c2 in st.meta
  }

  /** Every accepted segment runs left to right, has the node's top and a
      right bound no less than its right end. */
  predicate HullShaped<D>(node: Node<D>, st: Refinement) {
    forall s :: s in st.hull ==> s.p1.x <= s.p2.x && s.top == node.top && (s.right == s.p2.x || s.right == node.right)
  }

  predicate Invariant<D>(node: Node<D>, last: Point, st: Refinement) {
    Chained(st.stack, last) && MetaKnown(st) && HullShaped(node, st)
  }

  lemma StartInvariant<D>(node: Node<D>, e1: OraclePoint, e2: OraclePoint)
    ensures Invariant(node, e2.z, Start(e1, e2))
  {
  }

  lemma ChainedPrefix(stack: seq<Pending>, last: Point)
    requires |stack| > 0 && Chained(stack, last)
    ensures Chained(stack[..|stack| - 1], last)
  {
  }

  /** A split pushes `(c3, c2)` and then `(c1, c3)`: the left half is
      processed first, and the chain is kept. */
  lemma ChainedSplit(stack: seq<Pending>, last: Point, p: Pending, c3: Point)
    requires |stack| > 0 && Chained(stack, last) && stack[|stack| - 1].c2 == p.c2
    ensures Chained(stack[..|stack| - 1] + [Pending(c3, p.c2), Pending(p.c1, c3)], last)
  {
    var n := |stack|;
    var s := stack[..n - 1] + [Pending(c3, p.c2), Pending(p.c1, c3)];
    forall k | 0 <= k < |s| - 1
      ensures s[k].c1 == s[k + 1].c2
    {
      if k < n - 2 {
        assert s[k] == stack[k] && s[k + 1] == stack[k + 1];
      } else if k == n - 2 {
        assert s[k] == stack[k] && s[k + 1] == Pending(c3, p.c2);
      }
    }
  }

  /** A step either only pops the top pair, or replaces it by its two
      halves around the oracle's point. */
  lemma StepStack<D>(cfg: Config, node: Node<D>, oracle: Oracle, cutoff: bool, st: Refinement)
      returns (split: bool, c3: OraclePoint)
    requires cfg.Valid() && |st.stack| > 0
    requires Step(cfg, node, oracle, cutoff, st).Ok?
    ensures var n := |st.stack|; var r := Step(cfg, node, oracle, cutoff, st).value;
      if split then
        && r.stack == st.stack[..n - 1] + [Pending(c3.z, st.stack[n - 1].c2), Pending(st.stack[n - 1].c1, c3.z)]
        && r.meta == st.meta[c3.z := c3.meta]
        && r.hull == st.hull
      else r.stack == st.stack[..n - 1] && r.meta == st.meta
  {
    var n := |st.stack|;
    var p := Collapse(st.stack[n - 1]);
    var popped := Refinement(st.stack[..n - 1], st.hull, st.meta);
    split, c3 := false, OraclePoint(p.c1, MetaData(false, []));
    if Accepts(cfg, p) == Ok(false) {
      assert p == st.stack[n - 1];
      var c := oracle.weightedSum(p.c1.y - p.c2.y, p.c2.x - p.c1.x, node.right, node.top, cutoff);
      var r := Probe(cfg, node, popped, p, c);
      if c.Some? && !(r.value.stack == popped.stack && r.value.meta == popped.meta) {
        split, c3 := true, c.value;
      }
    }
  }

  lemma StepKeepsChain<D>(cfg: Config, node: Node<D>, oracle: Oracle, cutoff: bool, st: Refinement, last: Point)
    requires cfg.Valid() && |st.stack| > 0 && Chained(st.stack, last)
    requires Step(cfg, node, oracle, cutoff, st).Ok?
    ensures Chained(Step(cfg, node, oracle, cutoff, st).value.stack, last)
  {
    var n := |st.stack|;
    var split, c3 := StepStack(cfg, node, oracle, cutoff, st);
    ChainedPrefix(st.stack, last);
    if split {
      ChainedSplit(st.stack, last, st.stack[n - 1], c3.z);
    }
  }

  lemma StepKeepsMeta<D>(cfg: Config, node: Node<D>, oracle: Oracle, cutoff: bool, st: Refinement)
    requires cfg.Valid() && |st.stack| > 0 && MetaKnown(st)
    requires Step(cfg, node, oracle, cutoff, st).Ok?
    ensures MetaKnown(Step(cfg, node, oracle, cutoff, st).value)
  {
    var n := |st.stack|;
    var r := Step(cfg, node, oracle, cutoff, st).value;
    var split, c3 := StepStack(cfg, node, oracle, cutoff, st);
    forall k | 0 <= k < |r.stack|
      ensures r.stack[k].c1 in r.meta && r.stack[k].c2 in r.meta
    {
      if k < n - 1 {
        assert r.stack[k] == st.stack[k];
      } else {
        assert st.stack[n - 1].c1 in st.meta && st.stack[n - 1].c2 in st.meta;
      }
    }
  }

  /** With metadata known for every stacked point, a step never raises
      `KeyError`. */
  lemma StepNoKeyError<D>(cfg: Config, node: Node<D>, oracle: Oracle, cutoff: bool, st: Refinement)
    requires cfg.Valid() && |st.stack| > 0 && MetaKnown(st)
    ensures Step(cfg, node, oracle, cutoff, st) != Raises(KeyError)
  {
    var n := |st.stack|;
    assert st.stack[n - 1].c1 in st.meta && st.stack[n - 1].c2 in st.meta;
  }

  lemma {:induction false} StepKeepsHull<D>(cfg: Config, node: Node<D>, oracle: Oracle, cutoff: bool, st: Refinement)
    requires cfg.Valid() && |st.stack| > 0 && HullShaped(node, st)
    requires Step(cfg, node, oracle, cutoff, st).Ok?
    ensures HullShaped(node, Step(cfg, node, oracle, cutoff, st).value)
  {
    var r := Step(cfg, node, oracle, cutoff, st).value;
    if r.hull != st.hull {
      var n := |st.stack|;
      var p := Collapse(st.stack[n - 1]);
      var popped := Refinement(st.stack[..n - 1], st.hull, st.meta);
      assert AddIfMustSub(cfg, node, popped, p.c1, p.c2) == Ok(r);
    }
  }

  /** The loop keeps its invariant: the stack stays chained, lookups succeed
      and the accepted segments run left to right under the node's top. */
  lemma StepKeepsInvariant<D>(cfg: Config, node: Node<D>, oracle: Oracle, cutoff: bool, st: Refinement, last: Point)
    requires cfg.Valid() && |st.stack| > 0 && Invariant(node, last, st)
    requires Step(cfg, node, oracle, cutoff, st).Ok?
    ensures Invariant(node, last, Step(cfg, node, oracle, cutoff, st).value)
  {
    StepKeepsChain(cfg, node, oracle, cutoff, st, last);
    StepKeepsMeta(cfg, node, oracle, cutoff, st);
    StepKeepsHull(cfg, node, oracle, cutoff, st);
  }

  /** The finished loop never fails on a metadata lookup, and every segment
      of the lower bound set it returns runs left to right under the node's
      top. */
  lemma {:induction false} RefineResult<D>(cfg: Config, node: Node<D>, oracle: Oracle, cutoff: bool, st: Refinement, last: Point, fuel: nat)
    requires cfg.Valid() && Invariant(node, last, st)
    ensures Refine(cfg, node, oracle, cutoff, st, fuel) != Some(Raises(KeyError))
    ensures Refine(cfg, node, oracle, cutoff, st, fuel).Some? && Refine(cfg, node, oracle, cutoff, st, fuel).value.Ok? ==>
      forall s :: s in Refine(cfg, node, oracle, cutoff, st, fuel).value.value ==>
        s.p1.x <= s.p2.x && s.top == node.top && (s.right == s.p2.x || s.right == node.right)
    decreases fuel
  {
    if |st.stack| > 0 && fuel > 0 {
      StepNoKeyError(cfg, node, oracle, cutoff, st);
      if Step(cfg, node, oracle, cutoff, st).Ok? {
        StepKeepsInvariant(cfg, node, oracle, cutoff, st, last);
        RefineResult(cfg, node, oracle, cutoff, Step(cfg, node, oracle, cutoff, st).value, last, fuel - 1);
      }
    }
  }

  /** The whole computation never raises `KeyError`, and its segments run
      left to right under the node's top. */
  lemma LowerBoundShape<D>(cfg: Config, node: Node<D>, oracle: Oracle, cutoff: bool, fuel: nat)
    requires cfg.Valid()
    ensures LowerBound(cfg, node, oracle, cutoff, fuel).result != Some(Raises(KeyError))
    ensures LowerBound(cfg, node, oracle, cutoff, fuel).result.Some? && LowerBound(cfg, node, oracle, cutoff, fuel).result.value.Ok? ==>
      forall s :: s in LowerBound(cfg, node, oracle, cutoff, fuel).result.value.value ==>
        s.p1.x <= s.p2.x && s.top == node.top
  {
    match Extremes(node, oracle)
    case None =>
    case Some((e1, e2)) =>
      StartInvariant(node, e1, e2);
      RefineResult(cfg, node, oracle, cutoff, Start(e1, e2), e2.z, fuel);
  }

  // ---------------------------------------------------------------------
  // Order of the accepted segments

  /** Consecutive accepted segments do not overlap: each starts at or right
      of where the previous one ends. */
  predicate HullOrdered(hull: seq<Segment>) {
    forall k :: 0 <= k < |hull| - 1 ==> hull[k].p2.x <= hull[k + 1].p1.x
  }

  /** Every accepted segment ends at or left of the pair processed next. */
  predicate HullBeforeStack(st: Refinement) {
    |st.hull| > 0 && |st.stack| > 0 ==> st.hull[|st.hull| - 1].p2.x <= st.stack[|st.stack| - 1].c1.x
  }

  predicate Ordered(st: Refinement) {
    HullOrdered(st.hull) && HullBeforeStack(st)
  }

  /** A pair whose `closeEnough` collapse moves its right end onto its left
      end although the right end lies (slightly) to the left. */
  predicate LeftCollapse(p: Pending) {
    Util.CloseEnough(p.c1, p.c2) && p.c2.x < p.c1.x
  }

  /** The run from `st` meets no such pair within `fuel` steps. */
  predicate NoLeftCollapse<D>(cfg: Config, node: Node<D>, oracle: Oracle, cutoff: bool, st: Refinement, fuel: nat)
    requires cfg.Valid()
    decreases fuel
  {
    || |st.stack| == 0 || fuel == 0
    || (&& !LeftCollapse(st.stack[|st.stack| - 1])
        && (Step(cfg, node, oracle, cutoff, st).Ok? ==>
              NoLeftCollapse(cfg, node, oracle, cutoff, Step(cfg, node, oracle, cutoff, st).value, fuel - 1)))
  }

  /** What a step adds to the accepted segments: nothing, or the popped pair
      after the collapse. */
  lemma StepHull<D>(cfg: Config, node: Node<D>, oracle: Oracle, cutoff: bool, st: Refinement)
      returns (added: seq<Segment>)
    requires cfg.Valid() && |st.stack| > 0
    requires Step(cfg, node, oracle, cutoff, st).Ok?
    ensures var p := Collapse(st.stack[|st.stack| - 1]);
      && Step(cfg, node, oracle, cutoff, st).value.hull == st.hull + added && |added| <= 1
      && (|added| == 1 ==> added[0].p1 == p.c1 && added[0].p2 == p.c2)
  {
    var r := Step(cfg, node, oracle, cutoff, st).value;
    var n := |st.stack|;
    var p := Collapse(st.stack[n - 1]);
    var popped := Refinement(st.stack[..n - 1], st.hull, st.meta);
    if r.hull == st.hull {
      added := [];
      assert st.hull + [] == st.hull;
    } else {
      assert AddIfMustSub(cfg, node, popped, p.c1, p.c2) == Ok(r);
      var a :| r.hull == popped.hull + a && |a| <= 1 && forall s :: s in a ==> s.p1 == p.c1 && s.p2 == p.c2;
      added := a;
      if |a| == 1 {
        assert a[0] in a;
      }
    }
  }

  /** A pair that passes the consistency check and is not a leftward
      collapse runs left to right before the collapse too. */
  lemma PoppedRunsRight<D>(cfg: Config, node: Node<D>, oracle: Oracle, cutoff: bool, st: Refinement)
    requires cfg.Valid() && |st.stack| > 0
    requires !LeftCollapse(st.stack[|st.stack| - 1])
    requires Step(cfg, node, oracle, cutoff, st).Ok?
    ensures st.stack[|st.stack| - 1].c1.x <= st.stack[|st.stack| - 1].c2.x
    ensures Collapse(st.stack[|st.stack| - 1]).c2.x <= st.stack[|st.stack| - 1].c2.x
  {
    var top := st.stack[|st.stack| - 1];
    assert !(Collapse(top).c1.x > Collapse(top).c2.x);
  }

  /** Without a leftward collapse, a step keeps the accepted segments in
      order and before the stack. */
  lemma StepKeepsOrder<D>(cfg: Config, node: Node<D>, oracle: Oracle, cutoff: bool, st: Refinement, last: Point)
    requires cfg.Valid() && |st.stack| > 0 && Chained(st.stack, last) && Ordered(st)
    requires !LeftCollapse(st.stack[|st.stack| - 1])
    requires Step(cfg, node, oracle, cutoff, st).Ok?
    ensures Ordered(Step(cfg, node, oracle, cutoff, st).value)
  {
    var n := |st.stack|;
    var top := st.stack[n - 1];
    var p := Collapse(top);
    var r := Step(cfg, node, oracle, cutoff, st).value;
    PoppedRunsRight(cfg, node, oracle, cutoff, st);
    var split, c3 := StepStack(cfg, node, oracle, cutoff, st);
    var added := StepHull(cfg, node, oracle, cutoff, st);
    if split {
      assert r.stack[|r.stack| - 1] == Pending(top.c1, c3.z);
      assert r.hull == st.hull;
    } else {
      assert r.stack == st.stack[..n - 1];
      if n > 1 {
        assert r.stack[n - 2] == st.stack[n - 2];
        assert st.stack[n - 2].c1 == top.c2;
      }
      if |added| == 1 {
        var h := st.hull + added;
        assert h[|h| - 1] == added[0];
        forall k | 0 <= k < |h| - 1
          ensures h[k].p2.x <= h[k + 1].p1.x
        {
          if k < |st.hull| - 1 {
            assert h[k] == st.hull[k] && h[k + 1] == st.hull[k + 1];
          } else {
            assert h[k] == st.hull[|st.hull| - 1] && h[k + 1] == added[0];
          }
        }
      } else {
        assert r.hull == st.hull;
      }
    }
  }

  /** The finished loop returns its segments in order, on a run without
      leftward collapses. */
  lemma {:induction false} RefineOrdered<D>(cfg: Config, node: Node<D>, oracle: Oracle, cutoff: bool, st: Refinement, last: Point, fuel: nat)
    requires cfg.Valid() && Chained(st.stack, last) && Ordered(st)
    requires NoLeftCollapse(cfg, node, oracle, cutoff, st, fuel)
    ensures Refine(cfg, node, oracle, cutoff, st, fuel).Some? && Refine(cfg, node, oracle, cutoff, st, fuel).value.Ok? ==>
      HullOrdered(Refine(cfg, node, oracle, cutoff, st, fuel).value.value)
    decreases fuel
  {
    if |st.stack| > 0 && fuel > 0 && Step(cfg, node, oracle, cutoff, st).Ok? {
      StepKeepsOrder(cfg, node, oracle, cutoff, st, last);
      StepKeepsChain(cfg, node, oracle, cutoff, st, last);
      RefineOrdered(cfg, node, oracle, cutoff, Step(cfg, node, oracle, cutoff, st).value, last, fuel - 1);
    }
  }

  /** Every segment lies left of every later one. */
  predicate LeftToRight(hull: seq<Segment>) {
    forall i, j :: 0 <= i < j < |hull| ==> hull[i].p2.x <= hull[j].p1.x
  }

  /** Consecutive order and left-to-right segments give the order of the
      whole sequence. */
  lemma {:induction false} OrderedIsLeftToRight(hull: seq<Segment>, i: nat, j: nat)
    requires HullOrdered(hull) && forall s :: s in hull ==> s.p1.x <= s.p2.x
    requires i < j < |hull|
    ensures hull[i].p2.x <= hull[j].p1.x
    decreases j - i
  {
    if j > i + 1 {
      OrderedIsLeftToRight(hull, i, j - 1);
      assert hull[j - 1] in hull;
    }
  }

  /** The runs of `lowerBound` in which no pair is a leftward collapse. */
  predicate OrientedRun<D>(cfg: Config, node: Node<D>, oracle: Oracle, cutoff: bool, fuel: nat)
    requires cfg.Valid()
  {
    match Extremes(node, oracle)
    case None => true
    case Some((e1, e2)) => NoLeftCollapse(cfg, node, oracle, cutoff, Start(e1, e2), fuel)
  }

  /** `lowerBound` stacks the halves so that the accepted segments come out
      sorted from left to right, on every run without a leftward
      collapse. */
  lemma LowerBoundSorted<D>(cfg: Config, node: Node<D>, oracle: Oracle, cutoff: bool, fuel: nat)
    requires cfg.Valid() && OrientedRun(cfg, node, oracle, cutoff, fuel)
    ensures LowerBound(cfg, node, oracle, cutoff, fuel).result.Some? && LowerBound(cfg, node, oracle, cutoff, fuel).result.value.Ok? ==>
      LeftToRight(LowerBound(cfg, node, oracle, cutoff, fuel).result.value.value)
  {
    match Extremes(node, oracle)
    case None =>
    case Some((e1, e2)) =>
      var r := LowerBound(cfg, node, oracle, cutoff, fuel).result;
      StartInvariant(node, e1, e2);
      RefineOrdered(cfg, node, oracle, cutoff, Start(e1, e2), e2.z, fuel);
      RefineResult(cfg, node, oracle, cutoff, Start(e1, e2), e2.z, fuel);
      if r.Some? && r.value.Ok? {
        var h := r.value.value;
        forall i, j | 0 <= i < j < |h|
          ensures h[i].p2.x <= h[j].p1.x
        {
          OrderedIsLeftToRight(h, i, j);
        }
      }
  }
}

=== FILE: cliparser.dfy ===
/** `humanToBytes` of `cliparser.py`: a memory size such as `512M` turned
    into a number of bytes, with Python 2's `int()` on strings. */
module CliParser {
  import opened Common

  predicate IsDigit(c: char) {
    '0' <= c <= '9'
  }

  function DigitValue(c: char): nat
    requires IsDigit(c)
  {
    c as nat - '0' as nat
  }

  /** The whitespace `int()` ignores around a number. */
  predicate IsSpace(c: char) {
    c == ' ' || c == '\t' || c == '\n' || c == '\r' || c == '\U{B}' || c == '\U{C}'
  }

  function StripLeft(s: string): (r: string)
    ensures |r| <= |s| && r == s[|s| - |r|..]
    ensures |r| > 0 ==> !IsSpace(r[0])
    ensures forall i :: 0 <= i < |s| - |r| ==> IsSpace(s[i])
  {
    if |s| > 0 && IsSpace(s[0]) then StripLeft(s[1..]) else s
  }

  function StripRight(s: string): (r: string)
    ensures |r| <= |s| && r == s[..|r|]
    ensures |r| > 0 ==> !IsSpace(r[|r| - 1])
    ensures forall i :: |r| <= i < |s| ==> IsSpace(s[i])
  {
    if |s| > 0 && IsSpace(s[|s| - 1]) then StripRight(s[..|s| - 1]) else s
  }

  predicate AllDigits(s: string) {
    forall i :: 0 <= i < |s| ==> IsDigit(s[i])
  }

  /** The value of a decimal numeral, most significant digit first. */
  function Numeral(s: string): nat
    requires AllDigits(s)
  {
    if |s| == 0 then 0 else Numeral(s[..|s| - 1]) * 10 + DigitValue(s[|s| - 1])
  }

  /** `str.strip()`: the string without surrounding whitespace. */
  function Strip(s: string): string {
    StripRight(StripLeft(s))
  }

  predicate AllSpace(s: string) {
    forall i :: 0 <= i < |s| ==> IsSpace(s[i])
  }

  /** Whitespace followed by at least one decimal digit. */
  predicate SpacedDigits(u: string) {
    exists k :: 0 <= k < |u| && AllSpace(u[..k]) && AllDigits(u[k..])
  }

  predicate IsSign(c: char) {
    c == '-' || c == '+'
  }

  /** What Python 2's `int()` accepts once the surrounding whitespace is
      stripped: decimal digits, or a sign followed by digits, with
      whitespace allowed between the sign and the digits (the C parser
      skips whitespace again after the sign). */
  predicate IntLiteral(t: string) {
    || (|t| > 0 && AllDigits(t))
    || (|t| > 0 && IsSign(t[0]) && SpacedDigits(t[1..]))
  }

  /** `int()` on text without surrounding whitespace. */
  function ReadStripped(t: string): Fallible<int> {
    var negative := |t| > 0 && t[0] == '-';
    var body := if |t| > 0 && IsSign(t[0]) then StripLeft(t[1..]) else t;
    if |body| > 0 && AllDigits(body) then
      Ok(if negative then -(Numeral(body) as int) else Numeral(body))
    else Raises(ValueError)
  }

  lemma ReadStrippedAccepts(t: string)
    ensures ReadStripped(t).Ok? <==> IntLiteral(t)
    ensures ReadStripped(t).Raises? ==> ReadStripped(t).error == ValueError
  {
    var afterSign := if |t| > 0 then t[1..] else [];
    StripLeftSpacedDigits(afterSign);
  }

  /** Python 2's `int(s)` on a string: surrounding whitespace, an optional
      sign, more whitespace and at least one decimal digit; anything else
      raises `ValueError`. */
  function PyInt(s: string): (r: Fallible<int>)
    ensures r.Ok? <==> IntLiteral(Strip(s))
    ensures r.Raises? ==> r.error == ValueError
  {
    ReadStrippedAccepts(Strip(s));
    ReadStripped(Strip(s))
  }

  /** Skipping the whitespace of `u` leaves a non-empty run of digits
      exactly when `u` is whitespace followed by digits. */
  lemma StripLeftSpacedDigits(u: string)
    ensures (|StripLeft(u)| > 0 && AllDigits(StripLeft(u))) <==> SpacedDigits(u)
  {
    var r := StripLeft(u);
    var j := |u| - |r|;
    if |r| > 0 && AllDigits(r) {
      assert AllSpace(u[..j]);
      assert u[j..] == r;
    }
    if SpacedDigits(u) {
      var k :| 0 <= k < |u| && AllSpace(u[..k]) && AllDigits(u[k..]);
      assert IsDigit(u[k]) by { assert u[k..][0] == u[k]; }
      StripLeftAt(u, k);
    }
  }

  /** Whitespace up to the first non-whitespace character is what
      `StripLeft` removes. */
  lemma {:induction false} StripLeftAt(u: string, k: nat)
    requires k < |u| && AllSpace(u[..k]) && !IsSpace(u[k])
    ensures StripLeft(u) == u[k..]
  {
    if k > 0 {
      assert IsSpace(u[0]) by { assert u[..k][0] == u[0]; }
      assert u[1..][..k - 1] == u[..k][1..];
      StripLeftAt(u[1..], k - 1);
      assert u[1..][k - 1..] == u[k..];
    }
  }

  /** Whitespace around the number does not change what `int()` reads. */
  lemma PyIntIgnoresSpace(s: string, c: char)
    requires IsSpace(c)
    ensures PyInt([c] + s) == PyInt(s)
    ensures PyInt(s + [c]) == PyInt(s)
  {
    assert ([c] + s)[1..] == s;
    assert Strip([c] + s) == Strip(s);
    StripLeftSnoc(s, c);
    assert Strip(s + [c]) == Strip(s);
    PyIntReadsStripped([c] + s, s);
    PyIntReadsStripped(s + [c], s);
  }

  lemma PyIntReadsStripped(a: string, b: string)
    requires Strip(a) == Strip(b)
    ensures PyInt(a) == PyInt(b)
  {
  }

  /** Stripping on the left commutes with a trailing whitespace character. */
  lemma {:induction false} StripLeftSnoc(s: string, c: char)
    requires IsSpace(c)
    ensures StripRight(StripLeft(s + [c])) == StripRight(StripLeft(s))
  {
    if |s| > 0 && IsSpace(s[0]) {
      assert (s + [c])[1..] == s[1..] + [c];
      StripLeftSnoc(s[1..], c);
    } else if |s| == 0 {
      assert StripLeft([c]) == [];
    } else {
      var t := s + [c];
      assert StripLeft(t) == t;
      assert t[..|t| - 1] == s;
    }
  }

  /** The decimal numeral of a natural number, without leading zeros. */
  function Decimal(n: nat): (s: string)
    ensures |s| > 0 && AllDigits(s)
  {
    if n < 10 then ['0' + n as char] else Decimal(n / 10) + ['0' + (n % 10) as char]
  }

  /** `int()` reads back what `Decimal` writes. */
  lemma {:induction false} NumeralOfDecimal(n: nat)
    ensures Numeral(Decimal(n)) == n
  {
    var s := Decimal(n);
    if n >= 10 {
      NumeralOfDecimal(n / 10);
      assert s[..|s| - 1] == Decimal(n / 10);
    }
  }

  /** A string without surrounding whitespace is not stripped. */
  lemma StripNothing(s: string)
    requires |s| > 0 && !IsSpace(s[0]) && !IsSpace(s[|s| - 1])
    ensures StripRight(StripLeft(s)) == s
  {
  }

  lemma PyIntOfDecimal(n: nat)
    ensures PyInt(Decimal(n)) == Ok(n)
    ensures PyInt("-" + Decimal(n)) == Ok(-(n as int))
  {
    var d := Decimal(n);
    assert |d| > 0 && AllDigits(d) && Numeral(d) == n by {
      NumeralOfDecimal(n);
    }
    DigitsRead(d, n);
    NegatedDigitsRead(d, n);
  }

  lemma DigitsRead(d: string, n: nat)
    requires |d| > 0 && AllDigits(d) && Numeral(d) == n
    ensures PyInt(d) == Ok(n)
  {
    StripNothing(d);
    assert !IsSign(d[0]);
  }

  lemma NegatedDigitsRead(d: string, n: nat)
    requires |d| > 0 && AllDigits(d) && Numeral(d) == n
    ensures PyInt("-" + d) == Ok(-(n as int))
  {
    assert ['-'] + "" + d == "-" + d by {
      assert ['-'] + "" == "-";
    }
    SignedDigits('-', "", d, n);
  }

  /** Whitespace between the sign and the digits is skipped: `int("- 5")`
      is `-5` and `int("+ 5")` is `5`. */
  lemma PyIntSpaceAfterSign(n: nat, w: string)
    requires AllSpace(w)
    ensures PyInt("-" + w + Decimal(n)) == Ok(-(n as int))
    ensures PyInt("+" + w + Decimal(n)) == Ok(n)
  {
    SignedNumeral('-', w, n);
    SignedNumeral('+', w, n);
  }

  lemma SignedNumeral(c: char, w: string, n: nat)
    requires IsSign(c) && AllSpace(w)
    ensures PyInt([c] + w + Decimal(n)) == Ok(if c == '-' then -(n as int) else n)
  {
    var d := Decimal(n);
    assert |d| > 0 && AllDigits(d) && Numeral(d) == n by {
      NumeralOfDecimal(n);
    }
    SignedDigits(c, w, d, n);
  }

  lemma SignedDigits(c: char, w: string, d: string, n: nat)
    requires IsSign(c) && AllSpace(w) && |d| > 0 && AllDigits(d) && Numeral(d) == n
    ensures PyInt([c] + w + d) == Ok(if c == '-' then -(n as int) else n)
  {
    var m := [c] + w + d;
    SignedNumeralStripped(c, w, d);
    SignedDigitsRead(c, w, d, n);
    assert PyInt(m) == ReadStripped(m);
  }

  lemma SignedNumeralStripped(c: char, w: string, d: string)
    requires IsSign(c) && |d| > 0 && AllDigits(d)
    ensures Strip([c] + w + d) == [c] + w + d
  {
    var m := [c] + w + d;
    assert m[|m| - 1] == d[|d| - 1];
    StripNothing(m);
  }

  lemma SignedDigitsRead(c: char, w: string, d: string, n: nat)
    requires IsSign(c) && AllSpace(w) && |d| > 0 && AllDigits(d) && Numeral(d) == n
    ensures ReadStripped([c] + w + d) == Ok(if c == '-' then -(n as int) else n)
  {
    StripAfterSign(c, w, d);
    ReadSignedDigits([c] + w + d, c, d, n);
  }

  lemma StripAfterSign(c: char, w: string, d: string)
    requires AllSpace(w) && |d| > 0 && AllDigits(d)
    ensures StripLeft(([c] + w + d)[1..]) == d
  {
    assert ([c] + w + d)[1..] == w + d;
    StripLeftSpaces(w, d);
  }

  /** A sign, then whitespace, then the digits `d` read as the signed value
      of `d`. */
  lemma {:induction false} ReadSignedDigits(t: string, c: char, d: string, n: nat)
    requires |t| > 0 && t[0] == c && IsSign(c) && StripLeft(t[1..]) == d && |d| > 0 && AllDigits(d)
    requires Numeral(d) == n
    ensures ReadStripped(t) == Ok(if c == '-' then -(n as int) else n)
  {
    var body := if |t| > 0 && IsSign(t[0]) then StripLeft(t[1..]) else t;
    assert body == d;
  }

  /** Leading whitespace before a non-whitespace character is removed. */
  lemma {:induction false} StripLeftSpaces(w: string, d: string)
    requires AllSpace(w) && |d| > 0 && !IsSpace(d[0])
    ensures StripLeft(w + d) == d
  {
    if |w| > 0 {
      assert (w + d)[0] == w[0];
      assert (w + d)[1..] == w[1..] + d;
      StripLeftSpaces(w[1..], d);
    } else {
      assert w + d == d;
    }
  }

  /** The ASCII upper-case of a character, as `str.upper()` in the C locale. */
  function Upper(c: char): (u: char)
    ensures 'a' <= c <= 'z' ==> 'A' <= u <= 'Z'
    ensures !('a' <= c <= 'z') ==> u == c
  {
    if 'a' <= c <= 'z' then (c as int - 32) as char else c
  }

  /** The `units` table: powers of 1024. */
  function UnitFactor(c: char): (f: Option<nat>)
    ensures f.Some? <==> c in "KMGT"
  {
    match c
    case 'K' => Some(1024)
    case 'M' => Some(1024 * 1024)
    case 'G' => Some(1024 * 1024 * 1024)
    case 'T' => Some(1024 * 1024 * 1024 * 1024)
    case _ => None
  }

  /** `humanToBytes(size)`: a size ending in a digit is read whole; otherwise
      the prefix is read and multiplied by the unit of the last character,
      upper-cased.  The empty string raises `IndexError`, an unreadable
      prefix `ValueError` (before the unit is looked up), and an unknown
      unit `KeyError`. */
  function HumanToBytes(size: string): (r: Fallible<int>)
    ensures |size| == 0 <==> r == Raises(IndexError)
    ensures |size| > 0 && IsDigit(size[|size| - 1]) ==> r == PyInt(size)
    ensures |size| > 0 && !IsDigit(size[|size| - 1]) && PyInt(size[..|size| - 1]).Raises? ==> r == Raises(ValueError)
    ensures |size| > 0 && !IsDigit(size[|size| - 1]) && PyInt(size[..|size| - 1]).Ok? ==>
      (r == Raises(KeyError) <==> !(Upper(size[|size| - 1]) in "KMGT"))
  {
    if |size| == 0 then Raises(IndexError)
    else
      var last := size[|size| - 1];
      if IsDigit(last) then PyInt(size)
      else
        match PyInt(size[..|size| - 1])
        case Raises(e) => Raises(e)
        case Ok(n) =>
          match UnitFactor(Upper(last))
          case None => Raises(KeyError)
          case Some(f) => Ok(n * f)
  }

  /** A plain number of bytes reads back unchanged. */
  lemma HumanToBytesPlain(n: nat)
    ensures HumanToBytes(Decimal(n)) == Ok(n)
  {
    PyIntOfDecimal(n);
  }

  /** A number followed by a unit letter, in either case, reads back as that
      number times the unit's factor. */
  lemma HumanToBytesWithUnit(n: nat, unit: char)
    requires Upper(unit) in "KMGT"
    ensures HumanToBytes(Decimal(n) + [unit]) == Ok(n * UnitFactor(Upper(unit)).value)
  {
    var s := Decimal(n) + [unit];
    assert s[..|s| - 1] == Decimal(n);
    assert s[|s| - 1] == unit;
    assert !IsDigit(unit);
    PyIntOfDecimal(n);
    assert PyInt(s[..|s| - 1]) == Ok(n);
    assert UnitFactor(Upper(unit)).Some?;
  }

  /** A signed size with whitespace after the sign and a unit, such as
      `"+ 2K"`, reads as the signed number times the unit's factor. */
  lemma HumanToBytesSpacedSign(n: nat, w: string, unit: char)
    requires AllSpace(w) && Upper(unit) in "KMGT"
    ensures HumanToBytes("+" + w + Decimal(n) + [unit]) == Ok(n * UnitFactor(Upper(unit)).value)
    ensures HumanToBytes("-" + w + Decimal(n) + [unit]) == Ok(-(n as int) * UnitFactor(Upper(unit)).value)
  {
    SignedWithUnit('+', w, n, unit);
    SignedWithUnit('-', w, n, unit);
  }

  lemma SignedWithUnit(c: char, w: string, n: nat, unit: char)
    requires IsSign(c) && AllSpace(w) && Upper(unit) in "KMGT"
    ensures HumanToBytes([c] + w + Decimal(n) + [unit]) ==
      Ok((if c == '-' then -(n as int) else n) * UnitFactor(Upper(unit)).value)
  {
    SignedNumeral(c, w, n);
    var s := [c] + w + Decimal(n) + [unit];
    assert s[..|s| - 1] == [c] + w + Decimal(n);
    assert s[|s| - 1] == unit;
    assert !IsDigit(unit);
    assert UnitFactor(Upper(unit)).Some?;
  }

  function Pow1024(k: nat): nat {
    if k == 0 then 1 else 1024 * Pow1024(k - 1)
  }

  /** The units are the first four powers of 1024. */
  lemma UnitFactorsArePowers()
    ensures UnitFactor('K') == Some(Pow1024(1)) && UnitFactor('M') == Some(Pow1024(2))
    ensures UnitFactor('G') == Some(Pow1024(3)) && UnitFactor('T') == Some(Pow1024(4))
  {
  }

  /** The unit letter is case-insensitive. */
  lemma HumanToBytesCaseInsensitive(prefix: string, unit: char)
    requires 'a' <= unit <= 'z'
    ensures HumanToBytes(prefix + [unit]) == HumanToBytes(prefix + [Upper(unit)])
  {
    assert (prefix + [unit])[..|prefix|] == prefix;
    assert (prefix + [Upper(unit)])[..|prefix|] == prefix;
  }
}

=== FILE: common.dfy ===
/** Shared vocabulary: optional values, the Python exceptions the modelled code
    can raise, and points of the two-dimensional objective space. */
module Common {

  datatype Option<+T> = None | Some(value: T)

  /** The run-time failures of the modelled Python code that the model keeps
      visible instead of ruling out by precondition.  `Exit` stands for a call
      of `sys.exit(code)`. */
  datatype PyError =
    | IndexError
    | KeyError
    | ValueError
    | TypeError
    | AttributeError
    | ZeroDivisionError
    | Exit(code: int)

  /** Either a value or the exception the Python code would raise. */
  datatype Fallible<+T> = Ok(value: T) | Raises(error: PyError)

  /** A point `(z1, z2)` of objective space; the Python code uses 2-tuples. */
  datatype Point = Point(x: real, y: real)

  /** The point respects the bounds `right` on `z1` and `top` on `z2`. */
  predicate Within(p: Point, right: real, top: real) {
    p.x <= right && p.y <= top
  }

  /** A lexicographic-minimum oracle `lexmin(firstObj, right, top)`: the
      solver call that minimises objective `firstObj` and then the other one
      under the bounds, or `None` when nothing is feasible. */
  type LexminOracle = (int, real, real) -> Option<Point>

  /** The oracle answers within the bounds it is given. */
  ghost predicate RespectsBounds(lexmin: LexminOracle) {
    forall k, right, top :: lexmin(k, right, top).Some? ==> Within(lexmin(k, right, top).value, right, top)
  }

  /** Python's tuple order on points: first coordinate, then second. */
  predicate TupleLess(p: Point, q: Point) {
    p.x < q.x || (p.x == q.x && p.y < q.y)
  }

  function Min(a: real, b: real): (m: real)
    ensures m <= a && m <= b
    ensures m == a || m == b
  {
    if b < a then b else a
  }

  function Abs(a: real): (r: real)
    ensures r >= 0.0
    ensures r == a || r == -a
  {
    if a < 0.0 then -a else a
  }

  function Reverse<T>(s: seq<T>): (r: seq<T>)
    ensures |r| == |s|
  {
    if |s| == 0 then [] else Reverse(s[1..]) + [s[0]]
  }

  lemma {:induction false} ReverseSnoc<T>(s: seq<T>, x: T)
    ensures Reverse(s + [x]) == [x] + Reverse(s)
  {
    if |s| > 0 {
      assert (s + [x])[1..] == s[1..] + [x];
      ReverseSnoc(s[1..], x);
    } else {
      assert s + [x] == [x];
    }
  }
}

=== FILE: epsilonconstraint.dfy ===
/** The epsilon-constraint frameworks of
    `biobab/epsilonconstraintframework.py`: repeated lexicographic minima,
    each one bounding the next by a grid step.  The oracle is a parameter;
    the runs return the points they find, and a run that needs more than
    `fuel` oracle calls is cut short with `None`. */
module EpsilonConstraint {
  import opened Common
  import Util
  import opened BasicData
  import opened Params

  /** The loop of `EpsilonConstraintFramework.solve` from the bounds
      `right`, `top`: it ends at the first infeasible answer, and otherwise
      lowers the bound on the objective that is not optimised first to one
      grid step below the new point. */
  function Run(cfg: Config, lexmin: LexminOracle, singleObj: int, right: real, top: real, fuel: nat): (r: Option<seq<Point>>)
    ensures r.Some? && |r.value| > 0 ==> lexmin(singleObj, right, top) == Some(r.value[0])
    ensures r.Some? && |r.value| == 0 <==> fuel > 0 && lexmin(singleObj, right, top).None?
    decreases fuel
  {
    if fuel == 0 then None
    else
      match lexmin(singleObj, right, top)
      case None => Some([])
      case Some(p) =>
        var rest := if singleObj == 1 then Run(cfg, lexmin, singleObj, right, p.y - cfg.grid.z2Epsilon, fuel - 1)
                    else Run(cfg, lexmin, singleObj, p.x - cfg.grid.z1Epsilon, top, fuel - 1);
        if rest.None? then None else Some([p] + rest.value)
  }

  /** `EpsilonConstraintFramework.solve`: an objective other than 1 or 2
      exits with code 22 before the oracle is ever called. */
  function Solve(cfg: Config, lexmin: LexminOracle, singleObj: int, right: real, top: real, fuel: nat)
    : (r: Fallible<Option<seq<Point>>>)
    ensures r.Raises? <==> singleObj != 1 && singleObj != 2
    ensures r.Raises? ==> r.error == Exit(22)
    ensures r.Ok? ==> r.value == Run(cfg, lexmin, singleObj, right, top, fuel)
  {
    if singleObj == 1 || singleObj == 2 then Ok(Run(cfg, lexmin, singleObj, right, top, fuel))
    else Raises(Exit(22))
  }

  /** The points of a run optimising `z1` first climb down in `z2` by at
      least a grid step each; optimising `z2` first, they move left in `z1`
      by at least a grid step each. */
  predicate Descending(cfg: Config, singleObj: int, ps: seq<Point>) {
    forall i :: 0 <= i < |ps| - 1 ==>
      if singleObj == 1 then ps[i + 1].y <= ps[i].y - cfg.grid.z2Epsilon
      else ps[i + 1].x <= ps[i].x - cfg.grid.z1Epsilon
  }

  /** With an oracle that respects its bounds, every point lies within the
      starting bounds and the points descend by a grid step each. */
  lemma {:induction false} RunDescends(cfg: Config, lexmin: LexminOracle, singleObj: int, right: real, top: real, fuel: nat)
    requires RespectsBounds(lexmin) && cfg.grid.Valid()
    ensures var r := Run(cfg, lexmin, singleObj, right, top, fuel);
      r.Some? ==> Descending(cfg, singleObj, r.value) && forall i :: 0 <= i < |r.value| ==> Within(r.value[i], right, top)
    decreases fuel
  {
    var r := Run(cfg, lexmin, singleObj, right, top, fuel);
    if fuel > 0 && lexmin(singleObj, right, top).Some? && r.Some? {
      var p := lexmin(singleObj, right, top).value;
      assert Within(p, right, top);
      var right', top' := if singleObj == 1 then right else p.x - cfg.grid.z1Epsilon,
                          if singleObj == 1 then p.y - cfg.grid.z2Epsilon else top;
      RunDescends(cfg, lexmin, singleObj, right', top', fuel - 1);
      var rest := Run(cfg, lexmin, singleObj, right', top', fuel - 1).value;
      assert r.value == [p] + rest;
      forall i | 0 <= i < |r.value| ensures Within(r.value[i], right, top) {
        if i > 0 {
          assert r.value[i] == rest[i - 1];
        }
      }
      forall i | 0 <= i < |r.value| - 1
        ensures if singleObj == 1 then r.value[i + 1].y <= r.value[i].y - cfg.grid.z2Epsilon
                else r.value[i + 1].x <= r.value[i].x - cfg.grid.z1Epsilon
      {
        assert r.value[i + 1] == rest[i];
        if i > 0 {
          assert r.value[i] == rest[i - 1];
        }
      }
    }
  }

  /** The tightened bound descends by a grid step per point, so when every
      answer lies above a floor the run ends on its own once the fuel covers
      the distance from the bound to the floor. */
  lemma {:induction false} RunTerminates(cfg: Config, lexmin: LexminOracle, right: real, top: real, floor: real, fuel: nat)
    requires RespectsBounds(lexmin) && cfg.grid.Valid()
    requires forall r, t :: lexmin(1, r, t).Some? ==> lexmin(1, r, t).value.y >= floor
    requires fuel >= 1 && (fuel as real) * cfg.grid.z2Epsilon > top - floor + cfg.grid.z2Epsilon
    ensures Run(cfg, lexmin, 1, right, top, fuel).Some?
    decreases fuel
  {
    if lexmin(1, right, top).Some? {
      var p := lexmin(1, right, top).value;
      assert Within(p, right, top);
      var top' := p.y - cfg.grid.z2Epsilon;
      assert ((fuel - 1) as real) * cfg.grid.z2Epsilon == (fuel as real) * cfg.grid.z2Epsilon - cfg.grid.z2Epsilon;
      RunTerminates(cfg, lexmin, right, top', floor, fuel - 1);
    }
  }

  // ---------------------------------------------------------------------
  // Bi-directional variant

  /** The loop of `BDEpsilonConstraintFramework.solve`: objective
      `currentObj` is optimised under its own tightened bound (`localTop`
      for objective 1, `localRight` otherwise) and the global bound on the
      other objective, and the objectives alternate after each new point.
      The run stops at a point close enough to the previous one.  An
      infeasible answer raises `TypeError`: either comparing `None` with the
      previous point or subtracting the grid step from `None`. */
  function BDRun(cfg: Config, lexmin: LexminOracle, currentObj: int, right: real, top: real,
                 localRight: real, localTop: real, lastFound: Option<Point>, fuel: nat): (r: Option<Fallible<seq<Point>>>)
    ensures r.Some? && r.value.Raises? ==> r.value.error == TypeError
    decreases fuel
  {
    if fuel == 0 then None
    else
      var answer := if currentObj == 1 then lexmin(currentObj, right, localTop) else lexmin(currentObj, localRight, top);
      match answer
      case None => Some(Raises(TypeError))
      case Some(p) =>
        if lastFound.Some? && Util.CloseEnough(p, lastFound.value) then Some(Ok([]))
        else
          var rest := if currentObj == 1 then BDRun(cfg, lexmin, 2, right, top, localRight, p.y - cfg.grid.z2Epsilon, Some(p), fuel - 1)
                      else BDRun(cfg, lexmin, 1, right, top, p.x - cfg.grid.z1Epsilon, localTop, Some(p), fuel - 1);
          match rest
          case None => None
          case Some(Raises(e)) => Some(Raises(e))
          case Some(Ok(ps)) => Some(Ok([p] + ps))
  }

  /** `BDEpsilonConstraintFramework.solve`: both local bounds start at the
      global ones and nothing has been found yet. */
  function BDSolve(cfg: Config, lexmin: LexminOracle, firstObj: int, right: real, top: real, fuel: nat)
    : Option<Fallible<seq<Point>>>
  {
    BDRun(cfg, lexmin, firstObj, right, top, right, top, None, fuel)
  }

  /** An oracle that is always feasible never makes the run raise. */
  lemma {:induction false} BDFeasibleNeverRaises(cfg: Config, lexmin: LexminOracle, currentObj: int, right: real, top: real,
                                                 localRight: real, localTop: real, lastFound: Option<Point>, fuel: nat)
    requires forall k, r, t :: lexmin(k, r, t).Some?
    ensures var r := BDRun(cfg, lexmin, currentObj, right, top, localRight, localTop, lastFound, fuel);
      r.Some? ==> r.value.Ok?
    decreases fuel
  {
    if fuel > 0 {
      var answer := if currentObj == 1 then lexmin(currentObj, right, localTop) else lexmin(currentObj, localRight, top);
      var p := answer.value;
      if currentObj == 1 {
        BDFeasibleNeverRaises(cfg, lexmin, 2, right, top, localRight, p.y - cfg.grid.z2Epsilon, Some(p), fuel - 1);
      } else {
        BDFeasibleNeverRaises(cfg, lexmin, 1, right, top, p.x - cfg.grid.z1Epsilon, localTop, Some(p), fuel - 1);
      }
    }
  }

  /** Objective 1 is optimised at the even positions of a run starting with
      it, and at the odd positions otherwise. */
  predicate ObjectiveOneAt(currentObj: int, i: nat) {
    (i % 2 == 0) == (currentObj == 1)
  }

  /** Every point found for an objective improves on the previous point
      found for that same objective (two positions earlier) by at least a
      grid step in the other objective. */
  predicate Alternating(cfg: Config, currentObj: int, ps: seq<Point>) {
    forall i: nat :: i + 2 < |ps| ==>
      if ObjectiveOneAt(currentObj, i) then ps[i + 2].y <= ps[i].y - cfg.grid.z2Epsilon
      else ps[i + 2].x <= ps[i].x - cfg.grid.z1Epsilon
  }

  /** With an oracle that respects its bounds, the first point of a run
      respects the local bound of the objective it optimises. */
  lemma BDFirstPoint(cfg: Config, lexmin: LexminOracle, currentObj: int, right: real, top: real,
                     localRight: real, localTop: real, lastFound: Option<Point>, fuel: nat)
    requires RespectsBounds(lexmin)
    ensures var r := BDRun(cfg, lexmin, currentObj, right, top, localRight, localTop, lastFound, fuel);
      r.Some? && r.value.Ok? && |r.value.value| > 0 ==>
        if currentObj == 1 then r.value.value[0].y <= localTop else r.value.value[0].x <= localRight
  {
    if fuel > 0 {
      if currentObj == 1 {
        assert lexmin(currentObj, right, localTop).Some? ==> Within(lexmin(currentObj, right, localTop).value, right, localTop);
      } else {
        assert lexmin(currentObj, localRight, top).Some? ==> Within(lexmin(currentObj, localRight, top).value, localRight, top);
      }
    }
  }

  /** The second point of a run respects the local bound of the other
      objective, which the first point left unchanged. */
  lemma BDSecondPoint(cfg: Config, lexmin: LexminOracle, currentObj: int, right: real, top: real,
                      localRight: real, localTop: real, lastFound: Option<Point>, fuel: nat)
    requires RespectsBounds(lexmin)
    ensures var r := BDRun(cfg, lexmin, currentObj, right, top, localRight, localTop, lastFound, fuel);
      r.Some? && r.value.Ok? && |r.value.value| > 1 ==>
        if currentObj == 1 then r.value.value[1].x <= localRight else r.value.value[1].y <= localTop
  {
    var r := BDRun(cfg, lexmin, currentObj, right, top, localRight, localTop, lastFound, fuel);
    if fuel > 0 && r.Some? && r.value.Ok? && |r.value.value| > 1 {
      var p := (if currentObj == 1 then lexmin(currentObj, right, localTop) else lexmin(currentObj, localRight, top)).value;
      var nextObj := if currentObj == 1 then 2 else 1;
      var lr' := if currentObj == 1 then localRight else p.x - cfg.grid.z1Epsilon;
      var lt' := if currentObj == 1 then p.y - cfg.grid.z2Epsilon else localTop;
      BDFirstPoint(cfg, lexmin, nextObj, right, top, lr', lt', Some(p), fuel - 1);
      assert r.value.value == [p] + BDRun(cfg, lexmin, nextObj, right, top, lr', lt', Some(p), fuel - 1).value.value;
    }
  }

  /** With an oracle that respects its bounds, every point found for an
      objective improves by a grid step on the previous point found for it. */
  lemma {:induction false} BDAlternates(cfg: Config, lexmin: LexminOracle, currentObj: int, right: real, top: real,
                                        localRight: real, localTop: real, lastFound: Option<Point>, fuel: nat)
    requires RespectsBounds(lexmin)
    ensures var r := BDRun(cfg, lexmin, currentObj, right, top, localRight, localTop, lastFound, fuel);
      r.Some? && r.value.Ok? ==> Alternating(cfg, currentObj, r.value.value)
    decreases fuel
  {
    var r := BDRun(cfg, lexmin, currentObj, right, top, localRight, localTop, lastFound, fuel);
    if fuel > 0 && r.Some? && r.value.Ok? && |r.value.value| > 0 {
      var p := (if currentObj == 1 then lexmin(currentObj, right, localTop) else lexmin(currentObj, localRight, top)).value;
      var nextObj := if currentObj == 1 then 2 else 1;
      var lr' := if currentObj == 1 then localRight else p.x - cfg.grid.z1Epsilon;
      var lt' := if currentObj == 1 then p.y - cfg.grid.z2Epsilon else localTop;
      BDAlternates(cfg, lexmin, nextObj, right, top, lr', lt', Some(p), fuel - 1);
      BDSecondPoint(cfg, lexmin, nextObj, right, top, lr', lt', Some(p), fuel - 1);
      var ps := r.value.value;
      var rest := BDRun(cfg, lexmin, nextObj, right, top, lr', lt', Some(p), fuel - 1).value.value;
      assert ps == [p] + rest;
      forall i: nat | i + 2 < |ps|
        ensures if ObjectiveOneAt(currentObj, i) then ps[i + 2].y <= ps[i].y - cfg.grid.z2Epsilon
                else ps[i + 2].x <= ps[i].x - cfg.grid.z1Epsilon
      {
        assert ps[i + 2] == rest[i + 1];
        if i > 0 {
          assert ps[i] == rest[i - 1];
          assert ObjectiveOneAt(currentObj, i) == ObjectiveOneAt(nextObj, i - 1);
        }
      }
    }
  }
}

=== FILE: flexiblequeue.dfy ===
/** The search-frontier queue of `biobab/flexiblequeue.py`: first-in
    first-out, last-in first-out, or best-first by score. */
module FlexibleQueue {
  import opened Common

  /** The processing mode; any other string is kept as `Unknown`. */
  datatype Mode = Fifo | Lifo | Best | Unknown(name: string)

  /** A queued item with the score it had when pushed. */
  datatype Entry<T> = Entry(score: real, item: T)

  /** The queue; `entries` is in push order (for best-first, the heap is
      modelled by its contents). */
  datatype Queue<T> = Queue(mode: Mode, entries: seq<Entry<T>>)

  function NewQueue<T>(mode: Mode): (q: Queue<T>)
    ensures Len(q) == 0 && q.mode == mode
  {
    Queue(mode, [])
  }

  /** `len(queue)`. */
  function Len<T>(q: Queue<T>): nat {
    |q.entries|
  }

  /** `empty()`. */
  predicate IsEmpty<T>(q: Queue<T>)
    ensures IsEmpty(q) <==> Len(q) == 0
  {
    |q.entries| == 0
  }

  /** `push(item)`: the item joins the queue with its score; nothing else
      changes. */
  function Push<T>(q: Queue<T>, score: real, item: T): (r: Queue<T>)
    ensures Len(r) == Len(q) + 1 && r.mode == q.mode
    ensures multiset(r.entries) == multiset(q.entries) + multiset{Entry(score, item)}
  {
    Queue(q.mode, q.entries + [Entry(score, item)])
  }

  /** The first entry of smallest score. */
  function MinIndex<T>(es: seq<Entry<T>>): (i: nat)
    requires |es| > 0
    ensures i < |es|
    ensures forall j :: 0 <= j < |es| ==> es[i].score <= es[j].score
    ensures forall j :: 0 <= j < i ==> es[j].score > es[i].score
  {
    if |es| == 1 then 0
    else
      var k := MinIndex(es[1..]);
      if es[0].score <= es[k + 1].score then 0 else k + 1
  }

  function RemoveAt<T>(es: seq<Entry<T>>, i: nat): (r: seq<Entry<T>>)
    requires i < |es|
    ensures |r| == |es| - 1
    ensures multiset(r) + multiset{es[i]} == multiset(es)
  {
    assert es == es[..i] + [es[i]] + es[i + 1..];
    es[..i] + es[i + 1..]
  }

  /** The outcome of `pop()`: an item and the remaining queue, `None` in an
      unknown mode, or the `IndexError` of popping an empty queue. */
  datatype PopResult<T> = Popped(item: T, rest: Queue<T>) | NoneReturned | PopFailed(error: PyError)

  /** `pop()`. */
  function Pop<T>(q: Queue<T>): (r: PopResult<T>)
    ensures q.mode.Unknown? <==> r.NoneReturned?
    ensures r.PopFailed? <==> !q.mode.Unknown? && Len(q) == 0
    ensures r.PopFailed? ==> r.error == IndexError
    ensures r.Popped? ==> Len(r.rest) == Len(q) - 1 && r.rest.mode == q.mode
    ensures r.Popped? ==> exists e :: (e in q.entries && e.item == r.item &&
      multiset(r.rest.entries) + multiset{e} == multiset(q.entries))
  {
    if q.mode.Unknown? then NoneReturned
    else if |q.entries| == 0 then PopFailed(IndexError)
    else
      var i := match q.mode
        case Lifo => |q.entries| - 1
        case Fifo => 0
        case Best => MinIndex(q.entries);
      Popped(q.entries[i].item, Queue(q.mode, RemoveAt(q.entries, i)))
  }

  /** In fifo mode `pop` returns the earliest pushed item. */
  lemma FifoPopsOldest<T>(q: Queue<T>)
    requires q.mode == Fifo && Len(q) > 0
    ensures Pop(q) == Popped(q.entries[0].item, Queue(Fifo, q.entries[1..]))
  {
  }

  /** In lifo mode `pop` returns the most recently pushed item. */
  lemma LifoPopsNewest<T>(q: Queue<T>)
    requires q.mode == Lifo && Len(q) > 0
    ensures Pop(q) == Popped(q.entries[|q.entries| - 1].item, Queue(Lifo, q.entries[..|q.entries| - 1]))
  {
  }

  /** In best mode `pop` returns an item of minimum score. */
  lemma BestPopsMinimum<T>(q: Queue<T>)
    requires q.mode == Best && Len(q) > 0
    ensures Pop(q).Popped?
    ensures exists i :: (0 <= i < |q.entries| && q.entries[i].item == Pop(q).item &&
      forall j :: 0 <= j < |q.entries| ==> q.entries[i].score <= q.entries[j].score)
  {
    var i := MinIndex(q.entries);
    assert q.entries[i].item == Pop(q).item;
  }

  /** Pushing then popping in lifo mode gives back the pushed item and the
      original queue. */
  lemma LifoPushPop<T>(q: Queue<T>, score: real, item: T)
    requires q.mode == Lifo
    ensures Pop(Push(q, score, item)) == Popped(item, q)
  {
    assert (q.entries + [Entry(score, item)])[..|q.entries|] == q.entries;
  }

  /** Pops every item until the queue is empty. */
  function Drain<T>(q: Queue<T>): seq<T>
    requires !q.mode.Unknown?
    decreases Len(q)
  {
    match Pop(q)
    case Popped(item, rest) => [item] + Drain(rest)
    case _ => []
  }

  function Items<T>(es: seq<Entry<T>>): (r: seq<T>)
    ensures |r| == |es|
  {
    seq(|es|, i requires 0 <= i < |es| => es[i].item)
  }

  lemma ItemsCons<T>(es: seq<Entry<T>>)
    requires |es| > 0
    ensures Items(es) == [es[0].item] + Items(es[1..])
  {
    assert forall k :: 0 <= k < |es| - 1 ==> Items(es)[k + 1] == Items(es[1..])[k];
  }

  lemma ItemsSnoc<T>(es: seq<Entry<T>>)
    requires |es| > 0
    ensures Items(es) == Items(es[..|es| - 1]) + [es[|es| - 1].item]
  {
    assert forall k :: 0 <= k < |es| - 1 ==> Items(es)[k] == Items(es[..|es| - 1])[k];
  }

  /** A fifo queue is drained in push order. */
  lemma {:induction false} FifoDrainsInOrder<T>(q: Queue<T>)
    requires q.mode == Fifo
    ensures Drain(q) == Items(q.entries)
    decreases Len(q)
  {
    if Len(q) > 0 {
      var rest := Queue(Fifo, q.entries[1..]);
      FifoPopsOldest(q);
      assert Drain(q) == [q.entries[0].item] + Drain(rest);
      FifoDrainsInOrder(rest);
      ItemsCons(q.entries);
    }
  }

  /** A lifo queue is drained in reverse push order. */
  lemma {:induction false} LifoDrainsReversed<T>(q: Queue<T>)
    requires q.mode == Lifo
    ensures Drain(q) == Reverse(Items(q.entries))
    decreases Len(q)
  {
    if Len(q) > 0 {
      var n := |q.entries|;
      var front := q.entries[..n - 1];
      LifoPopsNewest(q);
      assert Drain(q) == [q.entries[n - 1].item] + Drain(Queue(Lifo, front));
      LifoDrainsReversed(Queue(Lifo, front));
      ReverseSnoc(Items(front), q.entries[n - 1].item);
      ItemsSnoc(q.entries);
    }
  }

  /** Draining a best-first queue yields its items by non-decreasing
      score. */
  function DrainScores<T>(q: Queue<T>): seq<real>
    requires q.mode == Best
    decreases Len(q)
  {
    if Len(q) == 0 then []
    else
      var i := MinIndex(q.entries);
      [q.entries[i].score] + DrainScores(Queue(Best, RemoveAt(q.entries, i)))
  }

  predicate NonDecreasing(s: seq<real>) {
    forall i, j :: 0 <= i < j < |s| ==> s[i] <= s[j]
  }

  /** Every score drained from a best-first queue is the score of one of
      its entries. */
  lemma {:induction false} DrainScoresFromEntries<T>(q: Queue<T>)
    requires q.mode == Best
    ensures |DrainScores(q)| == Len(q)
    ensures forall k :: 0 <= k < |DrainScores(q)| ==> exists e :: e in q.entries && e.score == DrainScores(q)[k]
    decreases Len(q)
  {
    if Len(q) > 0 {
      var i := MinIndex(q.entries);
      var rest := RemoveAt(q.entries, i);
      DrainScoresFromEntries(Queue(Best, rest));
      var d := DrainScores(q);
      var dr := DrainScores(Queue(Best, rest));
      assert d == [q.entries[i].score] + dr;
      forall k | 0 <= k < |d| ensures exists e :: e in q.entries && e.score == d[k] {
        if k == 0 {
          assert q.entries[i] in q.entries;
        } else {
          assert d[k] == dr[k - 1];
          var e :| e in rest && e.score == dr[k - 1];
          assert e in multiset(rest);
          assert e in multiset(q.entries);
        }
      }
    }
  }

  /** Every element of `s` is at least `m`. */
  predicate AllAtLeast(m: real, s: seq<real>) {
    forall k :: 0 <= k < |s| ==> m <= s[k]
  }

  /** Putting a lower bound in front keeps a sequence non-decreasing. */
  lemma ConsNonDecreasing(m: real, s: seq<real>)
    requires AllAtLeast(m, s) && NonDecreasing(s)
    ensures NonDecreasing([m] + s)
  {
    var d := [m] + s;
    forall a, b | 0 <= a < b < |d| ensures d[a] <= d[b] {
      assert d[b] == s[b - 1];
      if a > 0 {
        assert d[a] == s[a - 1];
      }
    }
  }

  /** The least score of a best-first queue is at most every score drained
      after it. */
  lemma MinBelowLaterScores<T>(q: Queue<T>, i: nat, rest: seq<Entry<T>>)
    requires q.mode == Best && Len(q) > 0
    requires i == MinIndex(q.entries) && rest == RemoveAt(q.entries, i)
    ensures AllAtLeast(q.entries[i].score, DrainScores(Queue(Best, rest)))
  {
    DrainScoresFromEntries(Queue(Best, rest));
    var dr := DrainScores(Queue(Best, rest));
    forall k | 0 <= k < |dr| ensures q.entries[i].score <= dr[k] {
      var e :| e in rest && e.score == dr[k];
      assert e in multiset(rest);
      assert e in multiset(q.entries);
    }
  }

  /** Draining a best-first queue yields non-decreasing scores. */
  lemma {:induction false} BestDrainsSorted<T>(q: Queue<T>)
    requires q.mode == Best
    ensures NonDecreasing(DrainScores(q))
    decreases Len(q)
  {
    if Len(q) > 0 {
      var i := MinIndex(q.entries);
      var rest := RemoveAt(q.entries, i);
      var dr := DrainScores(Queue(Best, rest));
      assert DrainScores(q) == [q.entries[i].score] + dr;
      BestDrainsSorted(Queue(Best, rest));
      MinBelowLaterScores(q, i, rest);
      ConsNonDecreasing(q.entries[i].score, dr);
    }
  }
}

=== FILE: integersolution.dfy ===
/** Solutions of `biobab/integersolution.py` and the dominance relation
    between them. */
module IntegerSolution {
  import opened Common
  import opened BasicData
  import opened Params

  /** An integer solution: its objective values and the values used when it
      is compared as the dominating side. */
  datatype Solution = Solution(z1: real, z2: real, improvedZ1: real, improvedZ2: real) {
    function Point(): Common.Point {
      Common.Point(z1, z2)
    }
  }

  /** `IntegerSolution(z1=z1, z2=z2)` without an lp, followed by
      `setImprovedValues`: the objective values are stored unchanged, and the
      improved values are never larger. */
  function MakeSolution(cfg: Config, z1: real, z2: real): (s: Solution)
    ensures s.z1 == z1 && s.z2 == z2
    ensures !cfg.integerDominance ==> s.improvedZ1 == z1 && s.improvedZ2 == z2
    ensures cfg.integerDominance && cfg.grid.Valid() ==>
      z1 - cfg.grid.z1Epsilon < s.improvedZ1 < z1 && z2 - cfg.grid.z2Epsilon < s.improvedZ2 < z2
  {
    if cfg.integerDominance then
      var improved := ImproveWithIntegrality(cfg.grid, Common.Point(z1, z2));
      Solution(z1, z2, improved.x, improved.y)
    else
      Solution(z1, z2, z1, z2)
  }

  /** `a.dominates(b)`: the improved values of `a` are no larger than the
      objective values of `b`. */
  predicate Dominates(a: Solution, b: Solution) {
    a.improvedZ1 <= b.z1 && a.improvedZ2 <= b.z2
  }

  /** A solution as the search builds it: improved values consistent with the
      configuration and, under integer dominance, objective values on the
      grid of minimum increments (the integrality the improvement relies on). */
  predicate WellFormed(cfg: Config, s: Solution) {
    && cfg.grid.Valid()
    && s == MakeSolution(cfg, s.z1, s.z2)
    && (cfg.integerDominance ==> PointOnGrid(cfg.grid, s.Point()))
  }

  /** Weak Pareto dominance on the objective values. */
  predicate ParetoLeq(a: Solution, b: Solution) {
    a.z1 <= b.z1 && a.z2 <= b.z2
  }

  /** On well-formed solutions, dominance is exactly weak Pareto dominance of
      the objective values: the 0.9-increment improvement never reaches the
      next grid value. */
  lemma DominatesIsPareto(cfg: Config, a: Solution, b: Solution)
    requires WellFormed(cfg, a) && WellFormed(cfg, b)
    ensures Dominates(a, b) <==> ParetoLeq(a, b)
  {
    if cfg.integerDominance && Dominates(a, b) {
      if b.z1 < a.z1 {
        GridGap(b.z1, a.z1, cfg.grid.z1Epsilon);
      }
      if b.z2 < a.z2 {
        GridGap(b.z2, a.z2, cfg.grid.z2Epsilon);
      }
    }
  }

  /** Without integer dominance, dominance is reflexive and transitive. */
  lemma DominanceIsPreorder(cfg: Config, a: Solution, b: Solution, c: Solution)
    requires !cfg.integerDominance
    requires a == MakeSolution(cfg, a.z1, a.z2)
    requires b == MakeSolution(cfg, b.z1, b.z2)
    requires c == MakeSolution(cfg, c.z1, c.z2)
    ensures Dominates(a, a)
    ensures Dominates(a, b) && Dominates(b, c) ==> Dominates(a, c)
  {
  }

  /** With integer dominance, a solution dominates exactly the points that lie
      at most 0.9 increments left of it and at most 0.9 increments below it. */
  lemma DominatesNearbyPoints(cfg: Config, a: Solution, b: Solution)
    requires cfg.integerDominance
    requires a == MakeSolution(cfg, a.z1, a.z2)
    ensures Dominates(a, b) <==>
      b.z1 >= a.z1 - ValidEpsilon * cfg.grid.z1Epsilon &&
      b.z2 >= a.z2 - ValidEpsilon * cfg.grid.z2Epsilon
  {
  }

  /** Well-formed solutions dominate themselves, and dominance between them
      is transitive even under integer dominance. */
  lemma WellFormedDominanceIsPreorder(cfg: Config, a: Solution, b: Solution, c: Solution)
    requires WellFormed(cfg, a) && WellFormed(cfg, b) && WellFormed(cfg, c)
    ensures Dominates(a, a)
    ensures Dominates(a, b) && Dominates(b, c) ==> Dominates(a, c)
  {
    DominatesIsPareto(cfg, a, a);
    DominatesIsPareto(cfg, a, b);
    DominatesIsPareto(cfg, b, c);
    DominatesIsPareto(cfg, a, c);
  }
}

=== FILE: lowerboundset.dfy ===
/** Lower bound sets of `biobab/lowerboundset.py`: sequences of segments,
    filtered by upper bound solutions and split into discontinuous
    regions. */
module LowerBoundSet {
  import opened Common
  import opened BasicData
  import opened Params
  import opened IntegerSolution
  import opened Segments

  /** `right()`: the right bound of the last segment; an empty set raises
      an `IndexError`. */
  function Right(segs: seq<Segment>): (r: Fallible<real>)
    ensures r.Raises? <==> |segs| == 0
    ensures r.Raises? ==> r.error == IndexError
    ensures r.Ok? ==> r.value == segs[|segs| - 1].right
  {
    if |segs| == 0 then Raises(IndexError) else Ok(segs[|segs| - 1].right)
  }

  /** `top()`: the top bound of the first segment. */
  function Top(segs: seq<Segment>): (r: Fallible<real>)
    ensures r.Raises? <==> |segs| == 0
    ensures r.Raises? ==> r.error == IndexError
    ensures r.Ok? ==> r.value == segs[0].top
  {
    if |segs| == 0 then Raises(IndexError) else Ok(segs[0].top)
  }

  // ---------------------------------------------------------------------
  // Filtering
  // ---------------------------------------------------------------------

  /** Appends the segments of `next` to those of `acc`; the first error
      wins. */
  function Then(acc: Fallible<seq<Segment>>, next: Fallible<seq<Segment>>): Fallible<seq<Segment>> {
    if acc.Raises? then acc
    else if next.Raises? then next
    else Ok(acc.value + next.value)
  }

  /** `filterPoint(u)`: every segment filtered in order, the pieces
      concatenated in order. */
  function FilterPoint(cfg: Config, segs: seq<Segment>, u: Solution): (r: Fallible<seq<Segment>>)
    requires cfg.grid.Valid()
    ensures r.Ok? ==> |r.value| <= 2 * |segs|
    decreases |segs|
  {
    if |segs| == 0 then Ok([])
    else Then(FilterPoint(cfg, segs[..|segs| - 1], u), Filter(cfg, segs[|segs| - 1], u))
  }

  /** `filter(ubSet)`: `filterPoint` for each solution of the upper bound
      set, in order. */
  function FilterAll(cfg: Config, segs: seq<Segment>, ub: seq<Solution>): (r: Fallible<seq<Segment>>)
    requires cfg.grid.Valid()
    decreases |ub|
  {
    if |ub| == 0 then Ok(segs)
    else
      match FilterPoint(cfg, segs, ub[0])
      case Raises(e) => Raises(e)
      case Ok(next) => FilterAll(cfg, next, ub[1..])
  }

  lemma ThenAssociative(a: Fallible<seq<Segment>>, b: Fallible<seq<Segment>>, c: Fallible<seq<Segment>>)
    ensures Then(Then(a, b), c) == Then(a, Then(b, c))
  {
    if a.Ok? && b.Ok? && c.Ok? {
      assert (a.value + b.value) + c.value == a.value + (b.value + c.value);
    }
  }

  /** Filtering a concatenation filters the parts and concatenates the
      results: each segment is filtered on its own. */
  lemma {:induction false} FilterPointAppend(cfg: Config, a: seq<Segment>, b: seq<Segment>, u: Solution)
    requires cfg.grid.Valid()
    ensures FilterPoint(cfg, a + b, u) == Then(FilterPoint(cfg, a, u), FilterPoint(cfg, b, u))
    decreases |b|
  {
    if |b| == 0 {
      assert a + b == a;
      var fa := FilterPoint(cfg, a, u);
      if fa.Ok? {
        assert fa.value + [] == fa.value;
      }
    } else {
      var b' := b[..|b| - 1];
      assert (a + b)[..|a + b| - 1] == a + b';
      assert (a + b)[|a + b| - 1] == b[|b| - 1];
      FilterPointAppend(cfg, a, b', u);
      ThenAssociative(FilterPoint(cfg, a, u), FilterPoint(cfg, b', u), Filter(cfg, b[|b| - 1], u));
    }
  }

  /** Every segment `filterPoint` produces carries the metadata of the
      segment it came from and lies on that segment's line. */
  lemma {:induction false} FilterPointProvenance(cfg: Config, segs: seq<Segment>, u: Solution)
    requires cfg.grid.Valid() && forall i :: 0 <= i < |segs| ==> WellBuilt(segs[i])
    requires FilterPoint(cfg, segs, u).Ok?
    ensures forall j :: 0 <= j < |FilterPoint(cfg, segs, u).value| ==>
      var piece := FilterPoint(cfg, segs, u).value[j];
      WellBuilt(piece) &&
      exists i :: 0 <= i < |segs| && piece.meta1 == segs[i].meta1 && piece.meta2 == segs[i].meta2
        && (piece.line.Some? && segs[i].line.Some? ==> piece.line == segs[i].line)
    decreases |segs|
  {
    if |segs| > 0 {
      var n := |segs| - 1;
      var front := segs[..n];
      FilterPointProvenance(cfg, front, u);
      FilterPiecesOnLine(cfg, segs[n], u);
      var r := FilterPoint(cfg, segs, u).value;
      var a, b := FilterPoint(cfg, front, u).value, Filter(cfg, segs[n], u).value;
      assert r == a + b;
      forall j | 0 <= j < |r|
        ensures WellBuilt(r[j]) &&
          exists i :: 0 <= i < |segs| && r[j].meta1 == segs[i].meta1 && r[j].meta2 == segs[i].meta2
            && (r[j].line.Some? && segs[i].line.Some? ==> r[j].line == segs[i].line)
      {
        if j < |a| {
          assert r[j] == a[j];
          var i :| 0 <= i < |front| && a[j].meta1 == front[i].meta1 && a[j].meta2 == front[i].meta2
            && (a[j].line.Some? && front[i].line.Some? ==> a[j].line == front[i].line);
          assert front[i] == segs[i];
        } else {
          assert r[j] == b[j - |a|];
          assert OnLineOf(segs[n], b);
        }
      }
    }
  }

  /** Filtering by the concatenation of two upper bound sets is filtering
      by one and then by the other. */
  lemma {:induction false} FilterAllAppend(cfg: Config, segs: seq<Segment>, ub1: seq<Solution>, ub2: seq<Solution>)
    requires cfg.grid.Valid()
    ensures FilterAll(cfg, segs, ub1 + ub2) ==
      match FilterAll(cfg, segs, ub1)
      case Raises(e) => Raises(e)
      case Ok(next) => FilterAll(cfg, next, ub2)
    decreases |ub1|
  {
    if |ub1| == 0 {
      assert ub1 + ub2 == ub2;
    } else {
      assert (ub1 + ub2)[0] == ub1[0];
      assert (ub1 + ub2)[1..] == ub1[1..] + ub2;
      match FilterPoint(cfg, segs, ub1[0])
      case Raises(e) =>
      case Ok(next) => FilterAllAppend(cfg, next, ub1[1..], ub2);
    }
  }

  // ---------------------------------------------------------------------
  // Discontinuous regions
  // ---------------------------------------------------------------------

  /** The right and top bounds of one region. */
  datatype Region = Region(right: real, top: real)

  /** A break between segments `i` and `i + 1`: a gap of at least `maxGap`
      in either coordinate, and different top bounds. */
  predicate IsBreak(segs: seq<Segment>, maxGap: real, i: int)
    requires 0 <= i < |segs| - 1
  {
    && (segs[i + 1].p1.x - segs[i].p2.x >= maxGap || segs[i + 1].p1.y - segs[i].p2.y >= maxGap)
    && segs[i + 1].top != segs[i].top
  }

  /** The breaks among the first `n` gaps, in increasing order. */
  function Breaks(segs: seq<Segment>, maxGap: real, n: nat): (b: seq<nat>)
    requires n <= |segs| - 1
    ensures forall k :: 0 <= k < |b| ==> b[k] < n
    ensures forall k, l :: 0 <= k < l < |b| ==> b[k] < b[l]
  {
    if n == 0 then []
    else Breaks(segs, maxGap, n - 1) + (if IsBreak(segs, maxGap, n - 1) then [n - 1] else [])
  }

  /** The top bound of region `k`: that of the first segment, or of the
      segment after the `k`-th break. */
  function RegionTop(segs: seq<Segment>, b: seq<nat>, k: nat): real
    requires |segs| > 0 && k <= |b|
    requires forall j :: 0 <= j < |b| ==> b[j] < |segs| - 1
  {
    if k == 0 then segs[0].top else segs[b[k - 1] + 1].top
  }

  predicate BreaksBelow(segs: seq<Segment>, b: seq<nat>) {
    forall j :: 0 <= j < |b| ==> b[j] < |segs| - 1
  }

  /** The regions closed by the breaks `b`, each ending at the last point
      before its break. */
  function BreakRegions(segs: seq<Segment>, b: seq<nat>): (r: seq<Region>)
    requires |segs| > 0 && BreaksBelow(segs, b)
    ensures |r| == |b|
  {
    seq(|b|, k requires 0 <= k < |b| => Region(segs[b[k]].p2.x, RegionTop(segs, b, k)))
  }

  /** The regions: one per break and a final one ending at the right bound
      of the last segment. */
  function Regions(segs: seq<Segment>, maxGap: real): (r: seq<Region>)
    requires |segs| > 0
  {
    var b := Breaks(segs, maxGap, |segs| - 1);
    BreakRegions(segs, b) + [Region(segs[|segs| - 1].right, RegionTop(segs, b, |b|))]
  }

  lemma BreakRegionsExtend(segs: seq<Segment>, b: seq<nat>, j: nat)
    requires |segs| > 0 && BreaksBelow(segs, b) && j < |segs| - 1
    ensures BreaksBelow(segs, b + [j])
    ensures BreakRegions(segs, b + [j]) ==
      BreakRegions(segs, b) + [Region(segs[j].p2.x, RegionTop(segs, b, |b|))]
    ensures RegionTop(segs, b + [j], |b| + 1) == segs[j + 1].top
  {
    var b' := b + [j];
    var lhs, rhs := BreakRegions(segs, b'), BreakRegions(segs, b) + [Region(segs[j].p2.x, RegionTop(segs, b, |b|))];
    forall k | 0 <= k < |b'| ensures lhs[k] == rhs[k] {
      if k > 0 {
        assert b'[k - 1] == b[k - 1];
      }
    }
  }

  /** `discontinuousRegions()`: the loop of the source. */
  method DiscontinuousRegions(segs: seq<Segment>, maxGap: real) returns (regions: seq<Region>)
    ensures |segs| == 0 ==> regions == []
    ensures |segs| > 0 ==> regions == Regions(segs, maxGap)
  {
    if |segs| == 0 {
      return [];
    }
    regions := [];
    var top := segs[0].top;
    var i := 0;
    while i < |segs| - 1
      invariant 0 <= i <= |segs| - 1
      invariant regions == BreakRegions(segs, Breaks(segs, maxGap, i))
      invariant top == RegionTop(segs, Breaks(segs, maxGap, i), |Breaks(segs, maxGap, i)|)
    {
      ghost var b := Breaks(segs, maxGap, i);
      if (segs[i + 1].p1.x - segs[i].p2.x >= maxGap || segs[i + 1].p1.y - segs[i].p2.y >= maxGap)
        && segs[i + 1].top != segs[i].top
      {
        BreakRegionsExtend(segs, b, i);
        regions := regions + [Region(segs[i].p2.x, top)];
        top := segs[i + 1].top;
      }
      i := i + 1;
    }
    regions := regions + [Region(segs[|segs| - 1].right, top)];
  }

  /** A gap index is recorded exactly when it is a break. */
  lemma {:induction false} BreaksAreExactlyTheBreaks(segs: seq<Segment>, maxGap: real, n: nat, i: nat)
    requires n <= |segs| - 1
    ensures i in Breaks(segs, maxGap, n) <==> i < n && IsBreak(segs, maxGap, i)
  {
    if n > 0 {
      BreaksAreExactlyTheBreaks(segs, maxGap, n - 1, i);
    }
  }

  /** One region per break plus the last; the first region has the top of
      the first segment and the last region the right of the last
      segment. */
  lemma RegionsShape(segs: seq<Segment>, maxGap: real)
    requires |segs| > 0
    ensures |Regions(segs, maxGap)| == |Breaks(segs, maxGap, |segs| - 1)| + 1
    ensures Regions(segs, maxGap)[0].top == segs[0].top
    ensures Regions(segs, maxGap)[|Regions(segs, maxGap)| - 1].right == segs[|segs| - 1].right
  {
  }

  /** Without breaks there is a single region spanning the whole set. */
  lemma NoBreakSingleRegion(segs: seq<Segment>, maxGap: real)
    requires |segs| > 0
    requires forall i :: 0 <= i < |segs| - 1 ==> !IsBreak(segs, maxGap, i)
    ensures Regions(segs, maxGap) == [Region(segs[|segs| - 1].right, segs[0].top)]
  {
    var b := Breaks(segs, maxGap, |segs| - 1);
    if |b| > 0 {
      assert b[0] in b;
      BreaksAreExactlyTheBreaks(segs, maxGap, |segs| - 1, b[0]);
    }
  }

  // ---------------------------------------------------------------------
  // Leaves
  // ---------------------------------------------------------------------

  /** `isLeaf()`, with Python's precedence: `A or ((B and C) and D)`. */
  predicate IsLeaf(segs: seq<Segment>) {
    |segs| == 0 || ((|segs| == 1 && segs[0].p1 == segs[0].p2) && segs[0].meta1.isInteger)
  }

  /** Filtering a leaf never fails and leaves a leaf: its single point is
      either kept, with the same metadata, or removed. */
  lemma FilterKeepsLeaf(cfg: Config, segs: seq<Segment>, u: Solution)
    requires cfg.grid.Valid() && IsLeaf(segs)
    ensures FilterPoint(cfg, segs, u).Ok?
    ensures IsLeaf(FilterPoint(cfg, segs, u).value)
    ensures |segs| == 1 && FilterPoint(cfg, segs, u) != Ok([]) ==>
      && |FilterPoint(cfg, segs, u).value| == 1
      && FilterPoint(cfg, segs, u).value[0].p1 == segs[0].p1
      && FilterPoint(cfg, segs, u).value[0].p2 == segs[0].p2
  {
    if |segs| == 1 {
      assert segs[..0] == [];
      FilterLeafSegment(cfg, segs[0], u);
    }
  }

  lemma FilterLeafSegment(cfg: Config, s: Segment, u: Solution)
    requires cfg.grid.Valid() && s.p1 == s.p2
    ensures Filter(cfg, s, u).Ok?
    ensures |Filter(cfg, s, u).value| <= 1
    ensures forall k :: 0 <= k < |Filter(cfg, s, u).value| ==>
      Filter(cfg, s, u).value[k].p1 == s.p1 && Filter(cfg, s, u).value[k].p2 == s.p2
  {
  }

  /** Filtering by a whole upper bound set keeps a leaf a leaf. */
  lemma {:induction false} FilterAllKeepsLeaf(cfg: Config, segs: seq<Segment>, ub: seq<Solution>)
    requires cfg.grid.Valid() && IsLeaf(segs)
    ensures FilterAll(cfg, segs, ub).Ok? && IsLeaf(FilterAll(cfg, segs, ub).value)
    decreases |ub|
  {
    if |ub| > 0 {
      FilterKeepsLeaf(cfg, segs, ub[0]);
      FilterAllKeepsLeaf(cfg, FilterPoint(cfg, segs, ub[0]).value, ub[1..]);
    }
  }

  // ---------------------------------------------------------------------
  // Splitting into regions
  // ---------------------------------------------------------------------

  /** The tolerance `epsilon = 1e-8` of `split`. */
  const SplitTolerance: real := 0.00000001

  predicate InRegion(p: Point, r: Region) {
    p.x <= r.right + SplitTolerance && p.y <= r.top + SplitTolerance
  }

  predicate IsEndpoint(segs: seq<Segment>, p: Point) {
    exists i :: 0 <= i < |segs| && (segs[i].p1 == p || segs[i].p2 == p)
  }

  predicate StrictlySorted(ps: seq<Point>) {
    forall i, j :: 0 <= i < j < |ps| ==> TupleLess(ps[i], ps[j])
  }

  /** Adds a point to a strictly sorted list of distinct points: a set kept
      in the order `sorted` would give it. */
  function InsertPoint(ps: seq<Point>, p: Point): (r: seq<Point>)
    ensures forall q :: q in r <==> q in ps || q == p
  {
    if |ps| == 0 then [p]
    else if p == ps[0] then ps
    else if TupleLess(p, ps[0]) then [p] + ps
    else [ps[0]] + InsertPoint(ps[1..], p)
  }

  lemma {:induction false} InsertPointSorted(ps: seq<Point>, p: Point)
    requires StrictlySorted(ps)
    ensures StrictlySorted(InsertPoint(ps, p))
  {
    if |ps| > 0 && p != ps[0] && !TupleLess(p, ps[0]) {
      var rest := InsertPoint(ps[1..], p);
      InsertPointSorted(ps[1..], p);
      var r := [ps[0]] + rest;
      forall i, j | 0 <= i < j < |r| ensures TupleLess(r[i], r[j]) {
        if i == 0 {
          assert r[j] in rest;
          assert r[j] in ps[1..] || r[j] == p;
          if r[j] in ps[1..] {
            var k :| 0 <= k < |ps[1..]| && ps[1..][k] == r[j];
            assert ps[k + 1] == r[j];
          }
        } else {
          assert r[i] == rest[i - 1] && r[j] == rest[j - 1];
        }
      }
    }
  }

  lemma FirstIsMember(s: seq<Point>)
    requires |s| > 0
    ensures s[0] in s
  {
  }

  /** Two strictly sorted lists with the same members are equal: `sorted`
      of a set is determined by the set. */
  lemma {:induction false} SortedSetUnique(a: seq<Point>, b: seq<Point>)
    requires StrictlySorted(a) && StrictlySorted(b)
    requires forall q :: q in a <==> q in b
    ensures a == b
  {
    if |a| > 0 && |b| > 0 {
      assert a[0] in b && b[0] in a;
      assert a[0] == b[0];
      forall q ensures q in a[1..] <==> q in b[1..] {
        if q in a[1..] {
          assert q != a[0];
          assert q in b;
        }
        if q in b[1..] {
          assert q != b[0];
          assert q in a;
        }
      }
      SortedSetUnique(a[1..], b[1..]);
      assert a == [a[0]] + a[1..] && b == [b[0]] + b[1..];
    } else if |a| > 0 {
      FirstIsMember(a);
    } else if |b| > 0 {
      FirstIsMember(b);
    }
  }

  /** `points = sorted(set(...))`: the endpoints inside the region, sorted
      and without repetition. */
  function RegionPoints(segs: seq<Segment>, reg: Region): (ps: seq<Point>)
    ensures StrictlySorted(ps)
    ensures forall q :: q in ps <==> IsEndpoint(segs, q) && InRegion(q, reg)
    decreases |segs|
  {
    if |segs| == 0 then []
    else
      var front := segs[..|segs| - 1];
      var s := segs[|segs| - 1];
      var ps := RegionPoints(front, reg);
      var ps1 := if InRegion(s.p1, reg) then InsertPoint(ps, s.p1) else ps;
      var ps2 := if InRegion(s.p2, reg) then InsertPoint(ps1, s.p2) else ps1;
      InsertPointSorted(ps, s.p1);
      InsertPointSorted(ps1, s.p2);
      EndpointsOfPrefix(segs);
      ps2
  }

  lemma EndpointsOfPrefix(segs: seq<Segment>)
    requires |segs| > 0
    ensures forall q :: IsEndpoint(segs, q) <==>
      IsEndpoint(segs[..|segs| - 1], q) || segs[|segs| - 1].p1 == q || segs[|segs| - 1].p2 == q
  {
    var front := segs[..|segs| - 1];
    forall q | IsEndpoint(segs, q) && segs[|segs| - 1].p1 != q && segs[|segs| - 1].p2 != q
      ensures IsEndpoint(front, q)
    {
      var i :| 0 <= i < |segs| && (segs[i].p1 == q || segs[i].p2 == q);
      assert front[i] == segs[i];
    }
    forall q | IsEndpoint(front, q) ensures IsEndpoint(segs, q) {
      var i :| 0 <= i < |front| && (front[i].p1 == q || front[i].p2 == q);
      assert segs[i] == front[i];
    }
  }

  /** `computeMetaData()`: one write per endpoint, segments in order, `p1`
      before `p2`. */
  function MetaMap(segs: seq<Segment>): (m: map<Point, MetaData>)
    ensures forall q :: q in m <==> IsEndpoint(segs, q)
    decreases |segs|
  {
    if |segs| == 0 then map[]
    else
      var s := segs[|segs| - 1];
      EndpointsOfPrefix(segs);
      MetaMap(segs[..|segs| - 1])[s.p1 := s.meta1][s.p2 := s.meta2]
  }

  /** The metadata of the last write to a point: scanning backwards, the
      first segment that has it as an endpoint, `p2` taking precedence. */
  function LastMeta(segs: seq<Segment>, p: Point): Option<MetaData>
    decreases |segs|
  {
    if |segs| == 0 then None
    else
      var s := segs[|segs| - 1];
      if s.p2 == p then Some(s.meta2)
      else if s.p1 == p then Some(s.meta1)
      else LastMeta(segs[..|segs| - 1], p)
  }

  /** In the metadata map, later writes win. */
  lemma {:induction false} MetaMapLastWriteWins(segs: seq<Segment>, p: Point)
    ensures p in MetaMap(segs) <==> LastMeta(segs, p).Some?
    ensures p in MetaMap(segs) ==> MetaMap(segs)[p] == LastMeta(segs, p).value
    decreases |segs|
  {
    if |segs| > 0 {
      MetaMapLastWriteWins(segs[..|segs| - 1], p);
    }
  }

  /** The segments joining consecutive points, each bounded on the right by
      its right endpoint and above by `top`. */
  function Chain(ps: seq<Point>, top: real, m: map<Point, MetaData>): (r: Fallible<seq<Segment>>)
    requires forall q :: q in ps ==> q in m
    ensures r.Raises? ==> r.error == ZeroDivisionError
    ensures r.Ok? ==> |r.value| == (if |ps| < 2 then 0 else |ps| - 1)
    ensures r.Ok? ==> forall k :: 0 <= k < |r.value| ==>
      && r.value[k].p1 == ps[k] && r.value[k].p2 == ps[k + 1]
      && r.value[k].right == ps[k + 1].x && r.value[k].top == top
      && r.value[k].meta1 == m[ps[k]] && r.value[k].meta2 == m[ps[k + 1]]
      && WellBuilt(r.value[k])
    decreases |ps|
  {
    if |ps| < 2 then Ok([])
    else
      match MakeSegment(ps[0], ps[1], ps[1].x, top, m[ps[0]], m[ps[1]])
      case Raises(e) => Raises(e)
      case Ok(s) =>
        match Chain(ps[1..], top, m)
        case Raises(e) => Raises(e)
        case Ok(rest) => Ok([s] + rest)
  }

  /** The lower bound set through the points `ps` of a region: the chain,
      with the last segment's right bound replaced by the region's; fewer
      than two points fail on `segments[-1]`. */
  function RegionChain(ps: seq<Point>, m: map<Point, MetaData>, reg: Region): Fallible<seq<Segment>>
    requires forall q :: q in ps ==> q in m
  {
    match Chain(ps, reg.top, m)
    case Raises(e) => Raises(e)
    case Ok(c) =>
      if |c| == 0 then Raises(IndexError)
      else Ok(WithLastRight(c, reg.right))
  }

  /** The lower bound set of one region. */
  function SplitRegion(segs: seq<Segment>, m: map<Point, MetaData>, reg: Region): Fallible<seq<Segment>>
    requires forall q :: IsEndpoint(segs, q) ==> q in m
  {
    RegionChain(RegionPoints(segs, reg), m, reg)
  }

  function SplitAll(segs: seq<Segment>, m: map<Point, MetaData>, regions: seq<Region>)
    : (r: Fallible<seq<seq<Segment>>>)
    requires forall q :: IsEndpoint(segs, q) ==> q in m
    ensures r.Ok? ==> |r.value| == |regions|
    ensures r.Ok? ==> forall i :: 0 <= i < |regions| ==> SplitRegion(segs, m, regions[i]) == Ok(r.value[i])
    decreases |regions|
  {
    if |regions| == 0 then Ok([])
    else
      match SplitRegion(segs, m, regions[0])
      case Raises(e) => Raises(e)
      case Ok(lb) =>
        match SplitAll(segs, m, regions[1..])
        case Raises(e) => Raises(e)
        case Ok(rest) => Ok([lb] + rest)
  }

  /** The regions of a set, empty for an empty set. */
  function AllRegions(segs: seq<Segment>, maxGap: real): seq<Region> {
    if |segs| == 0 then [] else Regions(segs, maxGap)
  }

  /** `split(node, ubSet)`: the set itself when it has a single region,
      otherwise one lower bound set per region. */
  function Split(cfg: Config, segs: seq<Segment>): (r: Fallible<seq<seq<Segment>>>)
    ensures |AllRegions(segs, cfg.lbMaxGap)| == 1 ==> r == Ok([segs])
    ensures r.Ok? && |AllRegions(segs, cfg.lbMaxGap)| != 1 ==> |r.value| == |AllRegions(segs, cfg.lbMaxGap)|
  {
    var regions := AllRegions(segs, cfg.lbMaxGap);
    if |regions| == 1 then Ok([segs]) else SplitAll(segs, MetaMap(segs), regions)
  }

  /** What a lower bound set produced for a region looks like: a chain of
      segments through the sorted endpoints that lie in the region, with the
      region's top, each bounded on the right by its right endpoint except
      the last, which gets the region's right bound; each point carries the
      metadata last recorded for it. */
  ghost predicate RegionSet(segs: seq<Segment>, reg: Region, lb: seq<Segment>) {
    && |lb| >= 1
    && (forall k :: 0 <= k < |lb| ==> lb[k].top == reg.top && TupleLess(lb[k].p1, lb[k].p2))
    && (forall k :: 0 <= k < |lb| - 1 ==> lb[k].right == lb[k].p2.x && lb[k].p2 == lb[k + 1].p1)
    && lb[|lb| - 1].right == reg.right
    && (forall k :: 0 <= k < |lb| ==>
          && IsEndpoint(segs, lb[k].p1) && InRegion(lb[k].p1, reg)
          && IsEndpoint(segs, lb[k].p2) && InRegion(lb[k].p2, reg)
          && Some(lb[k].meta1) == LastMeta(segs, lb[k].p1)
          && Some(lb[k].meta2) == LastMeta(segs, lb[k].p2))
    && (forall q :: IsEndpoint(segs, q) && InRegion(q, reg) ==>
          exists k :: 0 <= k < |lb| && (lb[k].p1 == q || lb[k].p2 == q))
  }

  /** The segments of a region's set join its points. */
  lemma RegionChainJoins(ps: seq<Point>, m: map<Point, MetaData>, reg: Region)
    requires forall q :: q in ps ==> q in m
    requires RegionChain(ps, m, reg).Ok?
    ensures |ps| == |RegionChain(ps, m, reg).value| + 1 >= 2
    ensures var lb := RegionChain(ps, m, reg).value;
      forall k :: 0 <= k < |lb| ==>
        && lb[k].p1 == ps[k] && lb[k].p2 == ps[k + 1] && lb[k].top == reg.top
        && lb[k].meta1 == m[ps[k]] && lb[k].meta2 == m[ps[k + 1]]
    ensures var lb := RegionChain(ps, m, reg).value;
      forall k :: 0 <= k < |lb| - 1 ==> lb[k].right == ps[k + 1].x
    ensures var lb := RegionChain(ps, m, reg).value;
      lb[|lb| - 1].right == reg.right
  {
    var c := Chain(ps, reg.top, m).value;
    var lb := RegionChain(ps, m, reg).value;
    assert lb == WithLastRight(c, reg.right);
    WithLastRightKeeps(c, reg.right);
    forall k | 0 <= k < |lb|
      ensures && lb[k].p1 == ps[k] && lb[k].p2 == ps[k + 1] && lb[k].top == reg.top
              && lb[k].meta1 == m[ps[k]] && lb[k].meta2 == m[ps[k + 1]]
      ensures k < |lb| - 1 ==> lb[k].right == ps[k + 1].x
    {
      if k < |lb| - 1 {
        assert lb[k] == c[k];
      } else {
        assert lb[k] == c[k].(right := reg.right);
      }
    }
  }

  /** A chain with its last segment's right bound replaced. */
  function WithLastRight(c: seq<Segment>, right: real): seq<Segment>
    requires |c| >= 1
  {
    c[..|c| - 1] + [c[|c| - 1].(right := right)]
  }

  lemma WithLastRightKeeps(c: seq<Segment>, right: real)
    requires |c| >= 1
    ensures |WithLastRight(c, right)| == |c|
    ensures forall k :: 0 <= k < |c| - 1 ==> WithLastRight(c, right)[k] == c[k]
    ensures WithLastRight(c, right)[|c| - 1] == c[|c| - 1].(right := right)
  {
  }

  /** Each segment of a region's set joins two region points in order,
      with the metadata last recorded for them. */
  lemma SplitRegionSegments(segs: seq<Segment>, reg: Region)
    requires SplitRegion(segs, MetaMap(segs), reg).Ok?
    ensures var lb := SplitRegion(segs, MetaMap(segs), reg).value;
      forall k :: 0 <= k < |lb| ==>
        && TupleLess(lb[k].p1, lb[k].p2)
        && IsEndpoint(segs, lb[k].p1) && InRegion(lb[k].p1, reg)
        && IsEndpoint(segs, lb[k].p2) && InRegion(lb[k].p2, reg)
        && Some(lb[k].meta1) == LastMeta(segs, lb[k].p1)
        && Some(lb[k].meta2) == LastMeta(segs, lb[k].p2)
  {
    var m := MetaMap(segs);
    var ps := RegionPoints(segs, reg);
    var lb := SplitRegion(segs, m, reg).value;
    RegionChainJoins(ps, m, reg);
    forall k | 0 <= k < |lb|
      ensures TupleLess(lb[k].p1, lb[k].p2)
      ensures IsEndpoint(segs, lb[k].p1) && InRegion(lb[k].p1, reg)
      ensures IsEndpoint(segs, lb[k].p2) && InRegion(lb[k].p2, reg)
      ensures Some(lb[k].meta1) == LastMeta(segs, lb[k].p1)
      ensures Some(lb[k].meta2) == LastMeta(segs, lb[k].p2)
    {
      assert ps[k] in ps && ps[k + 1] in ps;
      MetaMapLastWriteWins(segs, ps[k]);
      MetaMapLastWriteWins(segs, ps[k + 1]);
    }
  }

  /** Every endpoint inside the region is an endpoint of the region's set. */
  lemma SplitRegionCovers(segs: seq<Segment>, reg: Region, q: Point)
    requires SplitRegion(segs, MetaMap(segs), reg).Ok?
    requires IsEndpoint(segs, q) && InRegion(q, reg)
    ensures var lb := SplitRegion(segs, MetaMap(segs), reg).value;
      exists k :: 0 <= k < |lb| && (lb[k].p1 == q || lb[k].p2 == q)
  {
    var m := MetaMap(segs);
    var ps := RegionPoints(segs, reg);
    var lb := SplitRegion(segs, m, reg).value;
    RegionChainJoins(ps, m, reg);
    assert q in ps;
    var j :| 0 <= j < |ps| && ps[j] == q;
    if j < |lb| {
      assert lb[j].p1 == q;
    } else {
      assert lb[j - 1].p2 == q;
    }
  }

  /** A region's lower bound set, when it can be built, has the shape of
      `RegionSet`; it cannot be built from fewer than two points. */
  lemma SplitRegionShape(segs: seq<Segment>, reg: Region)
    ensures var ps := RegionPoints(segs, reg);
      |ps| < 2 ==> SplitRegion(segs, MetaMap(segs), reg) == Raises(IndexError)
    ensures SplitRegion(segs, MetaMap(segs), reg).Ok? ==>
      RegionSet(segs, reg, SplitRegion(segs, MetaMap(segs), reg).value)
  {
    var m := MetaMap(segs);
    var ps := RegionPoints(segs, reg);
    if SplitRegion(segs, m, reg).Ok? {
      var lb := SplitRegion(segs, m, reg).value;
      assert lb == RegionChain(ps, m, reg).value;
      RegionChainJoins(ps, m, reg);
      SplitRegionSegments(segs, reg);
      forall k | 0 <= k < |lb| - 1
        ensures lb[k].right == lb[k].p2.x && lb[k].p2 == lb[k + 1].p1
      {
        assert lb[k].p2 == ps[k + 1] && lb[k + 1].p1 == ps[k + 1];
      }
      forall q | IsEndpoint(segs, q) && InRegion(q, reg)
        ensures exists k :: 0 <= k < |lb| && (lb[k].p1 == q || lb[k].p2 == q)
      {
        SplitRegionCovers(segs, reg, q);
      }
    }
  }

  /** Every lower bound set `split` returns for a set with several regions
      has the shape of `RegionSet` for its region. */
  lemma SplitShape(cfg: Config, segs: seq<Segment>)
    requires |AllRegions(segs, cfg.lbMaxGap)| != 1 && Split(cfg, segs).Ok?
    ensures var regions := AllRegions(segs, cfg.lbMaxGap);
      forall i :: 0 <= i < |regions| ==> RegionSet(segs, regions[i], Split(cfg, segs).value[i])
  {
    var regions := AllRegions(segs, cfg.lbMaxGap);
    forall i | 0 <= i < |regions|
      ensures RegionSet(segs, regions[i], Split(cfg, segs).value[i])
    {
      SplitRegionShape(segs, regions[i]);
    }
  }

  /** `right()` and `top()` of every set `split` returns are the bounds of
      its region, which is what a child node's box is capped by. */
  lemma SplitBounds(cfg: Config, segs: seq<Segment>)
    requires Split(cfg, segs).Ok?
    ensures var regions := AllRegions(segs, cfg.lbMaxGap);
      forall i :: 0 <= i < |Split(cfg, segs).value| ==>
        && i < |regions|
        && Right(Split(cfg, segs).value[i]) == Ok(regions[i].right)
        && Top(Split(cfg, segs).value[i]) == Ok(regions[i].top)
  {
    var regions := AllRegions(segs, cfg.lbMaxGap);
    var r := Split(cfg, segs).value;
    if |regions| == 1 {
      RegionsShape(segs, cfg.lbMaxGap);
    } else {
      forall i | 0 <= i < |r|
        ensures i < |regions| && Right(r[i]) == Ok(regions[i].right) && Top(r[i]) == Ok(regions[i].top)
      {
        assert SplitRegion(segs, MetaMap(segs), regions[i]) == Ok(r[i]);
        SplitRegionShape(segs, regions[i]);
        RegionSetBounds(segs, regions[i], r[i]);
      }
    }
  }

  lemma RegionSetBounds(segs: seq<Segment>, reg: Region, lb: seq<Segment>)
    requires RegionSet(segs, reg, lb)
    ensures Right(lb) == Ok(reg.right) && Top(lb) == Ok(reg.top)
  {
    assert lb[0].top == reg.top;
  }

  /** On the whole set, `right()` ends the last region and `top()` starts
      the first; only the empty set, which has no region, raises. */
  lemma BoundsOfRegions(segs: seq<Segment>, maxGap: real)
    ensures Right(segs).Raises? <==> AllRegions(segs, maxGap) == []
    ensures Top(segs).Raises? <==> AllRegions(segs, maxGap) == []
    ensures |segs| > 0 ==>
      var regions := Regions(segs, maxGap);
      Right(segs) == Ok(regions[|regions| - 1].right) && Top(segs) == Ok(regions[0].top)
  {
    if |segs| > 0 {
      RegionsShape(segs, maxGap);
    }
  }
}

=== FILE: params.dfy ===
/** The run parameters of `biobab/params.py` (and the command-line defaults
    that override some of them), gathered into one immutable record that is
    passed explicitly instead of being read from module globals. */
module Params {
  import opened BasicData

  /** How lexicographic minima are computed by the weighted-sum solver. */
  datatype LexminMethod = Lex | WeightedSum | OtherMethod

  datatype Config = Config(
    /** compare with integrality-improved values of solutions */
    integerDominance: bool,
    /** drop segments that provably contain no integer point */
    segmentTightening: bool,
    /** accept a segment early when its corner is provably valid */
    lbLifting: bool,
    /** branch in objective space on discontinuous lower bound sets */
    objectiveSpaceBranching: bool,
    /** tolerance of the collinearity test in lower bound refinement */
    onSegmentTolerance: real,
    /** smallest gap that makes a lower bound set discontinuous */
    lbMaxGap: real,
    /** tolerance for snapping weighted-sum points onto their bounds */
    feasibilityTolerance: real,
    lexminMethod: LexminMethod,
    /** area ratio above which the balanced box method harvests */
    balancedBoxBeta: real,
    /** minimum objective increments of the instance */
    grid: Grid)
  {
    predicate Valid() {
      grid.Valid() && onSegmentTolerance > 0.0
    }
  }

  /** The defaults of `params.py` and of the command line parser. */
  const Defaults: Config := Config(
    integerDominance := true,
    segmentTightening := true,
    lbLifting := true,
    objectiveSpaceBranching := true,
    onSegmentTolerance := 0.000001,
    lbMaxGap := 0.02,
    feasibilityTolerance := 0.000001,
    lexminMethod := Lex,
    balancedBoxBeta := 0.15,
    grid := DefaultGrid)
}

=== FILE: segment.dfy ===
/** Line segments of a lower bound set (`biobab/segment.py`) and their
    filtering against the region an integer solution dominates. */
module Segments {
  import opened Common
  import Util
  import opened BasicData
  import opened Params
  import opened IntegerSolution

  /** `aboveSegmentTolerance = 1e-8`. */
  const AboveSegmentTolerance: real := 0.00000001

  /** The value of one integer variable in the lp solution at a point. */
  datatype VarValue = VarValue(variable: nat, value: real)

  /** `LBMetaData`: whether the lp solution at an extreme point is integer,
      and the values of the integer variables there. */
  datatype MetaData = MetaData(isInteger: bool, data: seq<VarValue>)

  /** The line `y = a * x + b` through the two endpoints. */
  datatype Line = Line(a: real, b: real) {
    function At(x: real): real {
      a * x + b
    }
  }

  /** A segment from `p1` (upper left) to `p2` (lower right), valid in the
      box bounded by `right` and `top`.  `line` is `None` where the source
      stores `a, b = None, None`. */
  datatype Segment = Segment(
    p1: Point, p2: Point, right: real, top: real,
    line: Option<Line>, meta1: MetaData, meta2: MetaData)

  /** The constructor computes a slope only for distinct endpoints that are
      not `closeEnough`. */
  predicate HasLine(p1: Point, p2: Point) {
    p1 != p2 && !Util.CloseEnough(p1, p2)
  }

  /** The slope and intercept the constructor computes. */
  function LineThrough(p1: Point, p2: Point): (l: Line)
    requires p1.x != p2.x
    ensures l.At(p1.x) == p1.y && l.At(p2.x) == p2.y
  {
    var a := (p2.y - p1.y) / (p2.x - p1.x);
    SlopeTimesRun(p1, p2);
    Line(a, p1.y - a * p1.x)
  }

  lemma SlopeTimesRun(p1: Point, p2: Point)
    requires p1.x != p2.x
    ensures var a := (p2.y - p1.y) / (p2.x - p1.x);
      a * p2.x + (p1.y - a * p1.x) == p2.y && a * p1.x + (p1.y - a * p1.x) == p1.y
  {
    var a := (p2.y - p1.y) / (p2.x - p1.x);
    assert a * (p2.x - p1.x) == p2.y - p1.y;
    assert a * p2.x - a * p1.x == a * (p2.x - p1.x);
  }

  /** `Segment(p1, p2, right, top, metaData1, metaData2)`: fails with a
      division by zero exactly for a vertical segment whose endpoints are
      neither equal nor close. */
  function MakeSegment(p1: Point, p2: Point, right: real, top: real, m1: MetaData, m2: MetaData)
    : (r: Fallible<Segment>)
    ensures r.Ok? <==> !HasLine(p1, p2) || p1.x != p2.x
    ensures r.Raises? ==> r.error == ZeroDivisionError
    ensures r.Ok? ==>
      && r.value.p1 == p1 && r.value.p2 == p2 && r.value.right == right && r.value.top == top
      && r.value.meta1 == m1 && r.value.meta2 == m2
      && (r.value.line.Some? <==> HasLine(p1, p2))
    ensures r.Ok? && r.value.line.Some? ==>
      r.value.line.value.At(p1.x) == p1.y && r.value.line.value.At(p2.x) == p2.y
  {
    if HasLine(p1, p2) then
      if p2.x - p1.x == 0.0 then Raises(ZeroDivisionError)
      else Ok(Segment(p1, p2, right, top, Some(LineThrough(p1, p2)), m1, m2))
    else
      Ok(Segment(p1, p2, right, top, None, m1, m2))
  }

  /** A segment the constructor can produce. */
  predicate WellBuilt(s: Segment) {
    MakeSegment(s.p1, s.p2, s.right, s.top, s.meta1, s.meta2) == Ok(s)
  }

  /** `containsIntegerPoint`: the greatest grid point below `(right, top)`
      lies in the box of the segment and on or above its line (up to
      `aboveSegmentTolerance`). */
  predicate ContainsIntegerPoint(g: Grid, s: Segment)
    requires g.Valid()
  {
    var f := FloorCoords(g, Point(s.right, s.top));
    && (s.p1 == s.p2 || Util.CloseEnough(s.p1, s.p2)
        || (s.line.Some? && f.y + AboveSegmentTolerance >= s.line.value.At(f.x)))
    && f.y >= s.p2.y && f.x >= s.p1.x
  }

  /** `shouldBeConsidered`. */
  predicate ShouldBeConsidered(cfg: Config, s: Segment)
    requires cfg.grid.Valid()
  {
    !cfg.segmentTightening || ContainsIntegerPoint(cfg.grid, s)
  }

  /** A new segment is appended only if it should be considered. */
  function Considered(cfg: Config, s: Segment): (r: seq<Segment>)
    requires cfg.grid.Valid()
    ensures r == [s] <==> ShouldBeConsidered(cfg, s)
    ensures r == [] <==> !ShouldBeConsidered(cfg, s)
  {
    if ShouldBeConsidered(cfg, s) then [s] else []
  }

  /** Constructs a piece and keeps it if it should be considered. */
  function Piece(cfg: Config, r: Fallible<Segment>): Fallible<seq<Segment>>
    requires cfg.grid.Valid()
  {
    match r
    case Ok(s) => Ok(Considered(cfg, s))
    case Raises(e) => Raises(e)
  }

  /** The corner used for filtering: the improved values under integer
      dominance, the objective values otherwise. For a solution built by
      the search, the region it dominates is exactly the quadrant above and
      right of the corner, so filtering cuts away what `u` dominates and
      nothing else. */
  function Corner(cfg: Config, u: Solution): (c: Point)
    ensures cfg.integerDominance ==> c == Point(u.improvedZ1, u.improvedZ2)
    ensures !cfg.integerDominance ==> c == u.Point()
    ensures u == MakeSolution(cfg, u.z1, u.z2) ==>
      forall b :: Dominates(u, b) <==> c.x <= b.z1 && c.y <= b.z2
  {
    if cfg.integerDominance then Point(u.improvedZ1, u.improvedZ2) else u.Point()
  }

  /** Python truthiness of the stored slope: `None` and `0.0` are false. */
  predicate SlopeIsTruthy(line: Option<Line>) {
    line.Some? && line.value.a != 0.0
  }

  /** The test for the case where the endpoints certainly do not change. */
  predicate EndpointsKept(s: Segment, c: Point) {
    || c.y >= s.p1.y
    || c.x >= s.p2.x
    || (SlopeIsTruthy(s.line) && c.y >= s.line.value.At(c.x))
  }

  /** The part of the segment left of the corner: from `p1` to the point of
      the line at `c.x`, bounded on the right by `c.x`. */
  function LeftPiece(s: Segment, l: Line, c: Point): Fallible<Segment> {
    MakeSegment(s.p1, Point(c.x, l.At(c.x)), c.x, s.top, s.meta1, s.meta2)
  }

  /** The part of the segment below the corner: from the point of the line
      at height `c.y` to `p2`, bounded above by `c.y`. */
  function RightPiece(s: Segment, l: Line, c: Point): Fallible<Segment>
    requires l.a != 0.0
  {
    MakeSegment(Point((c.y - l.b) / l.a, c.y), s.p2, s.right, c.y, s.meta1, s.meta2)
  }

  /** `Segment.filter(u)`: what remains of the segment once the region the
      solution dominates is cut away.  A `None` slope reaching the general
      case raises a `TypeError`, as the arithmetic on `None` does. */
  function Filter(cfg: Config, s: Segment, u: Solution): (r: Fallible<seq<Segment>>)
    requires cfg.grid.Valid()
    ensures r.Ok? ==> |r.value| <= 2
    ensures r.Ok? ==> forall i :: 0 <= i < |r.value| ==>
      r.value[i].meta1 == s.meta1 && r.value[i].meta2 == s.meta2
  {
    var c := Corner(cfg, u);
    if EndpointsKept(s, c) then
      if c.x <= s.p1.x then
        Ok(Considered(cfg, s.(top := Min(s.top, c.y))))
      else if c.y <= s.p2.y then
        Ok(Considered(cfg, s.(right := Min(s.right, c.x))))
      else
        Ok(Considered(cfg, s))
    else
      var left :=
        if c.x <= s.p1.x then Ok([])
        else if s.line.None? then Raises(TypeError)
        else Piece(cfg, LeftPiece(s, s.line.value, c));
      if left.Raises? then left
      else
        var right :=
          if c.y <= s.p2.y then Ok([])
          else if s.line.None? then Raises(TypeError)
          else if s.line.value.a == 0.0 then Raises(ZeroDivisionError)
          else Piece(cfg, RightPiece(s, s.line.value, c));
        if right.Raises? then right
        else Ok(left.value + right.value)
  }

  // ---------------------------------------------------------------------
  // Lemmas
  // ---------------------------------------------------------------------

  /** Segments built by the constructor that lie on the line of `s`. */
  predicate OnLineOf(s: Segment, pieces: seq<Segment>) {
    forall i :: 0 <= i < |pieces| ==>
      WellBuilt(pieces[i]) && (pieces[i].line.Some? && s.line.Some? ==> pieces[i].line == s.line)
  }

  lemma WellBuiltNewBounds(s: Segment, right: real, top: real)
    requires WellBuilt(s)
    ensures WellBuilt(s.(right := right, top := top))
  {
  }

  lemma LeftPieceOnLine(cfg: Config, s: Segment, c: Point)
    requires cfg.grid.Valid() && WellBuilt(s) && s.line.Some? && c.x > s.p1.x
    ensures Piece(cfg, LeftPiece(s, s.line.value, c)).Ok?
    ensures OnLineOf(s, Piece(cfg, LeftPiece(s, s.line.value, c)).value)
  {
    var l := s.line.value;
    var q := Point(c.x, l.At(c.x));
    LineThroughPointOnLine(l, s.p1, q);
  }

  lemma RightPieceOnLine(cfg: Config, s: Segment, c: Point)
    requires cfg.grid.Valid() && WellBuilt(s) && s.line.Some? && s.line.value.a != 0.0
    requires c.y > s.p2.y
    ensures Piece(cfg, RightPiece(s, s.line.value, c)).Ok?
    ensures OnLineOf(s, Piece(cfg, RightPiece(s, s.line.value, c)).value)
  {
    var l := s.line.value;
    var q := Point((c.y - l.b) / l.a, c.y);
    assert l.At(q.x) == c.y;
    assert q.x != s.p2.x;
    LineThroughPointOnLine(l, q, s.p2);
  }

  /** The segments `filter` keeps are again segments the constructor can
      build, and every one of them lies on the line of the filtered
      segment. */
  lemma FilterPiecesOnLine(cfg: Config, s: Segment, u: Solution)
    requires cfg.grid.Valid() && WellBuilt(s)
    requires Filter(cfg, s, u).Ok?
    ensures OnLineOf(s, Filter(cfg, s, u).value)
  {
    var c := Corner(cfg, u);
    if EndpointsKept(s, c) {
      WellBuiltNewBounds(s, s.right, Min(s.top, c.y));
      WellBuiltNewBounds(s, Min(s.right, c.x), s.top);
    } else if s.line.Some? {
      var l := s.line.value;
      var left := if c.x <= s.p1.x then [] else Piece(cfg, LeftPiece(s, l, c)).value;
      var right := if c.y <= s.p2.y || l.a == 0.0 then [] else Piece(cfg, RightPiece(s, l, c)).value;
      if c.x > s.p1.x {
        LeftPieceOnLine(cfg, s, c);
      }
      if c.y > s.p2.y && l.a != 0.0 {
        RightPieceOnLine(cfg, s, c);
      }
      assert l.a == 0.0 ==> s.p1.y == s.p2.y;
      assert Filter(cfg, s, u).value == left + right;
    }
  }

  /** Two points of a line with different abscissae determine that line. */
  lemma LineThroughPointOnLine(l: Line, p: Point, q: Point)
    requires p.x != q.x && l.At(p.x) == p.y && l.At(q.x) == q.y
    ensures LineThrough(p, q) == l
  {
    var a := (q.y - p.y) / (q.x - p.x);
    assert q.y - p.y == l.a * (q.x - p.x);
    assert a == l.a;
  }

  /** The line reaches height `y` at `(y - b) / a` when it is not flat. */
  lemma LineHits(l: Line, y: real)
    requires l.a != 0.0
    ensures l.At((y - l.b) / l.a) == y
  {
    DivCancel(y - l.b, l.a);
  }

  /** `filter` raises exactly when the slope is `None` and the general case
      needs a piece, and then the error is a `TypeError`. */
  lemma FilterRaisesIff(cfg: Config, s: Segment, u: Solution)
    requires cfg.grid.Valid() && WellBuilt(s)
    ensures var c := Corner(cfg, u);
      Filter(cfg, s, u).Raises? <==>
        !EndpointsKept(s, c) && s.line.None? && (c.x > s.p1.x || c.y > s.p2.y)
    ensures Filter(cfg, s, u).Raises? ==> Filter(cfg, s, u).error == TypeError
  {
    var c := Corner(cfg, u);
    if !EndpointsKept(s, c) && s.line.Some? {
      var l := s.line.value;
      assert l.At(s.p1.x) == s.p1.y && l.At(s.p2.x) == s.p2.y;
      if c.x > s.p1.x {
        assert c.x != s.p1.x;
      }
      if c.y > s.p2.y {
        assert l.a != 0.0;
        var q := Point((c.y - l.b) / l.a, c.y);
        LineHits(l, c.y);
        assert l.At(q.x) != l.At(s.p2.x);
        assert q.x != s.p2.x;
      }
    }
  }

  /** A degenerate segment (a single point) strictly above and right of the
      corner is dominated entirely and removed. */
  lemma FilterRemovesDominatedPoint(cfg: Config, s: Segment, u: Solution)
    requires cfg.grid.Valid() && WellBuilt(s) && s.p1 == s.p2
    requires Corner(cfg, u).x < s.p1.x && Corner(cfg, u).y < s.p1.y
    ensures Filter(cfg, s, u) == Ok([])
  {
  }

  /** With tightening switched off every segment is considered. */
  lemma NoTighteningConsidersAll(cfg: Config, s: Segment)
    requires cfg.grid.Valid() && !cfg.segmentTightening
    ensures Considered(cfg, s) == [s]
  {
  }

  /** Some piece spans abscissa `x`. */
  predicate Covers(pieces: seq<Segment>, x: real) {
    exists i :: 0 <= i < |pieces| && pieces[i].p1.x <= x <= pieces[i].p2.x
  }

  /** A segment going down from left to right. */
  predicate Decreasing(s: Segment) {
    s.line.Some? && s.p1.x < s.p2.x && s.p1.y > s.p2.y
  }

  lemma DecreasingSlope(s: Segment)
    requires WellBuilt(s) && Decreasing(s)
    ensures s.line.value.a < 0.0
  {
    var made := MakeSegment(s.p1, s.p2, s.right, s.top, s.meta1, s.meta2);
    assert made == Ok(s);
    var l := s.line.value;
    var d := s.p2.x - s.p1.x;
    assert l.At(s.p1.x) == s.p1.y && l.At(s.p2.x) == s.p2.y;
    assert l.a * s.p2.x - l.a * s.p1.x == l.a * d;
    assert l.a * d == s.p2.y - s.p1.y;
    if l.a >= 0.0 {
      MulMono(0.0, l.a, d);
    }
  }

  /** A line of negative slope is strictly decreasing. */
  lemma LineDecreases(l: Line, x: real, y: real)
    requires l.a < 0.0 && x < y
    ensures l.At(x) > l.At(y)
  {
    assert l.At(x) - l.At(y) == l.a * (x - y);
    MulMono(l.a, 0.0, y - x);
  }

  lemma LineNonIncreasing(l: Line, x: real, y: real)
    requires l.a <= 0.0 && x <= y
    ensures l.At(y) <= l.At(x)
  {
    assert l.At(x) - l.At(y) == l.a * (x - y);
    if x < y {
      MulMono(l.a, 0.0, y - x);
    }
  }

  /** When the endpoints are kept, no interior point of a decreasing segment
      is strictly dominated by the corner. */
  lemma KeptSegmentUndominated(s: Segment, c: Point, x: real)
    requires WellBuilt(s) && Decreasing(s) && s.p1.x < x < s.p2.x
    requires EndpointsKept(s, c)
    ensures !(x > c.x && s.line.value.At(x) > c.y)
  {
    var l := s.line.value;
    DecreasingSlope(s);
    if x > c.x && l.At(x) > c.y {
      LineDecreases(l, s.p1.x, x);
      LineDecreases(l, c.x, x);
    }
  }

  /** In the general case the line crosses height `c.y` right of `c.x`. */
  lemma CutAbscissa(s: Segment, c: Point)
    requires WellBuilt(s) && Decreasing(s) && !EndpointsKept(s, c)
    ensures s.line.value.a < 0.0
    ensures var l := s.line.value; var bx := (c.y - l.b) / l.a;
      l.At(bx) == c.y && c.x < bx
  {
    var l := s.line.value;
    DecreasingSlope(s);
    var bx := (c.y - l.b) / l.a;
    assert l.At(bx) == c.y;
    if bx < c.x {
      LineDecreases(l, bx, c.x);
    }
  }

  /** The abscissae spanned by the two pieces of the general case. */
  lemma PieceEnds(s: Segment, c: Point)
    requires WellBuilt(s) && Decreasing(s) && !EndpointsKept(s, c)
    ensures var l := s.line.value;
      && l.a < 0.0
      && LeftPiece(s, l, c).Ok? && RightPiece(s, l, c).Ok?
      && LeftPiece(s, l, c).value.p1.x == s.p1.x && LeftPiece(s, l, c).value.p2.x == c.x
      && RightPiece(s, l, c).value.p1.x == (c.y - l.b) / l.a
      && RightPiece(s, l, c).value.p2.x == s.p2.x
  {
    var l := s.line.value;
    CutAbscissa(s, c);
    var bx := (c.y - l.b) / l.a;
    if bx == s.p2.x {
      assert l.At(s.p2.x) == s.p2.y;
    }
  }

  /** The general case of the coverage property, on the pieces themselves. */
  lemma CutPiecesCover(cfg: Config, s: Segment, c: Point, x: real)
    requires cfg.grid.Valid() && !cfg.segmentTightening
    requires WellBuilt(s) && Decreasing(s) && s.p1.x < x < s.p2.x
    requires !EndpointsKept(s, c)
    ensures var l := s.line.value;
      var left := if c.x <= s.p1.x then [] else [LeftPiece(s, l, c).value];
      var right := if c.y <= s.p2.y then [] else [RightPiece(s, l, c).value];
      LeftPiece(s, l, c).Ok? && RightPiece(s, l, c).Ok? &&
      (Covers(left + right, x) <==> !(x > c.x && l.At(x) > c.y))
  {
    var l := s.line.value;
    CutAbscissa(s, c);
    PieceEnds(s, c);
    var bx := (c.y - l.b) / l.a;
    var lp, rp := LeftPiece(s, l, c).value, RightPiece(s, l, c).value;
    var left := if c.x <= s.p1.x then [] else [lp];
    var right := if c.y <= s.p2.y then [] else [rp];
    var r := left + right;
    if x <= c.x {
      assert left != [] && r[0] == lp;
    } else if x >= bx {
      if bx < s.p2.x {
        LineDecreases(l, bx, s.p2.x);
      }
      assert right != [] && r[|left|] == rp;
      if x > bx {
        LineDecreases(l, bx, x);
      }
    } else {
      LineDecreases(l, x, bx);
      forall i | 0 <= i < |r| ensures !(r[i].p1.x <= x <= r[i].p2.x) {
        assert r[i] == lp || r[i] == rp;
      }
    }
  }

  /** The heart of `filter`: with tightening off, the pieces of a decreasing
      segment span exactly those interior abscissae whose point on the
      segment the corner does not strictly dominate. */
  lemma FilterRemovesDominatedPart(cfg: Config, s: Segment, u: Solution, x: real)
    requires cfg.grid.Valid() && !cfg.segmentTightening
    requires WellBuilt(s) && Decreasing(s) && s.p1.x < x < s.p2.x
    ensures Filter(cfg, s, u).Ok?
    ensures var c := Corner(cfg, u);
      Covers(Filter(cfg, s, u).value, x) <==> !(x > c.x && s.line.value.At(x) > c.y)
  {
    var c := Corner(cfg, u);
    FilterRaisesIff(cfg, s, u);
    var r := Filter(cfg, s, u).value;
    if EndpointsKept(s, c) {
      KeptSegmentUndominated(s, c, x);
      assert r[0].p1 == s.p1 && r[0].p2 == s.p2;
    } else {
      var l := s.line.value;
      CutPiecesCover(cfg, s, c, x);
      DecreasingSlope(s);
      assert r == (if c.x <= s.p1.x then [] else [LeftPiece(s, l, c).value])
        + (if c.y <= s.p2.y then [] else [RightPiece(s, l, c).value]);
    }
  }

  /** What `containsIntegerPoint` finds: the greatest grid point below the
      bounds lies in the segment's box and, for a proper segment, on or
      above its line. */
  lemma ContainsIntegerPointFinds(g: Grid, s: Segment)
    requires g.Valid() && WellBuilt(s) && ContainsIntegerPoint(g, s)
    ensures var f := FloorCoords(g, Point(s.right, s.top));
      && PointOnGrid(g, f)
      && s.p1.x <= f.x <= s.right && s.p2.y <= f.y <= s.top
      && (HasLine(s.p1, s.p2) ==> f.y + AboveSegmentTolerance >= s.line.value.At(f.x))
  {
  }

  /** Conversely, any grid point in the box of a non-increasing segment that
      is on or above its line makes `containsIntegerPoint` true. */
  lemma GridPointWitness(g: Grid, s: Segment, q: Point)
    requires g.Valid() && WellBuilt(s) && PointOnGrid(g, q)
    requires s.p1.x <= q.x <= s.right && s.p2.y <= q.y <= s.top
    requires s.line.Some? ==> s.line.value.a <= 0.0 && q.y + AboveSegmentTolerance >= s.line.value.At(q.x)
    ensures ContainsIntegerPoint(g, s)
  {
    var f := FloorCoords(g, Point(s.right, s.top));
    FloorToGreatest(s.right, g.z1Epsilon, q.x);
    FloorToGreatest(s.top, g.z2Epsilon, q.y);
    assert q.x <= f.x && q.y <= f.y;
    if s.line.Some? {
      LineNonIncreasing(s.line.value, q.x, f.x);
    } else {
      assert !HasLine(s.p1, s.p2);
    }
  }

  /** A grid point in the box of the segment, on or above its line (up to
      `aboveSegmentTolerance`) when it has one. */
  predicate GridPointIn(g: Grid, s: Segment, q: Point)
    requires g.Valid()
  {
    && PointOnGrid(g, q)
    && s.p1.x <= q.x <= s.right && s.p2.y <= q.y <= s.top
    && (s.line.Some? ==> q.y + AboveSegmentTolerance >= s.line.value.At(q.x))
  }

  /** What keeping a segment means: with tightening on, a non-increasing
      segment is kept exactly when some integer point lies in the space it
      covers; with tightening off it is always kept. */
  lemma ConsideredMeaning(cfg: Config, s: Segment)
    requires cfg.grid.Valid() && WellBuilt(s)
    requires s.line.Some? ==> s.line.value.a <= 0.0
    ensures Considered(cfg, s) == [s] <==>
      !cfg.segmentTightening || exists q :: GridPointIn(cfg.grid, s, q)
    ensures Considered(cfg, s) == [] <==>
      cfg.segmentTightening && forall q :: !GridPointIn(cfg.grid, s, q)
  {
    var g := cfg.grid;
    if ContainsIntegerPoint(g, s) {
      ContainsIntegerPointFinds(g, s);
      var f := FloorCoords(g, Point(s.right, s.top));
      assert GridPointIn(g, s, f);
    }
    if q :| GridPointIn(g, s, q) {
      GridPointWitness(g, s, q);
    }
  }
}

=== FILE: treesearch.dfy ===
/** The tree search of `biobab/treesearch.py`: branching-variable scores and
    selection, objective-space branching, the reversible branching decisions,
    and the construction of child nodes.  The lp solver and the lower bound
    computation are parameters. */
module TreeSearch {
  import opened Common
  import Util
  import opened Params
  import opened Segments
  import opened LowerBoundSet
  import opened BiobabNode
  import FlexibleQueue

  /** `zero = 1e-6`. */
  const Zero: real := 0.000001

  /** The values an integer variable takes at the points of a lower bound
      set; every variable is recorded at least once. */
  type Recorded = l: seq<real> | |l| > 0 witness [0.0]

  /** A branching candidate: an lp variable with its branch priority and
      its recorded values, in the iteration order of the value map. */
  datatype Candidate = Candidate(variable: nat, priority: int, values: Recorded)

  // ---------------------------------------------------------------------
  // Scores

  /** The scoring rules of the `BinaryPriorityBrancher` subclasses;
      `NoScore` is the base class, whose score is always 0. */
  datatype ScoreRule = NoScore | ClosestToOne | FurthestToOne | OftenFractional
                     | FractionalOnAverage | FractionalAverage

  /** `ClosestToOne`: the largest recorded value below `1 - zero`, or 0 when
      there is none (or all such values are negative). */
  function ClosestToOneScore(vs: seq<real>): (r: real)
    ensures r >= 0.0
    ensures r == 0.0 || (r in vs && r < 1.0 - Zero)
    ensures forall i :: 0 <= i < |vs| && vs[i] < 1.0 - Zero ==> vs[i] <= r
    decreases |vs|
  {
    if |vs| == 0 then 0.0
    else
      var best := ClosestToOneScore(vs[..|vs| - 1]);
      var v := vs[|vs| - 1];
      assert forall i :: 0 <= i < |vs| - 1 ==> vs[i] == vs[..|vs| - 1][i];
      if v < 1.0 - Zero && v > best then v else best
  }

  /** `FurthestToOne` as written: it compares each value with the previous
      best distance instead of the previous best value. */
  function FurthestToOneScore(vs: seq<real>): (r: real)
    ensures r == 0.0 || exists i :: 0 <= i < |vs| && vs[i] < 1.0 - Zero && r == 1.0 - vs[i]
    decreases |vs|
  {
    if |vs| == 0 then 0.0
    else
      var best := FurthestToOneScore(vs[..|vs| - 1]);
      var v := vs[|vs| - 1];
      assert forall i :: 0 <= i < |vs| - 1 ==> vs[i] == vs[..|vs| - 1][i];
      if v < 1.0 - Zero && (best == 0.0 || v < best) then 1.0 - v else best
  }

  /** The distance from one of the recorded value furthest from one (among
      those below `1 - zero`), or 0 when there is none. */
  function FurthestToOneIntended(vs: seq<real>): (r: real)
    ensures r >= 0.0
    ensures r == 0.0 || exists i :: 0 <= i < |vs| && vs[i] < 1.0 - Zero && r == 1.0 - vs[i]
    ensures forall i :: 0 <= i < |vs| && vs[i] < 1.0 - Zero ==> 1.0 - vs[i] <= r
    decreases |vs|
  {
    if |vs| == 0 then 0.0
    else
      var best := FurthestToOneIntended(vs[..|vs| - 1]);
      var v := vs[|vs| - 1];
      assert forall i :: 0 <= i < |vs| - 1 ==> vs[i] == vs[..|vs| - 1][i];
      if v < 1.0 - Zero && 1.0 - v > best then 1.0 - v else best
  }

  /** With recorded values 0.3 and 0.6 the rule as written scores 0.4 (the
      distance of 0.6), although 0.3 is further from one. */
  lemma FurthestToOneMissesFurthest()
    ensures FurthestToOneScore([0.3, 0.6]) == 0.4
    ensures FurthestToOneIntended([0.3, 0.6]) == 0.7
  {
    assert [0.3, 0.6][..1] == [0.3];
    assert [0.3][..0] == [];
  }

  /** `OftenFractional`: how many recorded values are fractional. */
  function CountFractional(vs: seq<real>): (r: nat)
    ensures r <= |vs|
    ensures r == 0 <==> forall i :: 0 <= i < |vs| ==> !Util.IsFractional(vs[i])
    ensures r == |vs| <==> forall i :: 0 <= i < |vs| ==> Util.IsFractional(vs[i])
    decreases |vs|
  {
    if |vs| == 0 then 0
    else
      var front := vs[..|vs| - 1];
      assert forall i :: 0 <= i < |vs| - 1 ==> vs[i] == front[i];
      CountFractional(front) + if Util.IsFractional(vs[|vs| - 1]) then 1 else 0
  }

  /** `1.0 / max(distance, zero)`: small distances to one half give high
      scores. */
  function ReciprocalScore(distance: real): real {
    1.0 / (if distance >= Zero then distance else Zero)
  }

  /** The score is positive, at most `1 / zero`, reached exactly for
      distances up to `zero`, and strictly decreasing beyond. */
  lemma ReciprocalScoreShape(d: real, e: real)
    ensures 0.0 < ReciprocalScore(d) <= 1000000.0
    ensures ReciprocalScore(d) == 1000000.0 <==> d <= Zero
    ensures Zero <= d < e ==> ReciprocalScore(e) < ReciprocalScore(d)
  {
    if d > Zero {
      assert 1.0 / d < 1.0 / Zero;
    }
    if Zero <= d < e {
      assert 1.0 / e < 1.0 / d;
    }
  }

  function Distances(vs: seq<real>): (r: seq<real>)
    ensures |r| == |vs|
  {
    seq(|vs|, i requires 0 <= i < |vs| => Abs(vs[i] - 0.5))
  }

  /** `self.score(var, varValues)` for each rule. */
  function Score(rule: ScoreRule, vs: Recorded): real {
    match rule
    case NoScore => 0.0
    case ClosestToOne => ClosestToOneScore(vs)
    case FurthestToOne => FurthestToOneScore(vs)
    case OftenFractional => CountFractional(vs) as real
    case FractionalOnAverage => ReciprocalScore(Util.ListAvg(Distances(vs)))
    case FractionalAverage => ReciprocalScore(Abs(Util.ListAvg(vs) - 0.5))
  }

  // ---------------------------------------------------------------------
  // Variable selection

  /** What `bestCandidate` looks at for one candidate: its priority, the
      average of its values and its score. */
  datatype Rated = Rated(priority: int, avg: real, score: real)

  function Rate(rule: ScoreRule, c: Candidate): Rated {
    Rated(c.priority, Util.ListAvg(c.values), Score(rule, c.values))
  }

  /** A candidate `bestCandidate` may select: its average lies strictly
      between `zero` and `1 - zero` and its score is positive. */
  predicate Selectable(r: Rated) {
    Zero < r.avg < 1.0 - Zero && r.score > 0.0
  }

  predicate Eligible(rule: ScoreRule, c: Candidate) {
    Selectable(Rate(rule, c))
  }

  /** The loop variables `bestVar` (as an index) and `bestScore`. */
  datatype Selection = Selection(best: Option<nat>, score: real)

  /** One iteration of the loop of `bestCandidate` on candidate `i`. */
  function Consider(rs: seq<Rated>, sel: Selection, i: nat): Selection
    requires i < |rs|
    requires sel.best.Some? ==> sel.best.value < |rs|
    requires sel.score > 0.0 ==> sel.best.Some?
  {
    var c := rs[i];
    if sel.best.Some? && rs[sel.best.value].priority > c.priority then sel
    else if c.avg <= Zero || c.avg >= 1.0 - Zero then sel
    else if c.score > sel.score || (sel.score > 0.0 && c.score > 0.0 && c.priority > rs[sel.best.value].priority)
    then Selection(Some(i), c.score)
    else sel
  }

  /** The state of the loop after the first `n` candidates. */
  function Select(rs: seq<Rated>, n: nat): (r: Selection)
    requires n <= |rs|
    ensures r.best.Some? ==> r.best.value < n
    ensures r.score > 0.0 ==> r.best.Some?
    decreases n
  {
    if n == 0 then Selection(None, 0.0)
    else Consider(rs, Select(rs, n - 1), n - 1)
  }

  /** What the loop has established after `n` candidates: nothing is
      selected exactly when no candidate so far is selectable; otherwise the
      selection is selectable, of the highest priority among the selectable
      ones, of the highest score within that priority, and the first such. */
  predicate SelectionCorrect(rs: seq<Rated>, n: nat, sel: Selection)
    requires n <= |rs|
  {
    && sel.score >= 0.0
    && (sel.best.None? <==> forall j :: 0 <= j < n ==> !Selectable(rs[j]))
    && (sel.best.None? ==> sel.score == 0.0)
    && (sel.best.Some? ==>
          var b := sel.best.value;
          && b < n && Selectable(rs[b]) && sel.score == rs[b].score
          && (forall j :: 0 <= j < n && Selectable(rs[j]) ==> rs[j].priority <= rs[b].priority)
          && (forall j :: 0 <= j < n && Selectable(rs[j]) && rs[j].priority == rs[b].priority ==>
                rs[j].score <= sel.score)
          && (forall j :: 0 <= j < b && Selectable(rs[j]) && rs[j].priority == rs[b].priority ==>
                rs[j].score < sel.score))
  }

  lemma ConsiderCorrect(rs: seq<Rated>, n: nat, sel: Selection)
    requires n < |rs|
    requires sel.best.Some? ==> sel.best.value < |rs|
    requires sel.score > 0.0 ==> sel.best.Some?
    requires SelectionCorrect(rs, n, sel)
    ensures SelectionCorrect(rs, n + 1, Consider(rs, sel, n))
  {
    var r := Consider(rs, sel, n);
    if r.best.Some? {
      var b := r.best.value;
      forall j | 0 <= j < n + 1 && Selectable(rs[j])
        ensures rs[j].priority <= rs[b].priority
      {
        if j < n && sel.best.Some? {
          assert rs[j].priority <= rs[sel.best.value].priority;
        }
      }
    }
  }

  lemma {:induction false} SelectCorrect(rs: seq<Rated>, n: nat)
    requires n <= |rs|
    ensures SelectionCorrect(rs, n, Select(rs, n))
    decreases n
  {
    if n > 0 {
      SelectCorrect(rs, n - 1);
      ConsiderCorrect(rs, n - 1, Select(rs, n - 1));
    }
  }

  /** The ratings of the candidates, in order. */
  function Ratings(rule: ScoreRule, cands: seq<Candidate>): (rs: seq<Rated>)
    ensures |rs| == |cands|
    ensures forall i :: 0 <= i < |cands| ==> rs[i] == Rate(rule, cands[i])
  {
    seq(|cands|, i requires 0 <= i < |cands| => Rate(rule, cands[i]))
  }

  /** `bestCandidate(varValues)`: the index of the selected candidate. */
  function BestCandidate(rule: ScoreRule, cands: seq<Candidate>): Option<nat> {
    var rs := Ratings(rule, cands);
    Select(rs, |rs|).best
  }

  /** The variable selected is the first of highest score among the
      eligible candidates of highest branch priority; there is none exactly
      when no candidate is eligible. */
  lemma BestCandidateChoice(rule: ScoreRule, cands: seq<Candidate>)
    ensures BestCandidate(rule, cands).None? <==> forall j :: 0 <= j < |cands| ==> !Eligible(rule, cands[j])
    ensures var r := BestCandidate(rule, cands);
      r.Some? ==> r.value < |cands| && Eligible(rule, cands[r.value])
    ensures var r := BestCandidate(rule, cands);
      r.Some? ==> forall j :: 0 <= j < |cands| && Eligible(rule, cands[j]) ==>
        || cands[j].priority < cands[r.value].priority
        || (&& cands[j].priority == cands[r.value].priority
            && Rate(rule, cands[j]).score <= Rate(rule, cands[r.value]).score
            && (j < r.value ==> Rate(rule, cands[j]).score < Rate(rule, cands[r.value]).score))
  {
    var rs := Ratings(rule, cands);
    var sel := Select(rs, |rs|);
    SelectCorrect(rs, |rs|);
    assert sel.best == BestCandidate(rule, cands);
  }

  // ---------------------------------------------------------------------
  // Branching decisions

  datatype BoundKind = UB | LB

  /** `ObjectiveSpaceBranching(region)` and
      `GurobiBinaryBoundBranching(var, boundType, boundValue)`. */
  datatype Decision =
    | ObjectiveSpace(region: Region)
    | BinaryBound(variable: nat, kind: BoundKind, value: real)

  /** `genBranches(lb)` of a priority brancher: nothing, or the two branches
      `var <= 0` and `var >= 1` on the selected variable. */
  function GenBranches(rule: ScoreRule, cands: seq<Candidate>): (r: seq<Decision>)
    ensures r == [] <==> forall j :: 0 <= j < |cands| ==> !Eligible(rule, cands[j])
    ensures r != [] ==> exists j :: (0 <= j < |cands| && Eligible(rule, cands[j]) &&
      r == [BinaryBound(cands[j].variable, UB, 0.0), BinaryBound(cands[j].variable, LB, 1.0)])
  {
    BestCandidateChoice(rule, cands);
    match BestCandidate(rule, cands)
    case None => []
    case Some(j) => [BinaryBound(cands[j].variable, UB, 0.0), BinaryBound(cands[j].variable, LB, 1.0)]
  }

  /** `ObjectiveSpaceBrancher.genBranches(lb)`: `None` when objective-space
      branching is off, otherwise one branch per region when there are
      several, and none otherwise. */
  function ObjectiveSpaceBranches(cfg: Config, segs: seq<Segment>): (r: Option<seq<Decision>>)
    ensures r.None? <==> !cfg.objectiveSpaceBranching
    ensures r.Some? && |AllRegions(segs, cfg.lbMaxGap)| <= 1 ==> r.value == []
    ensures r.Some? && |AllRegions(segs, cfg.lbMaxGap)| > 1 ==>
      |r.value| == |AllRegions(segs, cfg.lbMaxGap)| &&
      forall i :: 0 <= i < |r.value| ==> r.value[i] == ObjectiveSpace(AllRegions(segs, cfg.lbMaxGap)[i])
  {
    if !cfg.objectiveSpaceBranching then None
    else
      var regions := AllRegions(segs, cfg.lbMaxGap);
      if |regions| > 1 then Some(seq(|regions|, i requires 0 <= i < |regions| => ObjectiveSpace(regions[i])))
      else Some([])
  }

  /** What the decisions act on: the bounds of the node being processed and
      the bounds of the lp's binary variables (absent entries are still at
      their initial values 0 and 1). */
  datatype SearchState = SearchState(right: real, top: real, lbs: map<nat, real>, ubs: map<nat, real>)

  /** The initial value of a bound of a binary variable. */
  function Default(k: BoundKind): real {
    if k == UB then 1.0 else 0.0
  }

  /** The current value of a bound of variable `v`. */
  function BoundOf(s: SearchState, v: nat, k: BoundKind): real {
    var m := if k == UB then s.ubs else s.lbs;
    if v in m then m[v] else Default(k)
  }

  /** Sets a bound of variable `v`. */
  function SetBound(s: SearchState, v: nat, k: BoundKind, value: real): (r: SearchState)
    ensures r.right == s.right && r.top == s.top
    ensures BoundOf(r, v, k) == value
    ensures forall w, l :: (w != v || l != k) ==> BoundOf(r, w, l) == BoundOf(s, w, l)
  {
    if k == UB then s.(ubs := s.ubs[v := value]) else s.(lbs := s.lbs[v := value])
  }

  /** `decision.apply(node)`. */
  function Apply(s: SearchState, d: Decision): SearchState {
    match d
    case ObjectiveSpace(reg) => s.(right := Min(reg.right, s.right), top := Min(reg.top, s.top))
    case BinaryBound(v, k, value) => SetBound(s, v, k, value)
  }

  /** `decision.cancel(node)`: objective-space decisions leave nothing to
      undo; a bound decision restores the bound's initial value (the
      `previousValue` that `apply` records is 1.0 for an upper bound and 0.0
      for a lower bound). */
  function Cancel(s: SearchState, d: Decision): SearchState {
    match d
    case ObjectiveSpace(_) => s
    case BinaryBound(v, k, _) => SetBound(s, v, k, Default(k))
  }

  /** An objective-space decision only ever lowers the node's bounds, to
      at most the region's, touches no variable bound, is idempotent, and
      its cancel does nothing. */
  lemma ObjectiveSpaceApply(s: SearchState, reg: Region)
    ensures var t := Apply(s, ObjectiveSpace(reg));
      && t.right <= s.right && t.right <= reg.right && (t.right == s.right || t.right == reg.right)
      && t.top <= s.top && t.top <= reg.top && (t.top == s.top || t.top == reg.top)
      && t.lbs == s.lbs && t.ubs == s.ubs
      && Apply(t, ObjectiveSpace(reg)) == t
      && Cancel(t, ObjectiveSpace(reg)) == t
  {
  }

  /** Applying then cancelling a bound decision leaves that bound at its
      initial value and changes nothing else. */
  lemma BinaryBoundRoundTrip(s: SearchState, v: nat, k: BoundKind, value: real)
    ensures var t := Cancel(Apply(s, BinaryBound(v, k, value)), BinaryBound(v, k, value));
      && BoundOf(Apply(s, BinaryBound(v, k, value)), v, k) == value
      && BoundOf(t, v, k) == Default(k)
      && t.right == s.right && t.top == s.top
      && forall w, l :: (w != v || l != k) ==> BoundOf(t, w, l) == BoundOf(s, w, l)
  {
  }

  /** Some decision of `ds` is on bound `k` of variable `v`. */
  predicate Touched(ds: seq<Decision>, v: nat, k: BoundKind) {
    exists i :: 0 <= i < |ds| && ds[i].BinaryBound? && ds[i].variable == v && ds[i].kind == k
  }

  lemma TouchedSnoc(ds: seq<Decision>, d: Decision, v: nat, k: BoundKind)
    ensures Touched(ds + [d], v, k) <==> Touched(ds, v, k) || (d.BinaryBound? && d.variable == v && d.kind == k)
  {
    if Touched(ds, v, k) {
      var i :| 0 <= i < |ds| && ds[i].BinaryBound? && ds[i].variable == v && ds[i].kind == k;
      assert (ds + [d])[i] == ds[i];
    }
    if d.BinaryBound? && d.variable == v && d.kind == k {
      assert (ds + [d])[|ds|] == d;
    }
    if Touched(ds + [d], v, k) {
      var i :| 0 <= i < |ds| + 1 && (ds + [d])[i].BinaryBound? && (ds + [d])[i].variable == v && (ds + [d])[i].kind == k;
      if i < |ds| {
        assert (ds + [d])[i] == ds[i];
      }
    }
  }

  /** Applying decisions leaves every bound no decision is about alone. */
  lemma {:induction false} ApplyAllUntouched(s: SearchState, ds: seq<Decision>, v: nat, k: BoundKind)
    requires !Touched(ds, v, k)
    ensures BoundOf(ApplyAll(s, ds, Apply), v, k) == BoundOf(s, v, k)
    decreases |ds|
  {
    if |ds| > 0 {
      var n := |ds|;
      assert ds == ds[..n - 1] + [ds[n - 1]];
      TouchedSnoc(ds[..n - 1], ds[n - 1], v, k);
      ApplyAllUntouched(s, ds[..n - 1], v, k);
    }
  }

  /** Cancelling decisions resets every bound some decision is about to its
      initial value, and leaves the others alone. */
  lemma {:induction false} CancelAllResets(s: SearchState, ds: seq<Decision>, v: nat, k: BoundKind)
    ensures BoundOf(CancelAll(s, ds, Cancel), v, k) == if Touched(ds, v, k) then Default(k) else BoundOf(s, v, k)
    decreases |ds|
  {
    if |ds| > 0 {
      var n := |ds|;
      var d := ds[n - 1];
      assert ds == ds[..n - 1] + [d];
      TouchedSnoc(ds[..n - 1], d, v, k);
      CancelAllResets(Cancel(s, d), ds[..n - 1], v, k);
    }
  }

  /** Every variable bound is at its initial value. */
  ghost predicate AtDefaults(s: SearchState) {
    forall v, k :: BoundOf(s, v, k) == Default(k)
  }

  /** Processing a node (apply all its decisions, then cancel them in
      reverse order) leaves the lp's variable bounds as it found them. */
  lemma ApplyCancelRestoresLp(s: SearchState, ds: seq<Decision>)
    requires AtDefaults(s)
    ensures AtDefaults(CancelAll(ApplyAll(s, ds, Apply), ds, Cancel))
  {
    forall v, k
      ensures BoundOf(CancelAll(ApplyAll(s, ds, Apply), ds, Cancel), v, k) == Default(k)
    {
      CancelAllResets(ApplyAll(s, ds, Apply), ds, v, k);
      if !Touched(ds, v, k) {
        ApplyAllUntouched(s, ds, v, k);
      }
    }
  }

  /** The node bounds after applying decisions are the minimum of the
      starting bounds and the bounds of every objective-space decision. */
  lemma {:induction false} ApplyAllBounds(s: SearchState, ds: seq<Decision>)
    ensures var t := ApplyAll(s, ds, Apply);
      && t.right <= s.right && t.top <= s.top
      && (forall i :: 0 <= i < |ds| && ds[i].ObjectiveSpace? ==> t.right <= ds[i].region.right && t.top <= ds[i].region.top)
      && (t.right == s.right || exists i :: 0 <= i < |ds| && ds[i].ObjectiveSpace? && t.right == ds[i].region.right)
      && (t.top == s.top || exists i :: 0 <= i < |ds| && ds[i].ObjectiveSpace? && t.top == ds[i].region.top)
    decreases |ds|
  {
    if |ds| > 0 {
      var n := |ds|;
      ApplyAllBounds(s, ds[..n - 1]);
      assert forall i :: 0 <= i < n - 1 ==> ds[..n - 1][i] == ds[i];
    }
  }

  /** Bounds already below every objective-space decision are unchanged by
      applying the decisions. */
  lemma {:induction false} ApplyAllKeepsSmallerBounds(s: SearchState, ds: seq<Decision>)
    requires forall i :: 0 <= i < |ds| && ds[i].ObjectiveSpace? ==> s.right <= ds[i].region.right && s.top <= ds[i].region.top
    ensures ApplyAll(s, ds, Apply).right == s.right && ApplyAll(s, ds, Apply).top == s.top
    decreases |ds|
  {
    if |ds| > 0 {
      var n := |ds|;
      assert forall i :: 0 <= i < n - 1 ==> ds[..n - 1][i] == ds[i];
      ApplyAllKeepsSmallerBounds(s, ds[..n - 1]);
    }
  }

  /** Re-applying a node's decisions does not move its bounds again. */
  lemma ApplyAllIdempotentOnBounds(s: SearchState, ds: seq<Decision>)
    ensures ApplyAll(ApplyAll(s, ds, Apply), ds, Apply).right == ApplyAll(s, ds, Apply).right
    ensures ApplyAll(ApplyAll(s, ds, Apply), ds, Apply).top == ApplyAll(s, ds, Apply).top
  {
    ApplyAllBounds(s, ds);
    ApplyAllKeepsSmallerBounds(ApplyAll(s, ds, Apply), ds);
  }

  /** The node as `applyBranchingDecisions()` leaves it: its box capped by
      every objective-space decision it carries. The bound decisions act on
      the lp, which lives in the bound oracle, and cancelling them leaves
      the node's box as it is. */
  function Narrowed(node: Node<Decision>): (r: Node<Decision>)
    ensures r.decisions == node.decisions && r.depth == node.depth
    ensures r.right <= node.right && r.top <= node.top
    ensures forall i :: 0 <= i < |node.decisions| && node.decisions[i].ObjectiveSpace? ==>
      r.right <= node.decisions[i].region.right && r.top <= node.decisions[i].region.top
    ensures r.right == node.right ||
      exists i :: 0 <= i < |node.decisions| && node.decisions[i].ObjectiveSpace? && r.right == node.decisions[i].region.right
    ensures r.top == node.top ||
      exists i :: 0 <= i < |node.decisions| && node.decisions[i].ObjectiveSpace? && r.top == node.decisions[i].region.top
  {
    var b := ApplyAll(SearchState(node.right, node.top, map[], map[]), node.decisions, Apply);
    ApplyAllBounds(SearchState(node.right, node.top, map[], map[]), node.decisions);
    node.(right := b.right, top := b.top)
  }

  // ---------------------------------------------------------------------
  // Child nodes

  /** One child of `node` for a branch on the sub-lower-bound set `slb`:
      bounds capped by the set's right and top, one more decision, one level
      deeper.  `right()`/`top()` of an empty set raise `IndexError`. */
  function Child(node: Node<Decision>, slb: seq<Segment>, branch: Decision): (r: Fallible<Node<Decision>>)
    ensures r.Ok? <==> |slb| > 0
    ensures r.Raises? ==> r.error == IndexError
    ensures r.Ok? ==>
      && r.value.right <= node.right && r.value.right <= slb[|slb| - 1].right
      && (r.value.right == node.right || r.value.right == slb[|slb| - 1].right)
      && r.value.top <= node.top && r.value.top <= slb[0].top
      && (r.value.top == node.top || r.value.top == slb[0].top)
      && r.value.decisions == node.decisions + [branch]
      && r.value.depth == node.depth + 1
  {
    match (Right(slb), Top(slb))
    case (Ok(right), Ok(top)) => Ok(Node(Min(node.right, right), Min(node.top, top), node.decisions + [branch], node.depth + 1))
    case (Raises(e), _) => Raises(e)
    case (_, Raises(e)) => Raises(e)
  }

  /** A child never scores higher than its parent when the bounds are
      non-negative. */
  lemma ChildScoreBelowParent(node: Node<Decision>, slb: seq<Segment>, branch: Decision)
    requires |slb| > 0 && node.right >= 0.0 && node.top >= 0.0
    requires slb[|slb| - 1].right >= 0.0 && slb[0].top >= 0.0
    ensures Child(node, slb, branch).Ok? && Child(node, slb, branch).value.Score() <= node.Score()
  {
    ScoreMonotone(node, Child(node, slb, branch).value);
  }

  /** A brancher of the search: by variable score, or in objective space. */
  datatype Brancher = Priority(rule: ScoreRule) | ObjectiveSpaceBrancher

  /** `brancher.branch(slb)`; the candidates of a set come from its
      recorded variable values (`getVarValues`), passed as `varValues`. */
  function Branch(cfg: Config, b: Brancher, slb: seq<Segment>, varValues: seq<Segment> -> seq<Candidate>)
    : Option<seq<Decision>>
  {
    match b
    case Priority(rule) => Some(GenBranches(rule, varValues(slb)))
    case ObjectiveSpaceBrancher => ObjectiveSpaceBranches(cfg, slb)
  }

  /** The first non-empty answer of `bs` in order; a `None` answer reached
      before it raises `TypeError` (the `len(None)` of the source). */
  function FirstNonEmpty<B>(bs: seq<B>, answer: B -> Option<seq<Decision>>): (r: Fallible<seq<Decision>>)
    ensures r.Raises? ==> r.error == TypeError
    decreases |bs|
  {
    if |bs| == 0 then Ok([])
    else
      match answer(bs[0])
      case None => Raises(TypeError)
      case Some(ds) => if |ds| > 0 then Ok(ds) else FirstNonEmpty(bs[1..], answer)
  }

  /** The index of the member whose answer `FirstNonEmpty` returns: every
      earlier member answered with no branches. */
  lemma {:induction false} FirstNonEmptyWitness<B>(bs: seq<B>, answer: B -> Option<seq<Decision>>) returns (k: int)
    requires FirstNonEmpty(bs, answer).Ok? && FirstNonEmpty(bs, answer).value != []
    ensures 0 <= k < |bs|
    ensures answer(bs[k]) == Some(FirstNonEmpty(bs, answer).value)
    ensures forall j :: 0 <= j < k ==> answer(bs[j]) == Some([])
    decreases |bs|
  {
    var o := answer(bs[0]);
    if o.Some? && |o.value| > 0 {
      k := 0;
    } else {
      var tail := bs[1..];
      assert FirstNonEmpty(bs, answer) == FirstNonEmpty(tail, answer);
      var i := FirstNonEmptyWitness(tail, answer);
      k := i + 1;
      assert bs[k] == tail[i];
      assert forall j :: 1 <= j < k ==> bs[j] == tail[j - 1];
    }
  }

  /** No branches at all exactly when every member answers with none. */
  lemma {:induction false} FirstNonEmptyNone<B>(bs: seq<B>, answer: B -> Option<seq<Decision>>)
    ensures FirstNonEmpty(bs, answer) == Ok([]) <==> forall j :: 0 <= j < |bs| ==> answer(bs[j]) == Some([])
    decreases |bs|
  {
    if |bs| > 0 {
      var tail := bs[1..];
      FirstNonEmptyNone(tail, answer);
      assert forall j :: 1 <= j < |bs| ==> bs[j] == tail[j - 1];
    }
  }

  /** The branches of the first brancher that yields any; `len(None)` on the
      answer of a switched-off objective-space brancher raises `TypeError`. */
  function FirstBranches(cfg: Config, branchers: seq<Brancher>, slb: seq<Segment>,
                         varValues: seq<Segment> -> seq<Candidate>): (r: Fallible<seq<Decision>>)
    ensures r.Raises? ==> r.error == TypeError
  {
    FirstNonEmpty(branchers, b => Branch(cfg, b, slb, varValues))
  }

  /** Only the first brancher that yields branches is used: the result is
      its branches, every earlier brancher yielded none, and no branches at
      all means that no brancher yielded any. */
  lemma FirstBranchesIsFirst(cfg: Config, branchers: seq<Brancher>, slb: seq<Segment>,
                             varValues: seq<Segment> -> seq<Candidate>)
    ensures var r := FirstBranches(cfg, branchers, slb, varValues);
      r.Ok? && r.value != [] ==> exists k :: (0 <= k < |branchers| &&
        Branch(cfg, branchers[k], slb, varValues) == Some(r.value) &&
        forall j :: 0 <= j < k ==> Branch(cfg, branchers[j], slb, varValues) == Some([]))
    ensures FirstBranches(cfg, branchers, slb, varValues) == Ok([]) <==>
      forall j :: 0 <= j < |branchers| ==> Branch(cfg, branchers[j], slb, varValues) == Some([])
  {
    var answer := b => Branch(cfg, b, slb, varValues);
    var r := FirstBranches(cfg, branchers, slb, varValues);
    if r.Ok? && r.value != [] {
      var k := FirstNonEmptyWitness(branchers, answer);
    }
    FirstNonEmptyNone(branchers, answer);
  }

  /** The children of one sub-lower-bound set, one per branch. */
  function ChildrenFor(node: Node<Decision>, slb: seq<Segment>, branches: seq<Decision>)
    : (r: Fallible<seq<Node<Decision>>>)
    ensures r.Ok? ==> |r.value| == |branches|
    ensures r.Ok? ==> forall i :: 0 <= i < |branches| ==> Child(node, slb, branches[i]) == Ok(r.value[i])
    ensures |branches| > 0 && |slb| > 0 ==> r.Ok?
    decreases |branches|
  {
    if |branches| == 0 then Ok([])
    else
      match Child(node, slb, branches[0])
      case Raises(e) => Raises(e)
      case Ok(c) =>
        match ChildrenFor(node, slb, branches[1..])
        case Raises(e) => Raises(e)
        case Ok(cs) => Ok([c] + cs)
  }

  /** The children pushed for the sub-lower-bound sets, in order. */
  function Children(cfg: Config, node: Node<Decision>, subLBs: seq<seq<Segment>>, branchers: seq<Brancher>,
                    varValues: seq<Segment> -> seq<Candidate>): (r: Fallible<seq<Node<Decision>>>)
    ensures r.Ok? ==> forall c :: c in r.value ==>
      && c.depth == node.depth + 1 && |c.decisions| == |node.decisions| + 1
      && c.decisions[..|node.decisions|] == node.decisions
      && c.right <= node.right && c.top <= node.top
    decreases |subLBs|
  {
    if |subLBs| == 0 then Ok([])
    else
      match FirstBranches(cfg, branchers, subLBs[0], varValues)
      case Raises(e) => Raises(e)
      case Ok(bs) =>
        match ChildrenFor(node, subLBs[0], bs)
        case Raises(e) => Raises(e)
        case Ok(cs) =>
          match Children(cfg, node, subLBs[1..], branchers, varValues)
          case Raises(e) => Raises(e)
          case Ok(more) =>
            assert forall c :: c in cs ==> exists i :: 0 <= i < |bs| && Child(node, subLBs[0], bs[i]) == Ok(c);
            Ok(cs + more)
  }

  /** The part of the search loop after bounding a node: a leaf is
      fathomed; otherwise the set is split when objective-space branching is
      on, and the children are built. */
  function Expand(cfg: Config, node: Node<Decision>, lb: seq<Segment>, branchers: seq<Brancher>,
                  varValues: seq<Segment> -> seq<Candidate>): (r: Fallible<seq<Node<Decision>>>)
    ensures IsLeaf(lb) ==> r == Ok([])
    ensures !cfg.objectiveSpaceBranching && !IsLeaf(lb) ==> r == Children(cfg, node, [lb], branchers, varValues)
  {
    if IsLeaf(lb) then Ok([])
    else if !cfg.objectiveSpaceBranching then Children(cfg, node, [lb], branchers, varValues)
    else
      match Split(cfg, lb)
      case Raises(e) => Raises(e)
      case Ok(subLBs) => Children(cfg, node, subLBs, branchers, varValues)
  }

  /** The recorded values the branchers see for the sub-sets of `split` as
      written: each sub-set's `metaData` is a closure over the loop
      variable `metaDataForPoint`, which Python binds late, so once there are
      several regions every sub-set reads the dict of the last region. */
  function SharedValues(subLBs: seq<seq<Segment>>, varValues: seq<Segment> -> seq<Candidate>)
    : seq<Segment> -> seq<Candidate>
  {
    if |subLBs| > 1 then (s: seq<Segment>) => varValues(subLBs[|subLBs| - 1]) else varValues
  }

  /** `Expand` as written: the sub-sets of a split are branched on the values
      `SharedValues` hands out. Without a split it agrees with `Expand`. */
  function ExpandAsWritten(cfg: Config, node: Node<Decision>, lb: seq<Segment>, branchers: seq<Brancher>,
                           varValues: seq<Segment> -> seq<Candidate>): (r: Fallible<seq<Node<Decision>>>)
    ensures !cfg.objectiveSpaceBranching || IsLeaf(lb) ==> r == Expand(cfg, node, lb, branchers, varValues)
    ensures Split(cfg, lb).Ok? && |Split(cfg, lb).value| <= 1 ==> r == Expand(cfg, node, lb, branchers, varValues)
  {
    if IsLeaf(lb) then Ok([])
    else if !cfg.objectiveSpaceBranching then Children(cfg, node, [lb], branchers, varValues)
    else
      match Split(cfg, lb)
      case Raises(e) => Raises(e)
      case Ok(subLBs) => Children(cfg, node, subLBs, branchers, SharedValues(subLBs, varValues))
  }

  /** Every brancher is a priority brancher, and none finds an eligible
      candidate among `cands`. */
  predicate OffersNothing(branchers: seq<Brancher>, cands: seq<Candidate>) {
    forall j :: 0 <= j < |branchers| ==>
      branchers[j].Priority? && forall k :: 0 <= k < |cands| ==> !Eligible(branchers[j].rule, cands[k])
  }

  /** When no set's values offer a candidate, no child is built. */
  lemma {:induction false} NoCandidatesNoChildren(cfg: Config, node: Node<Decision>, subLBs: seq<seq<Segment>>,
                                                  branchers: seq<Brancher>, varValues: seq<Segment> -> seq<Candidate>)
    requires forall s :: OffersNothing(branchers, varValues(s))
    ensures Children(cfg, node, subLBs, branchers, varValues) == Ok([])
    decreases |subLBs|
  {
    if |subLBs| > 0 {
      assert OffersNothing(branchers, varValues(subLBs[0]));
      forall j | 0 <= j < |branchers|
        ensures Branch(cfg, branchers[j], subLBs[0], varValues) == Some([])
      {
      }
      FirstBranchesIsFirst(cfg, branchers, subLBs[0], varValues);
      NoCandidatesNoChildren(cfg, node, subLBs[1..], branchers, varValues);
      var none: seq<Node<Decision>> := [];
      assert none + none == none;
    }
  }

  /** As written, a split node whose last region offers no candidate is
      fathomed whole, whatever the values of its other regions. */
  lemma AsWrittenFollowsLastRegion(cfg: Config, node: Node<Decision>, lb: seq<Segment>, branchers: seq<Brancher>,
                                   varValues: seq<Segment> -> seq<Candidate>)
    requires cfg.objectiveSpaceBranching && !IsLeaf(lb)
    requires Split(cfg, lb).Ok? && |Split(cfg, lb).value| > 1
    requires OffersNothing(branchers, varValues(Split(cfg, lb).value[|Split(cfg, lb).value| - 1]))
    ensures ExpandAsWritten(cfg, node, lb, branchers, varValues) == Ok([])
  {
    var subLBs := Split(cfg, lb).value;
    NoCandidatesNoChildren(cfg, node, subLBs, branchers, SharedValues(subLBs, varValues));
  }

  /** Values under which only the first of two sets has an eligible
      candidate: variable 0 takes 0.5 there and 1.0 elsewhere. */
  function FirstSetFractional(first: seq<Segment>): seq<Segment> -> seq<Candidate> {
    (s: seq<Segment>) => if s == first then [Candidate(0, 0, [0.5])] else [Candidate(0, 0, [1.0])]
  }

  /** Under `ClosestToOne`, a variable recorded at 0.5 is eligible and one
      recorded at 1.0 is not. */
  lemma HalfIsEligible()
    ensures Eligible(ClosestToOne, Candidate(0, 0, [0.5]))
    ensures !Eligible(ClosestToOne, Candidate(0, 0, [1.0]))
  {
    var whole: Recorded := [1.0];
    var half: Recorded := [0.5];
    assert Util.ListAvg(whole) == 1.0;
    assert Util.ListAvg(half) == 0.5;
    assert ClosestToOneScore(half) == 0.5;
  }

  /** Two regions, the first with a fractional variable: as written no child
      is built at all, whereas branching each region on its own values
      builds the two children of the first region. */
  lemma SharedValuesDropsRegion(cfg: Config, node: Node<Decision>, seg0: Segment, seg1: Segment)
    requires seg0 != seg1
    ensures var subLBs := [[seg0], [seg1]];
      Children(cfg, node, subLBs, [Priority(ClosestToOne)], SharedValues(subLBs, FirstSetFractional([seg0]))) == Ok([])
    ensures var subLBs := [[seg0], [seg1]];
      && Children(cfg, node, subLBs, [Priority(ClosestToOne)], FirstSetFractional([seg0])).Ok?
      && |Children(cfg, node, subLBs, [Priority(ClosestToOne)], FirstSetFractional([seg0])).value| == 2
  {
    HalfIsEligible();
    SharedValuesNothing(cfg, node, seg0, seg1);
    OwnValuesTwoChildren(cfg, node, seg0, seg1);
  }

  lemma SharedValuesNothing(cfg: Config, node: Node<Decision>, seg0: Segment, seg1: Segment)
    requires seg0 != seg1 && !Eligible(ClosestToOne, Candidate(0, 0, [1.0]))
    ensures var subLBs := [[seg0], [seg1]];
      Children(cfg, node, subLBs, [Priority(ClosestToOne)], SharedValues(subLBs, FirstSetFractional([seg0]))) == Ok([])
  {
    var subLBs := [[seg0], [seg1]];
    var vv := SharedValues(subLBs, FirstSetFractional([seg0]));
    assert forall s :: vv(s) == [Candidate(0, 0, [1.0])];
    NoCandidatesNoChildren(cfg, node, subLBs, [Priority(ClosestToOne)], vv);
  }

  lemma OwnValuesTwoChildren(cfg: Config, node: Node<Decision>, seg0: Segment, seg1: Segment)
    requires seg0 != seg1 && Eligible(ClosestToOne, Candidate(0, 0, [0.5]))
    requires !Eligible(ClosestToOne, Candidate(0, 0, [1.0]))
    ensures var subLBs := [[seg0], [seg1]];
      && Children(cfg, node, subLBs, [Priority(ClosestToOne)], FirstSetFractional([seg0])).Ok?
      && |Children(cfg, node, subLBs, [Priority(ClosestToOne)], FirstSetFractional([seg0])).value| == 2
  {
    var subLBs := [[seg0], [seg1]];
    var vv := FirstSetFractional([seg0]);
    var bs := [Priority(ClosestToOne)];
    assert vv([seg0]) == [Candidate(0, 0, [0.5])];
    assert vv([seg1]) == [Candidate(0, 0, [1.0])];
    var ds := GenBranches(ClosestToOne, vv([seg0]));
    assert |ds| == 2;
    assert FirstBranches(cfg, bs, [seg0], vv) == Ok(ds);
    assert ChildrenFor(node, [seg0], ds).Ok?;
    assert FirstBranches(cfg, bs, [seg1], vv) == Ok([]);
    assert subLBs[1..] == [[seg1]];
    assert Children(cfg, node, [[seg1]], bs, vv) == Ok([]) by {
      var none: seq<Node<Decision>> := [];
      assert [[seg1]][0] == [seg1] && [[seg1]][1..] == [];
      assert ChildrenFor(node, [seg1], []) == Ok(none);
      assert Children(cfg, node, [], bs, vv) == Ok(none);
      assert none + none == none;
    }
  }

  /** Branching each region on its own values, every region's branches
      become children: the evidently intended reading of `split`. */
  lemma {:induction false} ChildrenBranchEveryRegion(cfg: Config, node: Node<Decision>, subLBs: seq<seq<Segment>>,
                                                     branchers: seq<Brancher>, varValues: seq<Segment> -> seq<Candidate>,
                                                     i: nat)
    requires Children(cfg, node, subLBs, branchers, varValues).Ok? && i < |subLBs|
    ensures FirstBranches(cfg, branchers, subLBs[i], varValues).Ok?
    ensures var bs := FirstBranches(cfg, branchers, subLBs[i], varValues).value;
      forall k :: 0 <= k < |bs| ==>
        Child(node, subLBs[i], bs[k]).Ok? &&
        Child(node, subLBs[i], bs[k]).value in Children(cfg, node, subLBs, branchers, varValues).value
    decreases |subLBs|
  {
    if i == 0 {
      var bs := FirstBranches(cfg, branchers, subLBs[0], varValues).value;
      var cs := ChildrenFor(node, subLBs[0], bs).value;
      var more := Children(cfg, node, subLBs[1..], branchers, varValues).value;
      assert Children(cfg, node, subLBs, branchers, varValues).value == cs + more;
      forall k | 0 <= k < |bs|
        ensures Child(node, subLBs[0], bs[k]) == Ok((cs + more)[k])
      {
      }
    } else {
      ChildrenBranchEveryRegion(cfg, node, subLBs[1..], branchers, varValues, i - 1);
      var bs := FirstBranches(cfg, branchers, subLBs[0], varValues).value;
      var cs := ChildrenFor(node, subLBs[0], bs).value;
      var more := Children(cfg, node, subLBs[1..], branchers, varValues).value;
      assert Children(cfg, node, subLBs, branchers, varValues).value == cs + more;
      assert subLBs[1..][i - 1] == subLBs[i];
    }
  }

  /** Every child `Expand` builds is one level deeper, extends the node's
      decisions and lies in the node's box. */
  lemma ExpandChildren(cfg: Config, node: Node<Decision>, lb: seq<Segment>, branchers: seq<Brancher>,
                       varValues: seq<Segment> -> seq<Candidate>)
    requires Expand(cfg, node, lb, branchers, varValues).Ok?
    ensures forall c :: c in Expand(cfg, node, lb, branchers, varValues).value ==>
      && c.depth == node.depth + 1
      && |c.decisions| == |node.decisions| + 1 && c.decisions[..|node.decisions|] == node.decisions
      && c.right <= node.right && c.top <= node.top
  {
  }

  // ---------------------------------------------------------------------
  // The search loop

  /** `TreeSearch(strategy)`: the queue discipline, or exit code 8 for an
      unknown strategy. */
  function QueueMode(strategy: string): (r: Fallible<FlexibleQueue.Mode>)
    ensures r.Raises? <==> strategy !in {"breadth", "depth", "best"}
    ensures r.Raises? ==> r.error == Exit(8)
  {
    if strategy == "breadth" then Ok(FlexibleQueue.Fifo)
    else if strategy == "depth" then Ok(FlexibleQueue.Lifo)
    else if strategy == "best" then Ok(FlexibleQueue.Best)
    else Raises(Exit(8))
  }

  /** Pushes nodes in order, each with its score. */
  function PushAll(q: FlexibleQueue.Queue<Node<Decision>>, nodes: seq<Node<Decision>>)
    : (r: FlexibleQueue.Queue<Node<Decision>>)
    ensures FlexibleQueue.Len(r) == FlexibleQueue.Len(q) + |nodes| && r.mode == q.mode
    decreases |nodes|
  {
    if |nodes| == 0 then q
    else PushAll(FlexibleQueue.Push(q, nodes[0].Score(), nodes[0]), nodes[1..])
  }

  /** One iteration of the search loop: pop a node, apply its decisions,
      bound it (the lp and the bounder are the parameter `bound`), expand
      it and push its children. */
  function SearchStep(cfg: Config, q: FlexibleQueue.Queue<Node<Decision>>, branchers: seq<Brancher>,
                      bound: Node<Decision> -> seq<Segment>, varValues: seq<Segment> -> seq<Candidate>)
    : (r: Fallible<FlexibleQueue.Queue<Node<Decision>>>)
    requires !q.mode.Unknown? && FlexibleQueue.Len(q) > 0
    ensures r.Ok? ==> FlexibleQueue.Len(r.value) >= FlexibleQueue.Len(q) - 1 && r.value.mode == q.mode
  {
    match FlexibleQueue.Pop(q)
    case Popped(popped, rest) =>
      var node := Narrowed(popped);
      match Expand(cfg, node, bound(node), branchers, varValues)
      case Raises(e) => Raises(e)
      case Ok(children) => Ok(PushAll(rest, children))
  }

  /** One iteration removes the popped node and pushes its children: each
      one level deeper, extending the node's decisions, and inside the box
      the node's objective-space decisions narrowed it to. */
  lemma SearchStepChildren(cfg: Config, q: FlexibleQueue.Queue<Node<Decision>>, branchers: seq<Brancher>,
                           bound: Node<Decision> -> seq<Segment>, varValues: seq<Segment> -> seq<Candidate>)
    requires !q.mode.Unknown? && FlexibleQueue.Len(q) > 0
    requires SearchStep(cfg, q, branchers, bound, varValues).Ok?
    ensures FlexibleQueue.Pop(q).Popped?
    ensures exists cs: seq<Node<Decision>> :: (
      && SearchStep(cfg, q, branchers, bound, varValues).value == PushAll(FlexibleQueue.Pop(q).rest, cs)
      && FlexibleQueue.Len(SearchStep(cfg, q, branchers, bound, varValues).value) == FlexibleQueue.Len(q) - 1 + |cs|
      && forall c :: c in cs ==> ChildOf(FlexibleQueue.Pop(q).item, c))
  {
    var p := FlexibleQueue.Pop(q);
    var node := Narrowed(p.item);
    var cs := Expand(cfg, node, bound(node), branchers, varValues).value;
    ExpandChildren(cfg, node, bound(node), branchers, varValues);
    forall c | c in cs
      ensures ChildOf(p.item, c)
    {
    }
    assert SearchStep(cfg, q, branchers, bound, varValues).value == PushAll(p.rest, cs);
  }

  /** `c` is a child of `parent` as the search builds it: one level deeper,
      one decision more, and inside the parent's box and every region the
      parent's objective-space decisions name. */
  predicate ChildOf(parent: Node<Decision>, c: Node<Decision>) {
    && c.depth == parent.depth + 1
    && |c.decisions| == |parent.decisions| + 1 && c.decisions[..|parent.decisions|] == parent.decisions
    && c.right <= parent.right && c.top <= parent.top
    && forall i :: 0 <= i < |parent.decisions| && parent.decisions[i].ObjectiveSpace? ==>
         c.right <= parent.decisions[i].region.right && c.top <= parent.decisions[i].region.top
  }

  /** A node whose lower bound set is a leaf is fathomed: the queue
      shrinks by one. */
  lemma LeafIsFathomed(cfg: Config, q: FlexibleQueue.Queue<Node<Decision>>, branchers: seq<Brancher>,
                       bound: Node<Decision> -> seq<Segment>, varValues: seq<Segment> -> seq<Candidate>)
    requires !q.mode.Unknown? && FlexibleQueue.Len(q) > 0
    requires FlexibleQueue.Pop(q).Popped? && IsLeaf(bound(Narrowed(FlexibleQueue.Pop(q).item)))
    ensures SearchStep(cfg, q, branchers, bound, varValues).Ok?
    ensures FlexibleQueue.Len(SearchStep(cfg, q, branchers, bound, varValues).value) == FlexibleQueue.Len(q) - 1
  {
  }

  /** `search(node, ub)`: runs until the queue is empty; `None` when `fuel`
      iterations do not suffice. */
  function Search(cfg: Config, q: FlexibleQueue.Queue<Node<Decision>>, branchers: seq<Brancher>,
                  bound: Node<Decision> -> seq<Segment>, varValues: seq<Segment> -> seq<Candidate>, fuel: nat)
    : (r: Option<Fallible<()>>)
    requires !q.mode.Unknown?
    ensures FlexibleQueue.Len(q) == 0 ==> r == Some(Ok(()))
    decreases fuel
  {
    if FlexibleQueue.IsEmpty(q) then Some(Ok(()))
    else if fuel == 0 then None
    else
      match SearchStep(cfg, q, branchers, bound, varValues)
      case Raises(e) => Some(Raises(e))
      case Ok(q') => Search(cfg, q', branchers, bound, varValues, fuel - 1)
  }
}

=== FILE: upperboundset.dfy ===
/** The upper bound set of `biobab/upperboundset.py`: a list of solutions
    sorted by the first objective whose members do not dominate each other,
    updated one solution at a time with a binary search and a splice. */
module UpperBoundSet {
  import opened Common
  import opened Params
  import opened IntegerSolution

  // ---------------------------------------------------------------------
  // The algorithm as written
  // ---------------------------------------------------------------------

  /** Python's `sols[i]`, where a negative index counts from the end. */
  function PyIndex(sols: seq<Solution>, i: int): (x: Solution)
    requires -|sols| <= i < |sols|
    ensures x in sols
    ensures i >= 0 ==> x == sols[i]
  {
    if i < 0 then sols[|sols| + i] else sols[i]
  }

  predicate StrictlyIncreasingZ1(sols: seq<Solution>) {
    forall i, j :: 0 <= i < j < |sols| ==> sols[i].z1 < sols[j].z1
  }

  /** The binary search loop on the first objective: it keeps two adjacent
      indices whose first objective values enclose `z1`. */
  function Search(sols: seq<Solution>, z1: real, left: int, right: int): (r: (int, int))
    requires 0 <= left < right < |sols|
    ensures left <= r.0 && r.1 == r.0 + 1 && r.1 <= right
    ensures StrictlyIncreasingZ1(sols) && sols[left].z1 < z1 <= sols[right].z1 ==>
      sols[r.0].z1 < z1 <= sols[r.1].z1
    decreases right - left
  {
    if right - left <= 1 then (left, right)
    else
      var middle := (left + right) / 2;
      if sols[middle].z1 == z1 then (middle - 1, middle)
      else if sols[middle].z1 < z1 then Search(sols, z1, middle, right)
      else Search(sols, z1, left, middle)
  }

  /** The pair `(left, right)` computed for a list of at least two solutions:
      the special sub-cases at both ends, then the binary search. */
  function Position(sols: seq<Solution>, z1: real): (r: (int, int))
    requires |sols| >= 2
    ensures -1 <= r.0 && r.1 == r.0 + 1 && r.1 <= |sols|
    ensures r.0 == -1 <==> z1 <= sols[0].z1
    ensures StrictlyIncreasingZ1(sols) ==>
      (r.0 >= 0 ==> sols[r.0].z1 < z1) && (r.1 < |sols| ==> z1 <= sols[r.1].z1)
  {
    var n := |sols|;
    if z1 <= sols[0].z1 then (-1, 0)
    else if z1 == sols[n - 1].z1 then (n - 2, n - 1)
    else if z1 > sols[n - 1].z1 then (n - 1, n)
    else Search(sols, z1, 0, n - 1)
  }

  /** Under strict sorting, `right` splits the list into the members left of
      `z1` and the members at or right of it. */
  lemma PositionSplits(sols: seq<Solution>, z1: real)
    requires |sols| >= 2 && StrictlyIncreasingZ1(sols)
    ensures forall i :: 0 <= i < Position(sols, z1).1 ==> sols[i].z1 < z1
    ensures forall i :: Position(sols, z1).1 <= i < |sols| ==> z1 <= sols[i].z1
  {
    var r := Position(sols, z1);
    forall i | 0 <= i < r.1 ensures sols[i].z1 < z1 {
      if i < r.0 {
        assert sols[i].z1 < sols[r.0].z1;
      }
    }
    forall i | r.1 <= i < |sols| ensures z1 <= sols[i].z1 {
      if r.1 < i {
        assert sols[r.1].z1 < sols[i].z1;
      }
    }
  }

  /** `nDom`: the length of the run of members, starting at index `k`, that
      `s` dominates. */
  function CountDominated(sols: seq<Solution>, s: Solution, k: int): (n: nat)
    requires 0 <= k <= |sols|
    ensures k + n <= |sols|
    ensures forall i :: k <= i < k + n ==> Dominates(s, sols[i])
    ensures k + n == |sols| || !Dominates(s, sols[k + n])
    decreases |sols| - k
  {
    if k < |sols| && Dominates(s, sols[k]) then 1 + CountDominated(sols, s, k + 1) else 0
  }

  /** `updateWithSolution`: the list after offering it `s`. It is either left
      unchanged or contains `s`, and it never gains anything else. */
  function Update(sols: seq<Solution>, s: Solution): (r: seq<Solution>)
    ensures r == sols || s in r
    ensures forall x :: x in r ==> x == s || x in sols
    ensures |r| <= |sols| + 1
  {
    if |sols| == 0 then [s]
    else if |sols| == 1 then
      if Dominates(sols[0], s) then sols
      else if Dominates(s, sols[0]) then [s]
      // append, then a stable sort on the first objective
      else if s.z1 < sols[0].z1 then [s, sols[0]]
      else [sols[0], s]
    else
      var pos := Position(sols, s.z1);
      if Dominates(PyIndex(sols, pos.0), s) || (pos.1 < |sols| && Dominates(sols[pos.1], s)) then
        sols
      else
        sols[..pos.0 + 1] + [s] + sols[pos.1 + CountDominated(sols, s, pos.1)..]
  }

  // ---------------------------------------------------------------------
  // The reference definition and the invariant
  // ---------------------------------------------------------------------

  predicate DominatedBySome(sols: seq<Solution>, s: Solution) {
    exists i :: 0 <= i < |sols| && Dominates(sols[i], s)
  }

  /** The members that `s` does not dominate, in their order. */
  function Survivors(sols: seq<Solution>, s: Solution): (r: seq<Solution>)
    ensures |r| <= |sols|
  {
    if |sols| == 0 then []
    else (if Dominates(s, sols[0]) then [] else [sols[0]]) + Survivors(sols[1..], s)
  }

  /** Inserts `s` before the first member whose first objective is not
      smaller. */
  function InsertByZ1(sols: seq<Solution>, s: Solution): (r: seq<Solution>)
    ensures |r| == |sols| + 1
  {
    if |sols| == 0 then [s]
    else if s.z1 <= sols[0].z1 then [s] + sols
    else [sols[0]] + InsertByZ1(sols[1..], s)
  }

  /** What an update of a non-dominated set means: a dominated solution is
      rejected; otherwise the members it dominates leave and it takes its
      place in the order of the first objective. */
  function UpdateSpec(sols: seq<Solution>, s: Solution): seq<Solution> {
    if DominatedBySome(sols, s) then sols else InsertByZ1(Survivors(sols, s), s)
  }

  predicate AllWellFormed(cfg: Config, sols: seq<Solution>) {
    forall i :: 0 <= i < |sols| ==> WellFormed(cfg, sols[i])
  }

  /** Two members in list order: sorted by the first objective and neither
      dominating the other. */
  predicate Ordered(a: Solution, b: Solution) {
    a.z1 <= b.z1 && !Dominates(a, b) && !Dominates(b, a)
  }

  /** The invariant of an upper bound set. */
  predicate Frontier(cfg: Config, sols: seq<Solution>) {
    && AllWellFormed(cfg, sols)
    && forall i, j :: 0 <= i < j < |sols| ==> Ordered(sols[i], sols[j])
  }

  /** Strictly increasing first and strictly decreasing second objective. */
  predicate Staircase(sols: seq<Solution>) {
    forall i, j :: 0 <= i < j < |sols| ==> sols[i].z1 < sols[j].z1 && sols[i].z2 > sols[j].z2
  }

  // ---------------------------------------------------------------------
  // Lemmas
  // ---------------------------------------------------------------------

  /** A list of well-formed solutions is an upper bound set exactly when it
      is a staircase. */
  lemma FrontierIsStaircase(cfg: Config, sols: seq<Solution>)
    requires AllWellFormed(cfg, sols)
    ensures Frontier(cfg, sols) <==> Staircase(sols)
  {
    forall i, j | 0 <= i < j < |sols|
      ensures Ordered(sols[i], sols[j]) <==> sols[i].z1 < sols[j].z1 && sols[i].z2 > sols[j].z2
    {
      DominatesIsPareto(cfg, sols[i], sols[j]);
      DominatesIsPareto(cfg, sols[j], sols[i]);
    }
  }

  /** Against a well-formed solution, dominance by or of a member is weak
      Pareto dominance. */
  lemma ParetoAgainst(cfg: Config, sols: seq<Solution>, s: Solution)
    requires AllWellFormed(cfg, sols) && WellFormed(cfg, s)
    ensures forall i :: 0 <= i < |sols| ==> (Dominates(sols[i], s) <==> ParetoLeq(sols[i], s))
    ensures forall i :: 0 <= i < |sols| ==> (Dominates(s, sols[i]) <==> ParetoLeq(s, sols[i]))
  {
    forall i | 0 <= i < |sols|
      ensures Dominates(sols[i], s) <==> ParetoLeq(sols[i], s)
      ensures Dominates(s, sols[i]) <==> ParetoLeq(s, sols[i])
    {
      DominatesIsPareto(cfg, sols[i], s);
      DominatesIsPareto(cfg, s, sols[i]);
    }
  }

  lemma {:induction false} SurvivorsAppend(a: seq<Solution>, b: seq<Solution>, s: Solution)
    ensures Survivors(a + b, s) == Survivors(a, s) + Survivors(b, s)
  {
    if |a| == 0 {
      assert a + b == b;
    } else {
      assert (a + b)[1..] == a[1..] + b;
      SurvivorsAppend(a[1..], b, s);
    }
  }

  lemma {:induction false} SurvivorsKeepAll(a: seq<Solution>, s: Solution)
    requires forall i :: 0 <= i < |a| ==> !Dominates(s, a[i])
    ensures Survivors(a, s) == a
  {
    if |a| > 0 {
      SurvivorsKeepAll(a[1..], s);
    }
  }

  lemma {:induction false} SurvivorsDropAll(a: seq<Solution>, s: Solution)
    requires forall i :: 0 <= i < |a| ==> Dominates(s, a[i])
    ensures Survivors(a, s) == []
  {
    if |a| > 0 {
      SurvivorsDropAll(a[1..], s);
    }
  }

  lemma {:induction false} SurvivorsMembers(a: seq<Solution>, s: Solution)
    ensures forall x :: x in Survivors(a, s) <==> x in a && !Dominates(s, x)
  {
    if |a| > 0 {
      SurvivorsMembers(a[1..], s);
      assert a == [a[0]] + a[1..];
    }
  }

  lemma {:induction false} InsertBetween(a: seq<Solution>, b: seq<Solution>, s: Solution)
    requires forall i :: 0 <= i < |a| ==> a[i].z1 < s.z1
    requires |b| == 0 || s.z1 <= b[0].z1
    ensures InsertByZ1(a + b, s) == a + [s] + b
  {
    if |a| == 0 {
      assert a + b == b;
    } else {
      assert (a + b)[1..] == a[1..] + b;
      InsertBetween(a[1..], b, s);
    }
  }

  lemma {:induction false} InsertByZ1Members(a: seq<Solution>, s: Solution)
    ensures forall x :: x in InsertByZ1(a, s) <==> x == s || x in a
  {
    if |a| > 0 && s.z1 > a[0].z1 {
      InsertByZ1Members(a[1..], s);
      assert a == [a[0]] + a[1..];
    }
  }

  lemma StaircaseInsert(a: seq<Solution>, s: Solution, b: seq<Solution>)
    requires Staircase(a) && Staircase(b)
    requires forall i :: 0 <= i < |a| ==> a[i].z1 < s.z1 && a[i].z2 > s.z2
    requires forall i :: 0 <= i < |b| ==> s.z1 < b[i].z1 && s.z2 > b[i].z2
    ensures Staircase(a + [s] + b)
  {
    var r := a + [s] + b;
    forall i, j | 0 <= i < j < |r| ensures r[i].z1 < r[j].z1 && r[i].z2 > r[j].z2 {
      if j < |a| {
      } else if j == |a| {
        assert r[i] == a[i];
      } else if i < |a| {
        assert r[i] == a[i] && r[j] == b[j - |a| - 1];
      } else if i == |a| {
      } else {
        assert r[i] == b[i - |a| - 1] && r[j] == b[j - |a| - 1];
      }
    }
  }

  /** Facts the general case relies on: a staircase, compared with a
      solution by weak Pareto dominance. */
  predicate ParetoSetting(sols: seq<Solution>, s: Solution) {
    && |sols| >= 2
    && Staircase(sols)
    && (forall i :: 0 <= i < |sols| ==> (Dominates(sols[i], s) <==> ParetoLeq(sols[i], s)))
    && (forall i :: 0 <= i < |sols| ==> (Dominates(s, sols[i]) <==> ParetoLeq(s, sols[i])))
  }

  lemma ParetoSettingHolds(cfg: Config, sols: seq<Solution>, s: Solution)
    requires |sols| >= 2 && Frontier(cfg, sols) && WellFormed(cfg, s)
    ensures ParetoSetting(sols, s)
  {
    FrontierIsStaircase(cfg, sols);
    ParetoAgainst(cfg, sols, s);
  }

  /** The test of the two neighbours at the search position decides whether
      any member dominates `s`. */
  lemma NeighbourCheck(sols: seq<Solution>, s: Solution)
    requires ParetoSetting(sols, s)
    ensures var pos := Position(sols, s.z1);
      Dominates(PyIndex(sols, pos.0), s) || (pos.1 < |sols| && Dominates(sols[pos.1], s))
      <==> DominatedBySome(sols, s)
  {
    var n := |sols|;
    assert StrictlyIncreasingZ1(sols);
    var pos := Position(sols, s.z1);
    var l, r := pos.0, pos.1;
    PositionSplits(sols, s.z1);
    if DominatedBySome(sols, s) {
      var i :| 0 <= i < n && Dominates(sols[i], s);
      if i < r {
        assert l >= 0 && i <= l;
        if i < l {
          assert sols[l].z2 < sols[i].z2;
        }
        assert ParetoLeq(sols[l], s);
      } else {
        assert sols[i].z1 == s.z1;
      }
    }
    if Dominates(PyIndex(sols, l), s) {
      var j := if l < 0 then n + l else l;
      assert Dominates(sols[j], s);
    }
  }

  /** Where the run of dominated members starts and ends, in terms of the
      order of the staircase. */
  lemma SpliceBounds(sols: seq<Solution>, s: Solution, r: int, k: int)
    requires Staircase(sols) && 0 <= r <= k <= |sols|
    requires forall i :: 0 <= i < r ==> sols[i].z1 < s.z1
    requires forall i :: r <= i < |sols| ==> s.z1 <= sols[i].z1
    requires forall i :: 0 <= i < |sols| ==> (Dominates(sols[i], s) <==> ParetoLeq(sols[i], s))
    requires forall i :: 0 <= i < |sols| ==> (Dominates(s, sols[i]) <==> ParetoLeq(s, sols[i]))
    requires !DominatedBySome(sols, s)
    requires k == |sols| || !Dominates(s, sols[k])
    ensures forall i :: 0 <= i < r ==> sols[i].z1 < s.z1 && sols[i].z2 > s.z2
    ensures forall i :: k <= i < |sols| ==> s.z1 < sols[i].z1 && s.z2 > sols[i].z2
  {
    forall i | 0 <= i < r ensures sols[i].z1 < s.z1 && sols[i].z2 > s.z2 {
      assert !Dominates(sols[i], s);
    }
    forall i | k <= i < |sols| ensures s.z1 < sols[i].z1 && s.z2 > sols[i].z2 {
      assert !Dominates(s, sols[k]) && !Dominates(sols[k], s);
      if k < i {
        assert sols[k].z1 < sols[i].z1 && sols[k].z2 > sols[i].z2;
      }
    }
  }

  /** Survivors of a list cut into a kept prefix, a dropped middle and a kept
      suffix. */
  lemma {:induction false} SurvivorsThreeParts(sols: seq<Solution>, s: Solution, r: int, k: int)
    requires 0 <= r <= k <= |sols|
    requires forall i :: 0 <= i < r ==> !Dominates(s, sols[i])
    requires forall i :: r <= i < k ==> Dominates(s, sols[i])
    requires forall i :: k <= i < |sols| ==> !Dominates(s, sols[i])
    ensures Survivors(sols, s) == sols[..r] + sols[k..]
  {
    var pre, mid, post := sols[..r], sols[r..k], sols[k..];
    assert Survivors(pre, s) == pre by {
      assert forall i :: 0 <= i < |pre| ==> pre[i] == sols[i];
      SurvivorsKeepAll(pre, s);
    }
    assert Survivors(mid, s) == [] by {
      assert forall i :: 0 <= i < |mid| ==> mid[i] == sols[r + i];
      SurvivorsDropAll(mid, s);
    }
    assert Survivors(post, s) == post by {
      assert forall i :: 0 <= i < |post| ==> post[i] == sols[k + i];
      SurvivorsKeepAll(post, s);
    }
    assert Survivors(pre + mid, s) == pre by {
      SurvivorsAppend(pre, mid, s);
      assert pre + [] == pre;
    }
    assert sols == (pre + mid) + post;
    SurvivorsAppend(pre + mid, post, s);
  }

  /** When no member dominates `s`, the members `s` dominates are exactly the
      run of `nDom` members from `right`, and the members after it lie to
      the lower right of `s`. */
  lemma SpliceSurvivors(sols: seq<Solution>, s: Solution) returns (r: int, k: int)
    requires ParetoSetting(sols, s) && !DominatedBySome(sols, s)
    ensures r == Position(sols, s.z1).1 && k == r + CountDominated(sols, s, r)
    ensures 0 <= r <= k <= |sols|
    ensures Survivors(sols, s) == sols[..r] + sols[k..]
    ensures forall i :: 0 <= i < r ==> sols[i].z1 < s.z1 && sols[i].z2 > s.z2
    ensures forall i :: k <= i < |sols| ==> s.z1 < sols[i].z1 && s.z2 > sols[i].z2
  {
    assert StrictlyIncreasingZ1(sols);
    PositionSplits(sols, s.z1);
    r := Position(sols, s.z1).1;
    k := r + CountDominated(sols, s, r);
    SpliceBounds(sols, s, r, k);
    SurvivorsThreeParts(sols, s, r, k);
  }

  /** Putting `s` between a prefix left of and above it and a suffix right
      of and below it leaves an upper bound set. */
  lemma SpliceIsFrontier(cfg: Config, sols: seq<Solution>, s: Solution, r: int, k: int)
    requires Frontier(cfg, sols) && WellFormed(cfg, s) && 0 <= r <= k <= |sols|
    requires forall i :: 0 <= i < r ==> sols[i].z1 < s.z1 && sols[i].z2 > s.z2
    requires forall i :: k <= i < |sols| ==> s.z1 < sols[i].z1 && s.z2 > sols[i].z2
    ensures Frontier(cfg, sols[..r] + [s] + sols[k..])
  {
    var pre, post := sols[..r], sols[k..];
    FrontierIsStaircase(cfg, sols);
    StaircaseInsert(pre, s, post);
    var res := pre + [s] + post;
    forall i | 0 <= i < |res| ensures WellFormed(cfg, res[i]) {
      if i < |pre| {
        assert res[i] == sols[i];
      } else if i > |pre| {
        assert res[i] == sols[k + i - |pre| - 1];
      }
    }
    FrontierIsStaircase(cfg, res);
  }

  /** General case, `s` dominated: the list is returned unchanged. */
  lemma UpdateGeneralDominated(cfg: Config, sols: seq<Solution>, s: Solution)
    requires |sols| >= 2 && Frontier(cfg, sols) && WellFormed(cfg, s)
    requires DominatedBySome(sols, s)
    ensures Update(sols, s) == sols
  {
    ParetoSettingHolds(cfg, sols, s);
    NeighbourCheck(sols, s);
  }

  /** General case, `s` not dominated: the splice of the source is the
      sorted insertion of `s` among the survivors. */
  lemma UpdateGeneralInserts(cfg: Config, sols: seq<Solution>, s: Solution)
    requires |sols| >= 2 && Frontier(cfg, sols) && WellFormed(cfg, s)
    requires !DominatedBySome(sols, s)
    ensures Update(sols, s) == InsertByZ1(Survivors(sols, s), s)
    ensures Frontier(cfg, Update(sols, s))
  {
    ParetoSettingHolds(cfg, sols, s);
    NeighbourCheck(sols, s);
    var r, k := SpliceSurvivors(sols, s);
    assert Update(sols, s) == sols[..r] + [s] + sols[k..];
    InsertBetween(sols[..r], sols[k..], s);
    SpliceIsFrontier(cfg, sols, s, r, k);
  }

  /** `updateWithSolution` on an upper bound set does what the reference
      definition says, and the result is again an upper bound set. */
  lemma UpdateCorrect(cfg: Config, sols: seq<Solution>, s: Solution)
    requires Frontier(cfg, sols) && WellFormed(cfg, s)
    ensures Update(sols, s) == UpdateSpec(sols, s)
    ensures Frontier(cfg, Update(sols, s))
  {
    if |sols| == 1 {
      var x := sols[0];
      DominatesIsPareto(cfg, x, s);
      DominatesIsPareto(cfg, s, x);
      if !Dominates(x, s) {
        assert !DominatedBySome(sols, s);
        if !Dominates(s, x) {
          assert s.z1 != x.z1;
          assert [x][1..] == [];
          assert Survivors(sols, s) == [x];
          assert InsertByZ1([x], s) == Update(sols, s);
          FrontierIsStaircase(cfg, Update(sols, s));
        }
      } else {
        assert DominatedBySome(sols, s);
      }
    } else if |sols| >= 2 {
      if DominatedBySome(sols, s) {
        UpdateGeneralDominated(cfg, sols, s);
      } else {
        UpdateGeneralInserts(cfg, sols, s);
      }
    }
  }

  /** Offering the same solution twice changes nothing the second time. */
  lemma UpdateIdempotent(cfg: Config, sols: seq<Solution>, s: Solution)
    requires Frontier(cfg, sols) && WellFormed(cfg, s)
    ensures Update(Update(sols, s), s) == Update(sols, s)
  {
    UpdateCorrect(cfg, sols, s);
    var t := Update(sols, s);
    if !DominatedBySome(sols, s) {
      InsertByZ1Members(Survivors(sols, s), s);
      WellFormedDominanceIsPreorder(cfg, s, s, s);
      var j :| 0 <= j < |t| && t[j] == s;
      assert Dominates(t[j], s);
      UpdateCorrect(cfg, t, s);
    }
  }

  /** Who is in the set after an update: if some member dominates `s`,
      exactly the old members; otherwise `s` and the old members it does not
      dominate. */
  lemma UpdateMembers(cfg: Config, sols: seq<Solution>, s: Solution)
    requires Frontier(cfg, sols) && WellFormed(cfg, s)
    ensures DominatedBySome(sols, s) ==> forall x :: x in Update(sols, s) <==> x in sols
    ensures !DominatedBySome(sols, s) ==>
      forall x :: x in Update(sols, s) <==> x == s || (x in sols && !Dominates(s, x))
  {
    UpdateCorrect(cfg, sols, s);
    SurvivorsMembers(sols, s);
    InsertByZ1Members(Survivors(sols, s), s);
  }

  /** A solution dominated by some member stays dominated by some member
      after any update. */
  lemma UpdateKeepsCoverage(cfg: Config, sols: seq<Solution>, s: Solution, x: Solution)
    requires Frontier(cfg, sols) && WellFormed(cfg, s) && WellFormed(cfg, x)
    requires DominatedBySome(sols, x)
    ensures DominatedBySome(Update(sols, s), x)
  {
    UpdateCorrect(cfg, sols, s);
    if !DominatedBySome(sols, s) {
      var res := Update(sols, s);
      var surv := Survivors(sols, s);
      assert res == InsertByZ1(surv, s);
      InsertByZ1Members(surv, s);
      var i :| 0 <= i < |sols| && Dominates(sols[i], x);
      var y := sols[i];
      var z;
      if Dominates(s, y) {
        WellFormedDominanceIsPreorder(cfg, s, y, x);
        z := s;
      } else {
        SurvivorsMembers(sols, s);
        assert y in surv;
        z := y;
      }
      assert z in res && Dominates(z, x);
      var j :| 0 <= j < |res| && res[j] == z;
      assert Dominates(res[j], x);
    }
  }

  /** An updated set covers the offered solution: some member dominates it. */
  lemma UpdateCovers(cfg: Config, sols: seq<Solution>, s: Solution)
    requires Frontier(cfg, sols) && WellFormed(cfg, s)
    ensures DominatedBySome(Update(sols, s), s)
  {
    UpdateMembers(cfg, sols, s);
    if !DominatedBySome(sols, s) {
      var res := Update(sols, s);
      assert s in res;
      var j :| 0 <= j < |res| && res[j] == s;
      WellFormedDominanceIsPreorder(cfg, s, s, s);
      assert Dominates(res[j], s);
    }
  }

  /** With `left == -1` the source reads `solutions[-1]`, the last member:
      a new first-objective minimum that the last member dominates is
      rejected, whatever the rest of the list holds. */
  lemma LeftOfFirstReadsLast(sols: seq<Solution>, s: Solution)
    requires |sols| >= 2 && s.z1 <= sols[0].z1
    requires Dominates(sols[|sols| - 1], s)
    ensures Update(sols, s) == sols
  {
  }

  /** Offering the solutions of `ss` one after the other. */
  function UpdateAll(sols: seq<Solution>, ss: seq<Solution>): (r: seq<Solution>)
    ensures forall x :: x in r ==> x in sols || x in ss
    decreases |ss|
  {
    if |ss| == 0 then sols else UpdateAll(Update(sols, ss[0]), ss[1..])
  }

  predicate AllCovered(sols: seq<Solution>, ss: seq<Solution>) {
    forall i :: 0 <= i < |ss| ==> DominatedBySome(sols, ss[i])
  }

  /** After offering a sequence of solutions to an upper bound set, the
      result is an upper bound set that covers every earlier member and
      every offered solution. */
  lemma {:induction false} UpdateAllCovers(cfg: Config, sols: seq<Solution>, ss: seq<Solution>)
    requires Frontier(cfg, sols) && AllWellFormed(cfg, ss)
    ensures Frontier(cfg, UpdateAll(sols, ss))
    ensures AllCovered(UpdateAll(sols, ss), sols)
    ensures AllCovered(UpdateAll(sols, ss), ss)
    decreases |ss|
  {
    if |ss| == 0 {
      forall i | 0 <= i < |sols| ensures DominatedBySome(sols, sols[i]) {
        WellFormedDominanceIsPreorder(cfg, sols[i], sols[i], sols[i]);
      }
    } else {
      var s := ss[0];
      var t := Update(sols, s);
      UpdateCorrect(cfg, sols, s);
      UpdateAllCovers(cfg, t, ss[1..]);
      var res := UpdateAll(t, ss[1..]);
      assert res == UpdateAll(sols, ss);
      // everything `t` covers is still covered at the end
      forall x | WellFormed(cfg, x) && DominatedBySome(t, x)
        ensures DominatedBySome(res, x)
      {
        var i :| 0 <= i < |t| && Dominates(t[i], x);
        assert DominatedBySome(t, t[i]) by {
          WellFormedDominanceIsPreorder(cfg, t[i], t[i], t[i]);
        }
        assert AllCovered(res, t);
        var k :| 0 <= k < |res| && Dominates(res[k], t[i]);
        WellFormedDominanceIsPreorder(cfg, res[k], t[i], x);
        assert Dominates(res[k], x);
      }
      forall i | 0 <= i < |sols| ensures DominatedBySome(res, sols[i]) {
        WellFormedDominanceIsPreorder(cfg, sols[i], sols[i], sols[i]);
        UpdateKeepsCoverage(cfg, sols, s, sols[i]);
      }
      forall i | 0 <= i < |ss| ensures DominatedBySome(res, ss[i]) {
        if i == 0 {
          UpdateCovers(cfg, sols, s);
        } else {
          assert ss[i] == ss[1..][i - 1];
        }
      }
    }
  }

  // ---------------------------------------------------------------------
  // filterWith
  // ---------------------------------------------------------------------

  /** The members of `sols`, in order, that no member of `other` dominates. */
  function KeepUndominated(sols: seq<Solution>, other: seq<Solution>): (r: seq<Solution>)
    ensures |r| <= |sols|
  {
    if |sols| == 0 then []
    else (if DominatedBySome(other, sols[0]) then [] else [sols[0]]) + KeepUndominated(sols[1..], other)
  }

  /** `filterWith`: the nested loops of the source, with the early exit of
      the inner loop. */
  method FilterWith(sols: seq<Solution>, other: seq<Solution>) returns (r: seq<Solution>)
    ensures r == KeepUndominated(sols, other)
  {
    r := [];
    var i := 0;
    while i < |sols|
      invariant 0 <= i <= |sols|
      invariant r + KeepUndominated(sols[i..], other) == KeepUndominated(sols, other)
    {
      var good := true;
      var j := 0;
      while j < |other|
        invariant 0 <= j <= |other|
        invariant forall k :: 0 <= k < j ==> !Dominates(other[k], sols[i])
      {
        if Dominates(other[j], sols[i]) {
          good := false;
          break;
        }
        j := j + 1;
      }
      assert good <==> !DominatedBySome(other, sols[i]);
      assert sols[i..][1..] == sols[i + 1..];
      if good {
        r := r + [sols[i]];
      }
      i := i + 1;
    }
    assert sols[i..] == [];
  }

  lemma {:induction false} KeepUndominatedMembers(sols: seq<Solution>, other: seq<Solution>)
    ensures forall x :: x in KeepUndominated(sols, other) <==> x in sols && !DominatedBySome(other, x)
  {
    if |sols| > 0 {
      KeepUndominatedMembers(sols[1..], other);
      assert sols == [sols[0]] + sols[1..];
    }
  }

  /** Filtering twice with the same set filters nothing more. */
  lemma {:induction false} KeepUndominatedIdempotent(sols: seq<Solution>, other: seq<Solution>)
    ensures KeepUndominated(KeepUndominated(sols, other), other) == KeepUndominated(sols, other)
  {
    if |sols| > 0 {
      KeepUndominatedIdempotent(sols[1..], other);
      var rest := KeepUndominated(sols[1..], other);
      if !DominatedBySome(other, sols[0]) {
        assert ([sols[0]] + rest)[1..] == rest;
      } else {
        assert KeepUndominated(sols, other) == rest;
      }
    }
  }

  lemma {:induction false} KeepUndominatedStaircase(sols: seq<Solution>, other: seq<Solution>)
    requires Staircase(sols)
    ensures Staircase(KeepUndominated(sols, other))
  {
    if |sols| > 0 {
      var rest := KeepUndominated(sols[1..], other);
      KeepUndominatedStaircase(sols[1..], other);
      KeepUndominatedMembers(sols[1..], other);
      if !DominatedBySome(other, sols[0]) {
        var r := [sols[0]] + rest;
        forall i, j | 0 <= i < j < |r| ensures r[i].z1 < r[j].z1 && r[i].z2 > r[j].z2 {
          if i == 0 {
            assert r[j] == rest[j - 1];
            assert rest[j - 1] in sols[1..];
            var k :| 0 <= k < |sols[1..]| && sols[1..][k] == rest[j - 1];
            assert sols[k + 1] == r[j];
          } else {
            assert r[i] == rest[i - 1] && r[j] == rest[j - 1];
          }
        }
      }
    }
  }

  /** Filtering an upper bound set leaves an upper bound set. */
  lemma KeepUndominatedFrontier(cfg: Config, sols: seq<Solution>, other: seq<Solution>)
    requires Frontier(cfg, sols)
    ensures Frontier(cfg, KeepUndominated(sols, other))
  {
    var r := KeepUndominated(sols, other);
    FrontierIsStaircase(cfg, sols);
    KeepUndominatedStaircase(sols, other);
    KeepUndominatedMembers(sols, other);
    forall i | 0 <= i < |r| ensures WellFormed(cfg, r[i]) {
      assert r[i] in sols;
    }
    FrontierIsStaircase(cfg, r);
  }
}

=== FILE: util.dfy ===
/** Numeric helpers of `biobab/util.py`: fractionality, average, gcd of a
    list, and tolerance-aware comparison of values and points. */
module Util {
  import opened Common

  /** The module-level tolerance `epsilon = 1e-5`. */
  const Epsilon: real := 0.00001

  /** `infinity = sys.maxsize`: the bound used where no bound applies. */
  const Infinity: real := 9223372036854775807.0

  /** `math.floor`. */
  function Floor(x: real): int {
    x.Floor
  }

  /** `math.ceil`, written through the floor of the negation. */
  function Ceil(x: real): int {
    -((-x).Floor)
  }

  /** The fractional part of `x`, in `[0, 1)`. */
  function Frac(x: real): (f: real)
    ensures 0.0 <= f < 1.0
  {
    x - Floor(x) as real
  }

  lemma CeilFloor(x: real)
    ensures Floor(x) as real <= x <= Ceil(x) as real
    ensures x < Floor(x) as real + 1.0 && Ceil(x) as real < x + 1.0
    ensures x == Floor(x) as real ==> Ceil(x) as real == x
    ensures x != Floor(x) as real ==> Ceil(x) == Floor(x) + 1
  {
    var f := x.Floor;
    var g := (-x).Floor;
    assert f as real <= x < f as real + 1.0;
    assert g as real <= -x < g as real + 1.0;
    assert -g as real - 1.0 < x <= -g as real;
    assert -g - 1 < f + 1 && f <= -g;
    if x == f as real {
      assert -g == f;
    } else {
      assert -g == f + 1;
    }
  }

  /** `isFractional(x)`: more than `Epsilon` away from both neighbouring
      integers.  Equivalently, the fractional part lies strictly between
      `Epsilon` and `1 - Epsilon`, which in particular excludes integers. */
  predicate IsFractional(x: real)
    ensures IsFractional(x) <==> Epsilon < Frac(x) < 1.0 - Epsilon
  {
    CeilFloor(x);
    x > Floor(x) as real + Epsilon && x < Ceil(x) as real - Epsilon
  }

  lemma IntegersAreNotFractional(k: int)
    ensures !IsFractional(k as real)
  {
    assert (k as real).Floor == k;
  }

  function Sum(l: seq<real>): real {
    if |l| == 0 then 0.0 else l[0] + Sum(l[1..])
  }

  function SeqMin(l: seq<real>): (m: real)
    requires |l| > 0
    ensures m in l
    ensures forall i :: 0 <= i < |l| ==> m <= l[i]
  {
    if |l| == 1 then l[0]
    else Min(l[0], SeqMin(l[1..]))
  }

  function SeqMax(l: seq<real>): (m: real)
    requires |l| > 0
    ensures m in l
    ensures forall i :: 0 <= i < |l| ==> l[i] <= m
  {
    if |l| == 1 then l[0]
    else if l[0] < SeqMax(l[1..]) then SeqMax(l[1..]) else l[0]
  }

  /** The sum of a list lies between its length times its minimum and its
      length times its maximum. */
  lemma {:induction false} SumBounds(l: seq<real>, lo: real, hi: real)
    requires forall i :: 0 <= i < |l| ==> lo <= l[i] <= hi
    ensures |l| as real * lo <= Sum(l) <= |l| as real * hi
  {
    if |l| > 0 {
      SumBounds(l[1..], lo, hi);
      assert |l| as real * lo == lo + (|l| - 1) as real * lo;
      assert |l| as real * hi == hi + (|l| - 1) as real * hi;
    }
  }

  /** `listAvg(l)`: the arithmetic mean.  Python divides by `len(l)`, so the
      empty list is excluded (it raises `ZeroDivisionError`). */
  function ListAvg(l: seq<real>): (r: real)
    requires |l| > 0
    ensures SeqMin(l) <= r <= SeqMax(l)
  {
    SumBounds(l, SeqMin(l), SeqMax(l));
    var n := |l| as real;
    DivBounds(Sum(l), n, SeqMin(l), SeqMax(l));
    Sum(l) / n
  }

  lemma DivBounds(s: real, n: real, lo: real, hi: real)
    requires n > 0.0
    requires n * lo <= s <= n * hi
    ensures lo <= s / n <= hi
  {
    assert s / n * n == s;
  }

  /** Python's `%` on integers: the remainder takes the sign of the divisor. */
  function PyMod(a: int, b: int): (r: int)
    requires b != 0
    ensures b > 0 ==> 0 <= r < b
    ensures b < 0 ==> b < r <= 0
  {
    var e := a % b;
    if b < 0 && e != 0 then e + b else e
  }

  /** Python's `//`, the quotient that goes with `PyMod`. */
  function PyDiv(a: int, b: int): int
    requires b != 0
  {
    var e := a % b;
    if b < 0 && e != 0 then a / b - 1 else a / b
  }

  lemma PyDivMod(a: int, b: int)
    requires b != 0
    ensures a == b * PyDiv(a, b) + PyMod(a, b)
  {
    var d, e := a / b, a % b;
    assert a == b * d + e;
    if b < 0 && e != 0 {
      assert b * (d - 1) + (e + b) == b * d + e;
    }
  }

  /** `d` divides `n`; zero divides only zero. */
  predicate Divides(d: int, n: int) {
    if d == 0 then n == 0 else n % d == 0
  }

  function AbsInt(a: int): nat {
    if a < 0 then -a else a
  }

  /** `fractions.gcd(a, b)` of Python 2: Euclid's loop with Python's `%`. */
  function Gcd(a: int, b: int): int
    decreases AbsInt(b)
  {
    if b == 0 then a else Gcd(b, PyMod(a, b))
  }

  lemma DividesMultiple(d: int, n: int, k: int)
    requires Divides(d, n)
    ensures Divides(d, n * k)
  {
    if d != 0 {
      var q := n / d;
      assert n == d * q;
      assert n * k == d * (q * k);
      assert (n * k) % d == (d * (q * k)) % d;
      MulMod(d, q * k);
    }
  }

  lemma MulMod(d: int, q: int)
    requires d != 0
    ensures (d * q) % d == 0
  {
    var r, s := (d * q) % d, (d * q) / d;
    assert d * q == d * s + r;
    assert 0 <= r < AbsInt(d);
    assert d * (q - s) == r;
    if q - s > 0 {
      MulAtLeast(d, q - s);
    } else if q - s < 0 {
      MulAtLeast(d, s - q);
    }
  }

  lemma MulAtLeast(d: int, k: int)
    requires d != 0 && k > 0
    ensures AbsInt(d * k) >= AbsInt(d)
  {
    if d > 0 {
      assert d * k == d + d * (k - 1);
      assert d * (k - 1) >= 0;
    } else {
      assert d * k == d + d * (k - 1);
      assert d * (k - 1) <= 0;
    }
  }

  lemma DividesSum(d: int, m: int, n: int)
    requires Divides(d, m) && Divides(d, n)
    ensures Divides(d, m + n)
  {
    if d != 0 {
      var p, q := m / d, n / d;
      assert m == d * p;
      assert n == d * q;
      assert m + n == d * (p + q);
      MulMod(d, p + q);
    }
  }

  lemma DividesSelf(d: int)
    ensures Divides(d, d)
  {
    if d != 0 {
      MulMod(d, 1);
    }
  }

  lemma DividesZero(d: int)
    ensures Divides(d, 0)
  {
  }

  lemma DividesTrans(a: int, b: int, c: int)
    requires Divides(a, b) && Divides(b, c)
    ensures Divides(a, c)
  {
    if b != 0 {
      var q := c / b;
      assert c == b * q;
      DividesMultiple(a, b, q);
    } else {
      DividesZero(a);
    }
  }

  /** The gcd computed by Euclid's loop divides both arguments. */
  lemma {:induction false} GcdDivides(a: int, b: int)
    ensures Divides(Gcd(a, b), a) && Divides(Gcd(a, b), b)
    decreases AbsInt(b)
  {
    var g := Gcd(a, b);
    if b == 0 {
      DividesSelf(a);
      DividesZero(a);
    } else {
      var r := PyMod(a, b);
      GcdDivides(b, r);
      assert g == Gcd(b, r);
      var q := PyDiv(a, b);
      PyDivMod(a, b);
      DividesMultiple(g, b, q);
      DividesSum(g, b * q, r);
      assert b * q + r == a;
    }
  }

  /** `listGCD(l)`: `reduce(gcd, l)` folds from the left.  Python's `reduce`
      raises `TypeError` on an empty list without an initial value. */
  function ListGcd(l: seq<int>): (g: int)
    requires |l| > 0
  {
    FoldGcd(l[0], l[1..])
  }

  function FoldGcd(acc: int, rest: seq<int>): int
    decreases |rest|
  {
    if |rest| == 0 then acc else FoldGcd(Gcd(acc, rest[0]), rest[1..])
  }

  lemma {:induction false} FoldGcdDivides(acc: int, rest: seq<int>)
    ensures Divides(FoldGcd(acc, rest), acc)
    ensures forall i :: 0 <= i < |rest| ==> Divides(FoldGcd(acc, rest), rest[i])
    decreases |rest|
  {
    if |rest| == 0 {
      DividesSelf(acc);
    } else {
      var g := Gcd(acc, rest[0]);
      GcdDivides(acc, rest[0]);
      FoldGcdDivides(g, rest[1..]);
      var f := FoldGcd(acc, rest);
      assert f == FoldGcd(g, rest[1..]);
      DividesTrans(f, g, acc);
      DividesTrans(f, g, rest[0]);
      forall i | 1 <= i < |rest|
        ensures Divides(f, rest[i])
      {
        assert rest[i] == rest[1..][i - 1];
      }
    }
  }

  /** The gcd of a non-empty list divides every element of it. */
  lemma ListGcdDividesAll(l: seq<int>)
    requires |l| > 0
    ensures forall i :: 0 <= i < |l| ==> Divides(ListGcd(l), l[i])
  {
    FoldGcdDivides(l[0], l[1..]);
    forall i | 1 <= i < |l|
      ensures Divides(ListGcd(l), l[i])
    {
      assert l[i] == l[1..][i - 1];
    }
  }

  /** `similarValues(ub, opt, tolerance)`: absolute comparison when `opt` is
      below the tolerance, relative comparison otherwise.  The requires clause
      is exactly the case where Python's division by `opt` does not raise. */
  predicate SimilarValues(ub: real, opt: real, tolerance: real)
    requires opt < tolerance || opt != 0.0
  {
    if opt < tolerance then Abs(ub - opt) <= tolerance
    else Abs((ub - opt) / opt) <= tolerance
  }

  /** Every value is similar to itself under any non-negative tolerance for
      which the comparison is defined. */
  lemma SimilarValuesReflexive(a: real, tolerance: real)
    requires tolerance >= 0.0
    requires a < tolerance || a != 0.0
    ensures SimilarValues(a, a, tolerance)
  {
  }

  /** In the absolute regime, similarity is exactly a distance bound. */
  lemma SimilarValuesAbsolute(ub: real, opt: real, tolerance: real)
    requires opt < tolerance
    ensures SimilarValues(ub, opt, tolerance) <==> opt - tolerance <= ub <= opt + tolerance
  {
  }

  /** In the relative regime (positive `opt`), similarity is a ratio bound. */
  lemma SimilarValuesRelative(ub: real, opt: real, tolerance: real)
    requires 0.0 < tolerance <= opt
    ensures SimilarValues(ub, opt, tolerance) <==>
      opt - tolerance * opt <= ub <= opt + tolerance * opt
  {
    var d := (ub - opt) / opt;
    assert d * opt == ub - opt;
    if Abs(d) <= tolerance {
      assert -tolerance <= d <= tolerance;
      assert -tolerance * opt <= d * opt <= tolerance * opt;
    }
    if opt - tolerance * opt <= ub <= opt + tolerance * opt {
      assert -tolerance * opt <= d * opt <= tolerance * opt;
      assert -tolerance <= d <= tolerance;
    }
  }

  /** `closeEnough(p1, p2)`: componentwise `similarValues` with `Epsilon`.
      The second `return` of the Python function is unreachable. */
  predicate CloseEnough(p: Point, q: Point) {
    SimilarValues(p.x, q.x, Epsilon) && SimilarValues(p.y, q.y, Epsilon)
  }

  lemma CloseEnoughReflexive(p: Point)
    ensures CloseEnough(p, p)
  {
  }
}

=== FILE: weightedsumsolver.dfy ===
/** The single-objective solver of `biobab/weightedsumsolver.py`: a tree
    search whose nodes are bounded by one weighted-sum solve, the selection
    of the best solution it found, and lexicographic minima built from two
    weighted-sum solves.  The lp and the tree search are parameters. */
module WeightedSumSolver {
  import opened Common
  import Util
  import opened BasicData
  import opened Params
  import opened IntegerSolution
  import opened Segments
  import opened UpperBoundSet
  import opened BiobabNode

  /** The weights `w1`, `w2` of the two objectives. */
  datatype Weights = Weights(w1: real, w2: real)

  /** `wsValue(z1, z2)`. */
  function WsValue(w: Weights, p: Point): real {
    w.w1 * p.x + w.w2 * p.y
  }

  /** A smaller point never has a larger weighted value under non-negative
      weights, and a strictly smaller one has a strictly smaller value
      under positive weights. */
  lemma WsValueMonotone(w: Weights, p: Point, q: Point)
    requires w.w1 >= 0.0 && w.w2 >= 0.0 && p.x <= q.x && p.y <= q.y
    ensures WsValue(w, p) <= WsValue(w, q)
    ensures w.w1 > 0.0 && w.w2 > 0.0 && p != q ==> WsValue(w, p) < WsValue(w, q)
  {
    if w.w1 > 0.0 {
      MulMono(p.x, q.x, w.w1);
    }
    if w.w2 > 0.0 {
      MulMono(p.y, q.y, w.w2);
    }
    if w.w1 > 0.0 && w.w2 > 0.0 && p != q {
      if p.x < q.x {
        assert w.w1 * (q.x - p.x) > 0.0;
      } else {
        assert w.w2 * (q.y - p.y) > 0.0;
      }
    }
  }

  /** A coordinate less than `tolerance` beyond its bound is moved onto the
      bound; any other coordinate is kept. */
  function Snap(v: real, bound: real, tolerance: real): (r: real)
    ensures r == v || (r == bound && bound < v)
    ensures r <= bound <==> v <= bound || v - bound < tolerance
  {
    if bound < v && v - bound < tolerance then bound else v
  }

  /** Snapping twice is snapping once, and a value within its bound is
      never moved. */
  lemma SnapIdempotent(v: real, bound: real, tolerance: real)
    ensures Snap(Snap(v, bound, tolerance), bound, tolerance) == Snap(v, bound, tolerance)
    ensures v <= bound ==> Snap(v, bound, tolerance) == v
  {
  }

  /** Some upper bound solution has a weighted value at most `value`
      (strictly below it, when `strict`). */
  predicate Undercut(ub: seq<Solution>, w: Weights, value: real, strict: bool) {
    exists i :: 0 <= i < |ub| && (if strict then WsValue(w, ub[i].Point()) < value else WsValue(w, ub[i].Point()) <= value)
  }

  /** `WeightedSumNode.lowerBound(upperBound)` given the lp's answer `e1`
      and the metadata of its solution: nothing when the lp is infeasible or
      an upper bound solution is at least as good, otherwise the single
      point (snapped onto the node's bounds) as a degenerate segment. */
  function WsLowerBound(cfg: Config, w: Weights, right: real, top: real, e1: Option<Point>, md: MetaData,
                        ub: seq<Solution>): (r: seq<Segment>)
    ensures e1.None? ==> r == []
    ensures e1.Some? ==> (r == [] <==> Undercut(ub, w, WsValue(w, e1.value), false))
    ensures r != [] ==> (
      && |r| == 1 && r[0].p1 == r[0].p2 && r[0].right == right && r[0].top == top
      && r[0].p1 == Point(Snap(e1.value.x, right, cfg.feasibilityTolerance), Snap(e1.value.y, top, cfg.feasibilityTolerance))
      && r[0].meta1 == md && r[0].meta2 == md)
  {
    match e1
    case None => []
    case Some(e) =>
      if Undercut(ub, w, WsValue(w, e), false) then []
      else
        var p := Point(Snap(e.x, right, cfg.feasibilityTolerance), Snap(e.y, top, cfg.feasibilityTolerance));
        [Segment(p, p, right, top, None, md, md)]
  }

  /** The segment is one the `Segment` constructor builds. */
  lemma WsLowerBoundWellBuilt(cfg: Config, w: Weights, right: real, top: real, e1: Option<Point>, md: MetaData,
                              ub: seq<Solution>)
    ensures forall s :: s in WsLowerBound(cfg, w, right, top, e1, md, ub) ==> WellBuilt(s)
  {
  }

  /** `WeightedSumBounder.bound(node, ub)` on the node's lower bound set: an
      empty set passes, and a point is cut off when some upper bound
      solution is strictly better. */
  function WsBound(w: Weights, lb: seq<Segment>, ub: seq<Solution>): (r: seq<Segment>)
    ensures r == lb || r == []
    ensures lb == [] ==> r == []
    ensures lb != [] ==> (r == [] <==> Undercut(ub, w, WsValue(w, lb[0].p1), true))
  {
    if |lb| == 0 then lb
    else if Undercut(ub, w, WsValue(w, lb[0].p1), true) then []
    else lb
  }

  /** Under non-negative weights the bounder never removes a point that the
      node's own cutoff kept: snapping only lowers the point, and the node
      already cut off at equal values. */
  lemma BoundKeepsNodeResult(cfg: Config, w: Weights, right: real, top: real, e1: Option<Point>, md: MetaData,
                             ub: seq<Solution>)
    requires w.w1 >= 0.0 && w.w2 >= 0.0
    ensures var lb := WsLowerBound(cfg, w, right, top, e1, md, ub); WsBound(w, lb, ub) == lb
  {
    var lb := WsLowerBound(cfg, w, right, top, e1, md, ub);
    if lb != [] {
      var e := e1.value;
      var p := lb[0].p1;
      WsValueMonotone(w, p, e);
    }
  }

  /** The solution lies within the bounds. */
  predicate InBounds(u: Solution, right: real, top: real) {
    u.z1 <= right && u.z2 <= top
  }

  /** The selection loop of `solve` over the first `n` solutions found: the
      index of the earliest solution of least weighted value within the
      bounds. */
  function BestIndex(sols: seq<Solution>, w: Weights, right: real, top: real, n: nat): (r: Option<nat>)
    requires n <= |sols|
    ensures r.None? <==> forall j :: 0 <= j < n ==> !InBounds(sols[j], right, top)
    ensures r.Some? ==> r.value < n && InBounds(sols[r.value], right, top)
    ensures r.Some? ==> forall j :: 0 <= j < n && InBounds(sols[j], right, top) ==>
      WsValue(w, sols[r.value].Point()) <= WsValue(w, sols[j].Point())
    ensures r.Some? ==> forall j :: 0 <= j < r.value && InBounds(sols[j], right, top) ==>
      WsValue(w, sols[r.value].Point()) < WsValue(w, sols[j].Point())
    decreases n
  {
    if n == 0 then None
    else
      var prev := BestIndex(sols, w, right, top, n - 1);
      var u := sols[n - 1];
      if !InBounds(u, right, top) then prev
      else if prev.None? then Some(n - 1)
      else if WsValue(w, u.Point()) < WsValue(w, sols[prev.value].Point()) then Some(n - 1)
      else prev
  }

  /** What `WeightedSumSolver.solve` returns, and the caller's upper bound
      set after it. */
  datatype WsOutcome = WsOutcome(best: Option<Point>, ub: seq<Solution>)

  /** `solve(lp, w1, w2, right, top, ub)` after the tree search found the
      solutions `found` (in the order of its own upper bound set): the best
      one within the bounds, and every found solution offered to `ub`. */
  function Solve(found: seq<Solution>, w: Weights, right: real, top: real, ub: seq<Solution>): (r: WsOutcome)
    ensures r.ub == UpdateAll(ub, found)
    ensures r.best.None? <==> forall j :: 0 <= j < |found| ==> !InBounds(found[j], right, top)
    ensures r.best.Some? ==> exists j :: (
      && 0 <= j < |found| && InBounds(found[j], right, top)
      && r.best.value == found[j].Point()
      && forall k :: 0 <= k < |found| && InBounds(found[k], right, top) ==> WsValue(w, found[j].Point()) <= WsValue(w, found[k].Point()))
  {
    var b := BestIndex(found, w, right, top, |found|);
    WsOutcome(if b.None? then None else Some(found[b.value].Point()), UpdateAll(ub, found))
  }

  /** The caller's upper bound set stays an upper bound set and covers
      every solution the search found. */
  lemma SolveMergesFound(cfg: Config, found: seq<Solution>, w: Weights, right: real, top: real, ub: seq<Solution>)
    requires Frontier(cfg, ub) && AllWellFormed(cfg, found)
    ensures Frontier(cfg, Solve(found, w, right, top, ub).ub)
    ensures AllCovered(Solve(found, w, right, top, ub).ub, found)
    ensures AllCovered(Solve(found, w, right, top, ub).ub, ub)
  {
    UpdateAllCovers(cfg, ub, found);
  }

  // ---------------------------------------------------------------------
  // Lexicographic minima

  /** The weighted-sum solver as a function of weights and bounds. */
  type WsSolver = (Weights, real, real) -> Option<Point>

  /** `solveLex(lp, firstObj, right, top, ub)`: minimise the first objective,
      then the other one with the first bounded by its optimum (and the
      other bound lifted to `util.infinity`). */
  function SolveLex(ws: WsSolver, firstObj: int, right: real, top: real): Option<Point> {
    var w := if firstObj == 1 then Weights(1.0, 0.0) else Weights(0.0, 1.0);
    match ws(w, right, top)
    case None => None
    case Some(point) =>
      var r := if firstObj == 1 then point.x else Util.Infinity;
      var t := if firstObj == 2 then point.y else Util.Infinity;
      ws(Weights(w.w2, w.w1), r, t)
  }

  /** `solveWS(lp, firstObj, right, top, ub)`: one solve whose weights favour
      the first objective by the instance's `wsEpsilon`. */
  function SolveWS(ws: WsSolver, wsEpsilon: real, firstObj: int, right: real, top: real): Option<Point> {
    var w := if firstObj == 1 then Weights(1.0, wsEpsilon) else Weights(wsEpsilon, 1.0);
    ws(w, right, top)
  }

  /** `LexminSolver.solve` as written: an unknown method reaches the error
      message, which reads the misspelt `params.lexMinMethod` and so raises
      `AttributeError` before `sys.exit(22)`. */
  function Lexmin(how: LexminMethod, ws: WsSolver, wsEpsilon: real, firstObj: int, right: real, top: real)
    : (r: Fallible<Option<Point>>)
    ensures r.Raises? <==> how == OtherMethod
  {
    match how
    case Lex => Ok(SolveLex(ws, firstObj, right, top))
    case WeightedSum => Ok(SolveWS(ws, wsEpsilon, firstObj, right, top))
    case OtherMethod => Raises(AttributeError)
  }

  /** An unknown method never exits with the intended code. */
  lemma LexminUnknownMethodRaises(ws: WsSolver, wsEpsilon: real, firstObj: int, right: real, top: real)
    ensures Lexmin(OtherMethod, ws, wsEpsilon, firstObj, right, top) == Raises(AttributeError)
    ensures Lexmin(OtherMethod, ws, wsEpsilon, firstObj, right, top) != Raises(Exit(22))
  {
  }

  /** `LexminSolver.solve` with the message reading `params.lexminMethod`:
      an unknown method exits with code 22. */
  function LexminIntended(how: LexminMethod, ws: WsSolver, wsEpsilon: real, firstObj: int, right: real, top: real)
    : (r: Fallible<Option<Point>>)
    ensures r.Raises? <==> how == OtherMethod
    ensures r.Raises? ==> r.error == Exit(22)
    ensures how != OtherMethod ==> r == Lexmin(how, ws, wsEpsilon, firstObj, right, top)
  {
    match how
    case Lex => Ok(SolveLex(ws, firstObj, right, top))
    case WeightedSum => Ok(SolveWS(ws, wsEpsilon, firstObj, right, top))
    case OtherMethod => Raises(Exit(22))
  }

  /** The answer of an exact weighted-sum solver over the finite set `F` of
      feasible objective points: `None` exactly when no point lies within
      the bounds, otherwise a point within the bounds of least weighted
      value. */
  predicate ExactAnswer(a: Option<Point>, w: Weights, right: real, top: real, F: seq<Point>) {
    && (a.None? <==> forall i :: 0 <= i < |F| ==> !Within(F[i], right, top))
    && (a.Some? ==> (
          && a.value in F && Within(a.value, right, top)
          && forall i :: 0 <= i < |F| && Within(F[i], right, top) ==> WsValue(w, a.value) <= WsValue(w, F[i])))
  }

  ghost predicate Exact(ws: WsSolver, F: seq<Point>) {
    forall w, right, top :: ExactAnswer(ws(w, right, top), w, right, top, F)
  }

  /** The first point is the lexicographic minimum within the bounds when
      the first objective is minimised first. */
  predicate LexMinimal(p: Point, firstObj: int, right: real, top: real, F: seq<Point>) {
    && p in F && Within(p, right, top)
    && forall i :: 0 <= i < |F| && Within(F[i], right, top) ==>
         if firstObj == 1 then p.x < F[i].x || (p.x == F[i].x && p.y <= F[i].y)
         else p.y < F[i].y || (p.y == F[i].y && p.x <= F[i].x)
  }

  /** With an exact weighted-sum solver, `solveLex` returns a lexicographic
      minimum, even though the second solve drops the original bound on the
      other objective. */
  lemma SolveLexIsLexmin(ws: WsSolver, F: seq<Point>, firstObj: int, right: real, top: real)
    requires Exact(ws, F) && (firstObj == 1 || firstObj == 2)
    requires right <= Util.Infinity && top <= Util.Infinity
    ensures SolveLex(ws, firstObj, right, top).None? <==> forall i :: 0 <= i < |F| ==> !Within(F[i], right, top)
    ensures SolveLex(ws, firstObj, right, top).Some? ==> LexMinimal(SolveLex(ws, firstObj, right, top).value, firstObj, right, top, F)
  {
    var w := if firstObj == 1 then Weights(1.0, 0.0) else Weights(0.0, 1.0);
    assert ExactAnswer(ws(w, right, top), w, right, top, F);
    if ws(w, right, top).Some? {
      var p1 := ws(w, right, top).value;
      var r := if firstObj == 1 then p1.x else Util.Infinity;
      var t := if firstObj == 2 then p1.y else Util.Infinity;
      var w2 := Weights(w.w2, w.w1);
      assert ExactAnswer(ws(w2, r, t), w2, r, t, F);
      assert Within(p1, r, t);
      var p2 := ws(w2, r, t).value;
      assert p2 == SolveLex(ws, firstObj, right, top).value;
      assert Within(p2, right, top);
      forall i | 0 <= i < |F| && Within(F[i], right, top)
        ensures if firstObj == 1 then p2.x < F[i].x || (p2.x == F[i].x && p2.y <= F[i].y)
                else p2.y < F[i].y || (p2.y == F[i].y && p2.x <= F[i].x)
      {
        assert WsValue(w, p1) <= WsValue(w, F[i]);
        assert WsValue(w, p1) <= WsValue(w, p2);
        if firstObj == 1 && p2.x == F[i].x {
          assert Within(F[i], r, t);
        } else if firstObj == 2 && p2.y == F[i].y {
          assert Within(F[i], r, t);
        }
      }
    }
  }

  /** With an exact solver and a positive `wsEpsilon`, `solveWS` returns a
      point within the bounds that no other point within the bounds
      dominates. */
  lemma SolveWSIsEfficient(ws: WsSolver, F: seq<Point>, wsEpsilon: real, firstObj: int, right: real, top: real)
    requires Exact(ws, F) && wsEpsilon > 0.0
    ensures SolveWS(ws, wsEpsilon, firstObj, right, top).None? <==> forall i :: 0 <= i < |F| ==> !Within(F[i], right, top)
    ensures var r := SolveWS(ws, wsEpsilon, firstObj, right, top);
      r.Some? ==> (
        && r.value in F && Within(r.value, right, top)
        && forall i :: 0 <= i < |F| && Within(F[i], right, top) && F[i].x <= r.value.x && F[i].y <= r.value.y ==> F[i] == r.value)
  {
    var w := if firstObj == 1 then Weights(1.0, wsEpsilon) else Weights(wsEpsilon, 1.0);
    assert ExactAnswer(ws(w, right, top), w, right, top, F);
    if ws(w, right, top).Some? {
      var p := ws(w, right, top).value;
      forall i | 0 <= i < |F| && Within(F[i], right, top) && F[i].x <= p.x && F[i].y <= p.y
        ensures F[i] == p
      {
        WsValueMonotone(w, F[i], p);
      }
    }
  }
}
